=== FILE: README.md ===
# Pet shop storefront and admin dashboard, modelled in Dafny

This project models the core of a Flask/SQLAlchemy pet-supply shop:
- the cart, order, address and account services;
- the request checks the cart, login/registration and admin controllers run before calling those services;
- the catalogue listing, filtering, sorting and grouping;
- the admin dashboard's statistics, revenue charts and lists.

The database is one immutable value (`Models.Db`). It holds the category, product, account, address and order tables as sequences in table order, credentials as a map keyed by username, and carts as a map keyed by account. Every service call is a pure function returning a `Step` that carries the answer and the database it leaves behind. A failed call either leaves the database unchanged or says exactly what it kept.

Prices and totals are integers in minor units. Nullable columns are `Option`s. A raw request value is `Requests.Value`. The following are parameters:
- the password hash and check;
- the money parser of the admin form;
- the wall clock.

Modules, one per file:
- `Outcomes`: answers and failure messages.
- `Text`: `strip`, `lower`, `title`, `isdigit`, `int()` on digit strings, substring search and string order.
- `Calendar`: day numbers of the proleptic Gregorian calendar, the month arithmetic of the charts, and the `strptime` reading of a birth date.
- `Models`: the tables and their key invariants (`Valid`).
- `CartService`, `OrderService`, `AuthService`, `ProductService`: the services.
- `Requests`: how request values are read.
- `CartController`, `AuthController`, `AdminController`, `ProductController`: the request handlers.
- `AdminReports`: the dashboard queries of the admin app.

The code has these behaviours a reader may not expect:
- placing an order does not decrement stock;
- there is no cancel operation that restores stock;
- placing an order does not check that the address belongs to the customer;
- an account can be left with no default address.

## Model

| member | source | states |
|---|---|---|
| Models.ParseStatus | models/models.py:124 | a status string is accepted only if it names one of the four statuses |
| Models.StatusRoundTrip | models/models.py:124 | every status reads back from its name, and exactly the four names pending, shipped, delivered, canceled are accepted |
| Models.FindProduct | models/models.py:21 | finds the first product row with the id, or says that no row has it |
| Models.FindActive | services/services.py:376-378 | returns an active product with the id, or says that no product with that id is active |
| Models.CategoryName | admin_app.py:568-569 | a category name exists exactly when some category has the id, and it is that category's name |
| Models.LineQtyFound | models/models.py:108-110 | a cart holds a quantity for a product exactly when one of its lines is for that product |
| CartService.WithCart | services/services.py:353-365 | the account has a cart afterwards: the existing one, or a new empty one with counter 0; nothing else changes |
| CartService.AddToCart | services/services.py:368-412 | the cart exists afterwards even when the add fails; a missing or inactive product fails with "not found"; the add succeeds exactly when the stock covers both the requested quantity and the held quantity plus the request; on success the line holds old + requested and the counter is the sum of the line quantities; products are untouched |
| CartService.AddToCartKeepsOtherLines | services/services.py:389-402 | a successful add changes no other product's line |
| CartService.CounterMoves | services/services.py:404-505 | the counter moves by exactly the quantity added, removed or changed |
| CartService.AddLineLookup | services/services.py:389-402 | adding to a product's line yields the held quantity plus the added one, and leaves every other line as it was |
| CartService.AddLineKeyed | models/models.py:108-109 | adding keeps one line per product and raises the quantity sum by the amount added |
| CartService.RemoveFromCart | services/services.py:459-484 | fails with "cart not found" or "not in cart" and changes nothing in either case; on success the product's line is gone, the other lines are unchanged and the counter is the new line sum |
| CartService.UpdateCartItem | services/services.py:487-512 | succeeds exactly when the cart and the line exist, with no stock re-check; the line then holds the new quantity, the other lines are unchanged and the counter is the line sum |
| CartService.ClearCart | services/services.py:515-530 | fails without a cart; on success the cart keeps no lines and its counter is 0 |
| CartService.UpdateCartTotal | services/services.py:444-456 | the counter becomes the sum of the line quantities; without a cart nothing changes |
| CartService.GetCartItems | services/services.py:415-441 | one item per cart line whose product exists, with that line's quantity and the product's price (0 when none) and name |
| CartService.ItemsQuantityIsCounter | services/services.py:415-441 | in a valid database the items list has one entry per line and its quantities sum to the cart counter |
| CartService.StoreLinesKeepsValid | services/services.py:389-405 | storing lines that are one per product and in the catalogue keeps every table invariant |
| CartService.AddToCartKeepsValid | services/services.py:368-412 | adding to the cart keeps every table invariant |
| CartService.RemoveFromCartKeepsValid | services/services.py:459-484 | removing a line keeps every table invariant |
| CartService.UpdateCartItemKeepsValid | services/services.py:487-512 | changing a quantity keeps every table invariant |
| CartService.ClearCartKeepsValid | services/services.py:515-530 | clearing keeps every table invariant |
| CartService.UpdateCartTotalKeepsValid | services/services.py:444-456 | recounting keeps every table invariant |
| OrderService.OrderLinesOf | services/services.py:552-575 | one order line per joined cart line, copying its product, quantity and the product's sale price; the lines add up to the total stored with the order |
| OrderService.CopiedLinesTotal | services/services.py:552-555 | lines that copy each joined line's quantity and sale price sum, as quantity × unit price, to the total computed from the cart |
| OrderService.JoinedTotalIsItemsTotal | services/services.py:552-555 | the order total equals the total the cart page shows for the same lines |
| OrderService.CreateOrder | services/services.py:535-586 | fails with "empty cart" when there is no cart, the counter is 0 or no line has a product, and changes nothing when it fails; on success it appends exactly one pending order for the account and address, with one line per cart line, total = Σ qty × price, the cart emptied and its counter 0, and products (stock included) unchanged |
| OrderService.OrderMatchesCart | services/services.py:552-575 | in a valid database the new order's lines follow the cart lines one for one and its total is the cart page's total |
| OrderService.CreateOrderKeepsValid | services/services.py:535-586 | placing an order keeps every table invariant |
| AuthService.RegisterUser | services/services.py:12-50 | refused, changing nothing, exactly when the username is taken or a non-empty birth date is one `strptime` cannot read, the username check coming first; otherwise exactly one account, holding the date read (none for an empty field), and one active credential are added, and the existing credentials are kept |
| AuthService.UnreadableBirthDateRefused | services/services.py:15-26 | a birth date `15/03/2000` or `2023-02-30` is refused with the username free, and nothing changes |
| AuthService.RegisterUserKeepsValid | services/services.py:12-50 | registering keeps every table invariant, usernames unique included |
| AuthService.LoginUser | services/services.py:53-64 | succeeds exactly when the username exists, is active and the password matches its hash, and returns that account |
| AuthService.RegisterThenLogin | services/services.py:12-64 | an account just registered, with a free username and a readable birth date, can log in with its password |
| AuthService.AddAddress | services/services.py:120-149 | refused, changing nothing, when the account already has 5 addresses; otherwise one row is added and other accounts' rows are kept; with the default flag set the new row is the account's only default and its older rows lose only their flag, and without it the existing rows are unchanged |
| AuthService.UpdateAddress | services/services.py:152-178 | refused when the address is not the caller's; otherwise the row is rewritten, the address count is kept, and the default rule is the same as for adding: with the flag, the caller's other rows lose only their flag |
| AuthService.DeleteAddress | services/services.py:181-210 | refused when the address is not the caller's or is the last one; a storage failure, changing nothing, when an order refers to it (the order's address key admits no dangling reference); otherwise exactly that row is removed, and if it was the default the caller's first remaining address becomes default and nothing else changes |
| AuthService.AddressCapKept | services/services.py:124-126 | no address operation takes an account past 5 addresses |
| AuthService.AtMostOneDefaultKept | services/services.py:127-139 | no address operation gives an account a second default |
| AuthService.FirstAddressMayHaveNoDefault | services/services.py:120-149 | a first address added without the default flag leaves the account with no default |
| AuthService.AddAddressKeepsValid | services/services.py:120-149 | adding an address keeps every table invariant |
| AuthService.UpdateAddressKeepsValid | services/services.py:152-178 | updating an address keeps every table invariant |
| AuthService.DeleteAddressKeepsValid | services/services.py:181-210 | deleting an address keeps every table invariant |
| AuthService.DeleteAddressRemovesRow | services/services.py:195-203 | after a successful delete no address row has the deleted id |
| AuthService.DeleteKeepsOrderAddresses | models/models.py:122-128 | every order's address still exists after any delete |
| ProductService.ViewOf | services/services.py:285-295 | a product's listing entry carries its id, name, its category's name as kind, brand and description (empty when missing), sale price (0 when none) and stock |
| ProductService.GetAllProducts | services/services.py:254-301 | lists exactly the active products whose category exists, each as its listing entry |
| ProductService.GetProductById | services/services.py:304-348 | returns the listing entry of the listed product with that id, or says that none is listed |
| ProductService.ByIdAgreesWithListing | services/services.py:254-348 | the product detail is in the listing, and it is the listing's entry for that id |
| ProductController.FilterCategory | controllers/product_controller.py:34-35 | keeps exactly the products whose type equals the category ignoring case, with their multiplicities |
| ProductController.FilterSearch | controllers/product_controller.py:38-43 | keeps exactly the products whose lower-cased name, brand or (on the page) description contains the lower-cased term |
| ProductController.Filtered | controllers/product_controller.py:33-43 | an empty category and search leave the list unchanged; otherwise each product is kept exactly when it passes both filters |
| ProductController.SortProducts | controllers/product_controller.py:46-51 | the output is a permutation of the input, sorted by the key |
| ProductController.BeforeTotal | controllers/product_controller.py:46-51 | any two products are ordered one way or the other |
| ProductController.BeforeTransitive | controllers/product_controller.py:46-51 | the sort order is transitive |
| ProductController.ListProducts | controllers/product_controller.py:27-51 | the page's list is a permutation of the filtered catalogue, sorted by the requested key |
| ProductController.ListingOrder | controllers/product_controller.py:46-51 | "price_low" gives non-decreasing prices, "price_high" non-increasing prices, and any other value names in ascending order |
| ProductController.ApiProducts | controllers/product_controller.py:85-99 | the API keeps a product exactly when it passes the category filter and its name or brand contains the term |
| ProductController.DescriptionOnlyInPage | controllers/product_controller.py:38-99 | a product matched only by its description is listed on the page but not by the API |
| ProductController.Related | controllers/product_controller.py:71-73 | the first 4 (or all, when fewer) of the other products of the same type, kept in listing order |
| ProductController.Categories | controllers/product_controller.py:141-156 | one group per type, named by its title case; each group holds exactly the products of its type, its count is the length of that list, every product is in a group and the counts sum to the number of products |
| Requests.ToInt | controllers/cart_controller.py:62-64 | `int()` of a number is itself; a string converts exactly when it is a decimal integer; anything else raises a type error |
| Requests.KeyOf | services/services.py:466-469 | the database compares a raw identifier with the integer key as MySQL does: a number is itself, a string is its numeric prefix (an integer when the value is whole, no key when it has a fraction), `None` selects no key, and a list or object is taken to fail the query |
| Requests.IdentityKey | controllers/admin_controller.py:235 | `Query.get` reads a one-element list, or an object with just the key column, as the value it holds; any other list or object, or a list or object inside, fails; anything else is read as `KeyOf` reads it |
| Requests.WrappedIdentity | controllers/admin_controller.py:235 | a value in a one-element list, or under the key column in an object, selects what it selects on its own |
| Requests.IntegerValue | services/services.py:466-469 | a decimal number is an integer exactly when its digits after the point are zeros, and that integer times the scale gives it back |
| Requests.KeyOfIntString | services/services.py:466-469 | the string of an integer selects that integer's key |
| Requests.NumericPrefixKey | services/services.py:466-469 | digits followed by text that cannot continue a number select the key the digits spell, so `"12abc"` matches 12 |
| Requests.NoNumberReadsZero | services/services.py:466-469 | a string that does not start like a number selects key 0 |
| Requests.ZeroFractionKey | services/services.py:494-497 | `"1.0"` selects key 1 |
| Requests.ExponentKey | controllers/admin_controller.py:235 | `"1e1"` selects key 10 |
| Requests.FractionKey | services/services.py:494-497 | `"1.5"` selects no key |
| Requests.TextField | controllers/admin_controller.py:291-292 | a missing field reads as empty, a string is stripped, anything else fails |
| CartController.UnmatchedKeyFindsNothing | services/services.py:466-469 | a product id the database reads as 0 or as a fraction matches no product in a consistent state |
| CartController.RemoveByKey | services/services.py:459-484 | removal with the raw id: a key removes as the service does, a fraction finds no line, and a failed query changes nothing |
| CartController.UpdateByKey | services/services.py:487-509 | update with the raw id: a key updates as the service does, a fraction finds no line, and a failed query changes nothing |
| CartController.NoIntegerIsMissingLine | services/services.py:466-473 | a fraction id answers exactly as a product id the cart has no line for |
| CartController.AddToCartRequest | controllers/cart_controller.py:35-100 | not logged in answers 401; a form quantity that is not an integer answers 500; a missing id answers 400; a product id that does not convert answers 400, or 500 for a null, list or object value, before the quantity is looked at; a failed check leaves the database alone; the cart changes only for an integer id and a quantity > 0; a success answers with the number of cart lines |
| CartController.NonNumericProductIdRefused | controllers/cart_controller.py:62-69 | a JSON request whose product id is a non-numeric string answers 400, whatever its quantity holds |
| CartController.FormQuantityIsParsed | controllers/cart_controller.py:52-64 | a form with numeric id and quantity adds exactly that quantity of that product |
| CartController.ApplyQuantity | controllers/cart_controller.py:137-157 | quantity 0 removes the line with subtotal 0; a positive quantity updates it with subtotal price × quantity (0 for an unknown product); the answer carries the new cart total and line count |
| CartController.UpdateCartRequest | controllers/cart_controller.py:103-169 | not logged in answers 401; a missing id answers 400; a non-numeric quantity answers 400; a negative one answers 400; otherwise the quantity is routed as above |
| CartController.RemoveCartRequest | controllers/cart_controller.py:171-213 | not logged in answers 401; a missing id answers 400; otherwise the line is removed and the answer carries the new total and line count |
| CartController.ClearCartRequest | controllers/cart_controller.py:216-245 | a successful clear answers total 0 and count 0, which is what the emptied cart holds |
| CartController.ViewCart | controllers/cart_controller.py:15-32 | the page shows the cart items, their total Σ price × quantity and the number of lines |
| CartController.AddressKey | controllers/cart_controller.py:288 | a missing or empty address field becomes address 1, an integer string that integer, and any other string an address no row has |
| CartController.JunkAddressRefused | controllers/cart_controller.py:288-290 | an address field that is not an integer never places an order |
| CartController.PlaceOrderRequest | controllers/cart_controller.py:277-303 | the order is placed with the account and address only, and a refusal changes nothing |
| CartController.ApiCartCount | controllers/cart_controller.py:316-329 | not logged in gives count 0; otherwise the number of lines and the quantity sum |
| CartController.CartCountMeaning | controllers/cart_controller.py:319-327 | in a valid database the count is the number of cart lines and the total quantity is the cart counter |
| AuthController.Login | controllers/auth_controller.py:8-39 | an empty stripped username or password is refused before the service is called; otherwise the service decides, on the stripped values |
| AuthController.FirstFailedCheck | controllers/auth_controller.py:60-90 | each registration check fails exactly when the earlier ones pass and its own condition holds: an empty required field, a non-empty confirmation that differs, a password under 6 characters, a phone that is not 10 or more digits |
| AuthController.Register | controllers/auth_controller.py:51-104 | a form failing a check is answered with the first failed check and changes nothing; only a form passing all checks reaches the service, with the stripped values |
| AuthController.RegisterThenLoginForms | controllers/auth_controller.py:8-104 | a registration form that creates an account lets the same username and password log in to it |
| AuthController.ShortPhoneRefused | controllers/auth_controller.py:88-90 | a phone number under 10 characters never creates an account |
| AdminController.NewProduct | controllers/admin_controller.py:91-104 | the new row is active, with the stripped name, the converted sale price, stock and category, a cost and import price that are NULL when sent empty and converted otherwise, and the stripped brand and description |
| AdminController.AddProduct | controllers/admin_controller.py:67-118 | refused when a required field is empty, then when a value does not convert, then when the category does not exist, changing nothing; otherwise exactly one product is appended |
| AdminController.AddProductKeepsValid | controllers/admin_controller.py:67-118 | adding a product keeps every table invariant |
| AdminController.DeleteProduct | controllers/admin_controller.py:155-170 | only the product's active flag becomes 0; every other row and field stays; a missing product answers 500 |
| AdminController.DeletedProductInactive | controllers/admin_controller.py:162-164 | a deleted product is no longer active but still present, and carts are untouched |
| AdminController.UpdateOrderStatus | controllers/admin_controller.py:221-243 | a missing order id or status answers 400; an id `get_or_404` cannot read or reads as no existing order answers 500; otherwise only that order's status changes, to a status name the table accepts |
| AdminController.WrappedOrderId | controllers/admin_controller.py:235 | an order id sent as `[id]` or `{"MaDonHang": id}` answers exactly as the id itself |
| AdminController.ListOrderIdUpdates | controllers/admin_controller.py:232-237 | `{"order_id": [5], "status": "shipped"}` updates order 5 |
| AdminController.TwoOrderIdsRefused | controllers/admin_controller.py:235 | an order id of two values answers 500 and changes nothing |
| AdminController.AnyStatusFollowsAny | controllers/admin_controller.py:232-237 | any status can be written over any other |
| AdminController.UpdateOrderStatusKeepsValid | controllers/admin_controller.py:221-243 | a status write keeps every table invariant |
| AdminController.AddCategory | controllers/admin_controller.py:284-311 | an empty stripped name or a name already used answers 400, changing nothing; otherwise exactly one category with the stripped name is added |
| AdminController.AddCategoryKeepsNamesDistinct | controllers/admin_controller.py:294-299 | distinct category names stay distinct |
| AdminController.AddCategoryTwiceRefused | controllers/admin_controller.py:294-299 | adding the same category again is refused as a duplicate |
| AdminController.AddCategoryKeepsValid | controllers/admin_controller.py:284-311 | adding a category keeps every table invariant |
| Calendar.MonthsBack | admin_app.py:426-433 | the month is in 1..12, is the requested number of months back, and the year drops at most once |
| Calendar.MonthEnd | admin_app.py:439-445 | the month end is midnight of the month's last day, December rolling into January of the next year |
| Calendar.NextMonthStart | admin_app.py:439-445 | the next month starts `DaysInMonth` days after this one |
| Calendar.ParseIsoDate | services/services.py:25 | `strptime(t, '%Y-%m-%d')` accepts only four digits, `-`, a month text, `-` and a day text with nothing after them, and only a date that exists; it answers that date |
| Calendar.MonthAndDay | services/services.py:25 | after the year, the first `-` ends the month; a date read has that year, starts with a digit and ends with one |
| Calendar.IsoDateRoundTrip | services/services.py:25 | every date written as `YYYY-MM-DD` reads back as itself |
| Calendar.SlashDateRefused | services/services.py:25 | `15/03/2000` is refused |
| Calendar.MissingDayRefused | services/services.py:25 | `2023-02-30` is refused: the shape is right but February has no 30th |
| Calendar.UnpaddedDateRead | services/services.py:25 | `2000-1-5` reads as 5 January 2000: month and day need no leading zero |
| Calendar.SubDays | admin_app.py:355 | going back n days lands n day numbers earlier on a valid date, or is impossible before year 1 |
| AdminReports.ProductStats | admin_app.py:248-251 | the totals count the active products above 10, between 1 and 10, and at 0; the three never sum past the active total, and reach it exactly when no active product has negative stock |
| AdminReports.StockBucketsPartition | admin_app.py:248-251 | the three buckets sum to the active total exactly when no active product has negative stock, and never to more |
| AdminReports.StatusCountsSum | admin_app.py:627-630 | the four status counts add up to the number of orders |
| AdminReports.QuickStatsOrdersAccounted | admin_app.py:627-630 | pending, shipped, delivered and canceled orders make up all orders |
| AdminReports.RevenueWithoutSales | admin_app.py:487-494 | a window with no shipped or delivered order shows 0 |
| AdminReports.RevenueUpdate | admin_app.py:447-459 | revenue counts an order only while it is shipped or delivered: changing one order moves the sum by exactly the change in its contribution |
| AdminReports.RevenueSplits | admin_app.py:447-459 | windows that split another without overlap split its revenue |
| AdminReports.DailyLabels | admin_app.py:341-345 | 7 labels, one per day from six days back to today |
| AdminReports.DailyValues | admin_app.py:469-494 | 7 values, value i being the revenue of the whole day of label i |
| AdminReports.DailySeriesAligned | admin_app.py:491-494 | a day without sales is filled with 0 |
| AdminReports.DailyAgreeAfterFirstDay | admin_app.py:469-494 | the code's daily values and the whole-day values agree on every day but the first |
| AdminReports.WeekWindowAsWritten | admin_app.py:376-381 | week k runs from start + 7k to start + 7k + 6, at the current time of day |
| AdminReports.WeeksPartition | admin_app.py:376-395 | the four intended weeks add up to the revenue of the 28 days |
| AdminReports.MonthlyValues | admin_app.py:404-461 | value i is the revenue of the month 2 − i months back |
| AdminReports.MonthsPartition | admin_app.py:404-461 | the three intended months add up to the revenue from the first of the earliest month to now |
| AdminReports.MonthLabels | admin_app.py:350-356 | label i names the month 2 − i months back |
| AdminReports.SalesChart | admin_app.py:326-510 | period "7", "30" and anything else give the daily, weekly and monthly series with as many labels as values; a date before year 1 answers 500 |
| AdminReports.SalesChartAsWritten | admin_app.py:326-510 | the chart as the code builds it: the same periods, labels and 500 answers as the corrected chart, with the as-written day, week and month windows and month labels |
| AdminReports.AdminStatistics | admin_app.py:241-285 | the stock buckets (partitioning the active products when no stock is negative), the order total, the pending orders (never more than the total) and the account count |
| AdminReports.AdminQuickStats | admin_app.py:601-686 | the stock buckets and status counts (which with the canceled orders make up all orders), today's revenue, the month's revenue from its first midnight, the account count, and 0 new users |
| AdminReports.CustomerName | admin_app.py:533-535 | the stripped "family given" name, or "Khách hàng #id" when that is empty |
| AdminReports.CustomerNameFallback | admin_app.py:533-535 | the name is never empty, and the fallback's id reads back as the account id |
| AdminReports.JoinAccounts | admin_app.py:523-524 | an order is listed with its account exactly when that account exists |
| AdminReports.RecentOrders | admin_app.py:513-555 | at most 10 rows, newest first; row i shows the i-th listed order's id, total, time and status with its customer's non-empty display name |
| AdminReports.RecentOrdersAreNewest | admin_app.py:523-527 | every order with an account is listed, or 10 orders at least as recent are |
| AdminReports.Candidates | admin_app.py:568-572 | exactly the active products with at most 10 in stock whose category exists, with the category's name |
| AdminReports.SortByQuantity | admin_app.py:573-574 | a permutation in ascending stock order |
| AdminReports.LowStockProducts | admin_app.py:558-598 | at most 15 rows, in ascending stock order |
| AdminReports.LowStockListIsTop | admin_app.py:568-575 | every row is a low-stock product with its category, and a candidate left out has at least as much stock as every row shown, the list being full |
| Text.Trim | controllers/auth_controller.py:16-17 | the input without its leading and trailing whitespace: what is cut from either end is whitespace, the result has none at either end, and it is empty exactly when the input is all whitespace |
| Text.TrimIdempotent | controllers/auth_controller.py:60-70 | stripping twice is stripping once |
| Text.Lower | controllers/product_controller.py:35 | lower-casing maps each character and keeps the length |
| Text.TitleCase | controllers/product_controller.py:149 | title case keeps the length, the letters and the lower-case form; a letter that starts a word is upper case and a letter inside a word lower case |
| Text.ParseIntRoundTrip | admin_app.py:535 | the decimal text of an integer parses back to it |
| Text.LexLeTotal | controllers/product_controller.py:51 | any two names are ordered one way or the other |
| Text.LexLeTransitive | controllers/product_controller.py:51 | the name order is transitive |

## Left out

- Prices are integers in minor units. `float(...)` and `Numeric(12,2)` rounding are not modelled.
- `str.isdigit`, `lower` and `title` cover ASCII only. Other Unicode digits and case mappings are not modelled.
- Text.TitleCase: every non-ASCII character counts as a letter when deciding where a word starts. Python's `title()` counts only cased characters, so `"a–b".title()` is "A–B" while the model keeps the "b" lower case.
- `int()` on a string accepts surrounding whitespace, an optional sign and decimal digits. The `_` digit separators Python also accepts are not modelled.
- JSON booleans and floats in request bodies are not modelled: a request value is absent, null, an integer, a string, a list or an object.
- Requests.KeyOf: the cart routes bind the raw id in a `filter_by` comparison, and the model takes a list or object there to fail the query. Under pymysql or mysqlclient a list `[5]` is written into the SQL as `(5)` and may select key 5 instead. The database driver is not part of this model.
- Requests.IdentityKey: the object form follows SQLAlchemy 1.4 and later; older versions read an object as the list of its keys.
- A request body that is not JSON is not modelled.
- Comparing a string with an integer id follows MySQL's reading of the string's numeric prefix: leading spaces and tabs, a sign, digits, a fraction and an exponent.
- Requests.KeyOf: MySQL compares the two as double-precision numbers. The model reads the prefix exactly, so rounding above 2^53 and exponents that overflow a double are not modelled. Leading blanks other than spaces and tabs are not modelled either.
- CartController.AddressKey: a decimal string such as "1.5", which MySQL rounds when it stores it, is read as no address. In a non-strict SQL mode MySQL also stores the numeric prefix of a junk string; that is not modelled.
- Name, username and order-status comparisons are exact. The database collation may compare them case-insensitively, for example storing "Shipped" as the status shipped where the model answers 500. That collation is not modelled.
- Database failures are not modelled, except the foreign-key failures the tables decide: an order for a missing address, and deleting an address an order refers to. The rest of the `except Exception` paths are left out: a failed commit, a lost connection, `get_or_create_cart` returning nothing.
- The exception exits of the handlers that the inputs can reach are modelled as 500 answers: a non-integer form quantity, an unknown order status, a date before year 1.
- The model has no sessions, flash messages, templates or redirects. The logged-in account and the admin flag are parameters.
- The checkout page, order success page, profile, forgot-password and verify-code pages are left out.
- `change_password`, `update_profile` and `get_user_addresses` are left out: they are not among the modelled services.
- Password hashing and checking are function parameters.
- The wall clock is a parameter. Order timestamps come from `datetime.utcnow` while the report windows use `datetime.now`. The model takes both as given instants and does not model the offset between them.
- Microseconds are not modelled: an instant is a day number and a second of that day.
- Calendar.ParseIsoDate: the year and day digits are ASCII. `strptime` matches them with `\d`, which also takes other Unicode decimal digits.
- Cloudinary upload and URL building are left out, and so is the image-list JSON of products.
- Column length limits are not modelled.
- The admin login and its hard-coded credentials are left out.
- Rows with equal sort keys are not fully modelled. The database does not fix an order for them, while the low-stock and recent-order lists fix one, table order.
- Chart labels are `Label` values: a day number, a week number or a month number. The `strftime` text is not modelled.
- AdminReports.SalesChart: the chart is given its intended windows (see Findings). The code's windows are `DailyValuesAsWritten`, `WeeklyValuesAsWritten`, `MonthlyValuesAsWritten` and `MonthLabelsAsWritten`.
- AdminReports.AdminQuickStats: the month's revenue is given its intended window, `MonthToDate`. The code's window is `MonthToDateAsWritten`.

## Findings

| source | as written | input that shows it | evidently intended | confidence | as-written member | corrected member |
|---|---|---|---|---|---|---|
| admin_app.py:341 | the 7-day query keeps orders at or after now − 6 days, at the current time of day, then groups them by date | now at day 1000, 01:00; a delivered order at day 994, 00:00: the first day shows 0 | each of the 7 days sums its whole day | medium, not executed | AdminReports.DailyFirstDayCut | AdminReports.DailyValues |
| admin_app.py:379-391 | week k runs from start + 7k to start + 7k + 6, both ends included, at the current time of day | now at day 1000, 01:00; a delivered order at day 979, 02:00 is within the 28 days but in no week | consecutive weeks that cover the 28 days without gaps | high, not executed | AdminReports.WeeklyGap | AdminReports.WeeksPartition |
| admin_app.py:439-455 | a past month ends at midnight of its last day, included | today 2024-03-15; an order on 2024-02-29 at 01:00 is in no month | a month includes the whole of its last day | high, not executed | AdminReports.MonthEndCutsLastDay | AdminReports.MonthsPartition |
| admin_app.py:354-356 | label i is the month of the date 30 × (2 − i) days before today | today 2024-03-31: the labels read 1, 3, 3 while the values are for January, February and March | label i names the month whose revenue is value i | high, not executed | AdminReports.MonthLabelsDrift | AdminReports.MonthLabelsMatchValues |
| admin_app.py:418 | the current month starts at `now.replace(day=1)`, which keeps the time of day | now 2024-03-15 01:00; an order on 2024-03-01 at 00:00 is not counted | the current month starts at midnight of its first day | medium, not executed | AdminReports.MonthStartKeepsTime | AdminReports.MonthsPartition |
| admin_app.py:642-647 | the quick stats count the month's revenue from `now.replace(day=1)`, which keeps the time of day | now 2024-03-15 01:00; a shipped order on 2024-03-01 at 00:00 is not counted | the month's revenue counts from midnight of its first day | medium, not executed | AdminReports.MonthToDateCut | AdminReports.MonthToDateWholeDays |

=== FILE: admin_controller.dfy ===
/** `AdminController`: the catalog and order writes of the admin blueprint.

    Any signed-in session counts as an admin. Every write runs inside one try block: an
    exception rolls the transaction back and the handler answers with an error, so a refused
    write leaves the database as it was. Money strings are converted by `money`, which stands
    for `float(...)` followed by the column's rounding to minor units.
 */
module AdminController {
  import opened Outcomes
  import opened Text
  import opened Requests
  import opened Models

  datatype AdminResponse =
    | Done
    | Denied                          // no session: 403, or a redirect to the login page
    | FormError(why: Failure)         // the form page is shown again with a flashed message
    | Rejected(status: int, why: Failure)

  // ----- add_product ------------------------------------------------------------------------

  /** The add-product form; `None` is a field the form did not send. */
  datatype ProductForm = ProductForm(
    name: Option<string>, cost: Option<string>, importPrice: Option<string>,
    salePrice: Option<string>, stock: Option<string>, brand: Option<string>,
    description: Option<string>, categoryId: Option<string>)

  function FieldOr(f: Option<string>, d: string): (r: string)
    ensures f.None? ==> r == d
    ensures f.Some? ==> r == f.value
  {
    match f case Some(t) => t case None => d
  }

  predicate HasCategory(cs: seq<Category>, id: int)
  {
    exists j :: 0 <= j < |cs| && cs[j].id == id
  }

  /** An optional money column: an empty field stores NULL, anything else must convert. */
  function OptionalMoney(t: string, money: string -> Option<int>): (r: Option<Option<int>>)
    ensures t == [] ==> r == Some(None)
    ensures t != [] ==> (r.Some? <==> money(t).Some?) && (r.Some? ==> r.value == money(t))
  {
    if t == [] then Some(None)
    else match money(t) case Some(v) => Some(Some(v)) case None => None
  }

  /** The form's required fields are all non-empty: the stripped name, and the sale price, stock
      and category as sent (missing price and stock read as "0"). */
  predicate RequiredPresent(f: ProductForm)
  {
    && Trim(FieldOr(f.name, "")) != []
    && FieldOr(f.salePrice, "0") != []
    && FieldOr(f.stock, "0") != []
    && FieldOr(f.categoryId, "") != []
  }

  /** Every field converts: the money fields through `money`, stock and category through `int()`. */
  predicate Converts(f: ProductForm, money: string -> Option<int>)
  {
    && OptionalMoney(FieldOr(f.cost, "0"), money).Some?
    && OptionalMoney(FieldOr(f.importPrice, "0"), money).Some?
    && money(FieldOr(f.salePrice, "0")).Some?
    && ParseInt(FieldOr(f.stock, "0")).Some?
    && ParseInt(FieldOr(f.categoryId, "")).Some?
  }

  /** The row a valid form inserts, with id `id`. */
  function NewProduct(f: ProductForm, money: string -> Option<int>, id: int): (p: Product)
    requires Converts(f, money)
    ensures p.id == id && IsActive(p) && p.name == Trim(FieldOr(f.name, ""))
    ensures p.salePrice == money(FieldOr(f.salePrice, "0")) && Some(p.stock) == ParseInt(FieldOr(f.stock, "0"))
    ensures Some(p.categoryId) == ParseInt(FieldOr(f.categoryId, ""))
    ensures p.brand == Some(Trim(FieldOr(f.brand, ""))) && p.description == Some(Trim(FieldOr(f.description, "")))
    // an empty cost or import price stores NULL, any other the converted amount
    ensures FieldOr(f.cost, "0") == [] ==> p.cost.None?
    ensures FieldOr(f.cost, "0") != [] ==> p.cost == money(FieldOr(f.cost, "0"))
    ensures FieldOr(f.importPrice, "0") == [] ==> p.importPrice.None?
    ensures FieldOr(f.importPrice, "0") != [] ==> p.importPrice == money(FieldOr(f.importPrice, "0"))
  {
    var stock := ParseInt(FieldOr(f.stock, "0"));
    var category := ParseInt(FieldOr(f.categoryId, ""));
    Product(id, Trim(FieldOr(f.name, "")),
      OptionalMoney(FieldOr(f.cost, "0"), money).value,
      OptionalMoney(FieldOr(f.importPrice, "0"), money).value,
      money(FieldOr(f.salePrice, "0")),
      stock.value,
      Some(Trim(FieldOr(f.brand, ""))), Some(Trim(FieldOr(f.description, ""))),
      ActiveFlag,
      category.value)
  }

  /** `add_product` on a POST. */
  function AddProduct(db: Db, signedIn: bool, f: ProductForm, money: string -> Option<int>): (s: Step<AdminResponse>)
    ensures !signedIn ==> s == Step(Denied, db)
    ensures signedIn && !RequiredPresent(f) ==> s == Step(FormError(MissingField), db)
    ensures signedIn && RequiredPresent(f) && !Converts(f, money) ==> s == Step(FormError(InvalidInput), db)
    ensures s.outcome.Done? <==>
      signedIn && RequiredPresent(f) && Converts(f, money)
      && HasCategory(db.categories, ParseInt(FieldOr(f.categoryId, "")).value)
    ensures !s.outcome.Done? ==> s.db == db
    ensures s.outcome.Done? ==>
      && s.db.products == db.products + [NewProduct(f, money, db.nextProductId)]
      && s.db == db.(products := s.db.products, nextProductId := db.nextProductId + 1)
  {
    if !signedIn then Step(Denied, db)
    else if !RequiredPresent(f) then Step(FormError(MissingField), db)
    else if !Converts(f, money) then Step(FormError(InvalidInput), db)
    else
      var p := NewProduct(f, money, db.nextProductId);
      if !HasCategory(db.categories, p.categoryId) then
        // the category reference has no target: the insert fails and rolls back
        Step(FormError(StorageFailure), db)
      else Step(Done, db.(products := db.products + [p], nextProductId := db.nextProductId + 1))
  }

  /** An added product is active and gets a fresh id. The form accepts any integer stock,
      negative ones included. */
  lemma AddProductKeepsValid(db: Db, f: ProductForm, money: string -> Option<int>)
    requires Valid(db)
    ensures Valid(AddProduct(db, true, f, money).db)
  {
    var s := AddProduct(db, true, f, money);
    if s.outcome.Done? {
      ProductAppended(db, NewProduct(f, money, db.nextProductId));
    }
  }

  /** A row with the next product id can be appended to a consistent database. */
  lemma ProductAppended(db: Db, p: Product)
    requires Valid(db) && p.id == db.nextProductId
    ensures Valid(db.(products := db.products + [p], nextProductId := db.nextProductId + 1))
  {
    var ps := db.products + [p];
    assert forall i :: 0 <= i < |db.products| ==> ps[i] == db.products[i];
    assert ps[..|db.products|] == db.products;
    CatalogGrows(db, ps);
  }

  /** Appending products keeps every cart line's product in the catalog. */
  lemma CatalogGrows(db: Db, ps: seq<Product>)
    requires CartsConsistent(db)
    requires |db.products| <= |ps| && ps[..|db.products|] == db.products
    ensures CartsConsistent(db.(products := ps))
  {
    forall a, i | a in db.carts && 0 <= i < |db.carts[a].lines|
      ensures HasProduct(ps, db.carts[a].lines[i].productId)
    {
      var j :| 0 <= j < |db.products| && db.products[j].id == db.carts[a].lines[i].productId;
      assert ps[j] == db.products[j];
    }
  }

  // ----- delete_product ---------------------------------------------------------------------

  /** `delete_product`: a soft delete that only clears the product's active flag. A missing id
      aborts with 404 inside the try block, which the handler answers as 500. */
  function DeleteProduct(db: Db, signedIn: bool, id: int): (s: Step<AdminResponse>)
    ensures !signedIn ==> s == Step(Denied, db)
    ensures s.outcome.Done? <==> signedIn && HasProduct(db.products, id)
    ensures signedIn && !HasProduct(db.products, id) ==> s == Step(Rejected(500, NotFound), db)
    ensures s.outcome.Done? ==>
      var k := FindProduct(db.products, id).value;
      && |s.db.products| == |db.products|
      && s.db.products[k] == db.products[k].(activeFlag := InactiveFlag)
      && (forall j :: 0 <= j < |db.products| && j != k ==> s.db.products[j] == db.products[j])
      && s.db == db.(products := s.db.products)
  {
    if !signedIn then Step(Denied, db)
    else
      match FindProduct(db.products, id)
      case None =>
        assert !HasProduct(db.products, id);
        Step(Rejected(500, NotFound), db)
      case Some(k) =>
        Step(Done, db.(products := db.products[k := db.products[k].(activeFlag := InactiveFlag)]))
  }

  /** After a soft delete the product can no longer be found as active (ids being keys), while
      its row, and every cart line that refers to it, stays. */
  lemma DeletedProductInactive(db: Db, id: int)
    requires Valid(db)
    ensures var s := DeleteProduct(db, true, id);
      s.outcome.Done? ==>
        && FindActive(s.db.products, id).None?
        && HasProduct(s.db.products, id)
        && s.db.carts == db.carts
        && Valid(s.db)
  {
    var s := DeleteProduct(db, true, id);
    if s.outcome.Done? {
      var k := FindProduct(db.products, id).value;
      forall j | 0 <= j < |s.db.products| && s.db.products[j].id == id
        ensures !IsActive(s.db.products[j])
      {
        assert j == k;
      }
      assert forall j :: 0 <= j < |db.products| ==> s.db.products[j].id == db.products[j].id;
    }
  }

  // ----- update_order_status ----------------------------------------------------------------

  function FindOrder(os: seq<Order>, id: int): (r: Option<nat>)
    ensures r.Some? ==> r.value < |os| && os[r.value].id == id
    ensures r.None? ==> forall j :: 0 <= j < |os| ==> os[j].id != id
  {
    if |os| == 0 then None
    else if os[0].id == id then Some(0)
    else match FindOrder(os[1..], id)
      case Some(k) => Some(k + 1)
      case None => None
  }

  /** The status a request value names, if it names one of the four. */
  function StatusOf(v: Value): (r: Option<Status>)
    ensures r.Some? ==> v == Str(StatusName(r.value))
    ensures forall st :: v == Str(StatusName(st)) ==> r == Some(st)
  {
    match v
    case Str(t) => ParseStatus(t)
    case _ => None
  }

  /** The name of the orders table's primary-key column, the key `Query.get` looks up in an
      object. */
  const OrderIdColumn: string := "MaDonHang"

  /** `update_order_status`: writes the new status as given, without looking at the old one.
      The order is loaded with `get_or_404`, which reads the id as `IdentityKey` says. A missing
      order aborts with 404 inside the try block (answered 500), and a value outside the status
      enumeration is refused by the column (answered 500). */
  function UpdateOrderStatus(db: Db, signedIn: bool, orderId: Value, status: Value): (s: Step<AdminResponse>)
    ensures !signedIn ==> s == Step(Denied, db)
    ensures signedIn && (Falsy(orderId) || Falsy(status)) ==> s == Step(Rejected(400, MissingInfo), db)
    ensures !s.outcome.Done? ==> s.db == db
    ensures s.outcome.Done? <==>
      signedIn && !Falsy(orderId) && !Falsy(status) && IdentityKey(orderId, OrderIdColumn).Equals?
      && FindOrder(db.orders, IdentityKey(orderId, OrderIdColumn).n).Some? && StatusOf(status).Some?
    ensures s.outcome.Done? ==>
      var k := FindOrder(db.orders, IdentityKey(orderId, OrderIdColumn).n).value;
      && |s.db.orders| == |db.orders|
      && s.db.orders[k] == db.orders[k].(status := StatusOf(status).value)
      && (forall j :: 0 <= j < |db.orders| && j != k ==> s.db.orders[j] == db.orders[j])
      && s.db == db.(orders := s.db.orders)
  {
    if !signedIn then Step(Denied, db)
    else if Falsy(orderId) || Falsy(status) then Step(Rejected(400, MissingInfo), db)
    else
      match IdentityKey(orderId, OrderIdColumn)
      case Unusable => Step(Rejected(500, ServerError), db)
      case NoInteger => Step(Rejected(500, NotFound), db)
      case Equals(id) =>
        match FindOrder(db.orders, id)
        case None => Step(Rejected(500, NotFound), db)
        case Some(k) =>
          match StatusOf(status)
          case None => Step(Rejected(500, StorageFailure), db)
          case Some(st) => Step(Done, db.(orders := db.orders[k := db.orders[k].(status := st)]))
  }

  /** There is no transition guard: any existing order moves to any status, a canceled or
      delivered order included. */
  lemma AnyStatusFollowsAny(db: Db, k: nat, st: Status)
    requires OrderKeys(db) && k < |db.orders|
    ensures var s := UpdateOrderStatus(db, true, Num(db.orders[k].id), Str(StatusName(st)));
      s.outcome.Done? && s.db.orders[k].status == st
  {
    var id := db.orders[k].id;
    StatusRoundTrip(st, StatusName(st));
    var r := FindOrder(db.orders, id);
    assert r.Some?;
    assert r.value == k;
  }

  /** `get_or_404` reads a one-element list, or an object holding just the key column, as the
      id it holds. */
  lemma WrappedOrderId(db: Db, x: Value, status: Value)
    requires !x.List? && !x.Object? && !Falsy(x)
    ensures UpdateOrderStatus(db, true, List([x]), status) == UpdateOrderStatus(db, true, x, status)
    ensures UpdateOrderStatus(db, true, Object(map[OrderIdColumn := x]), status)
      == UpdateOrderStatus(db, true, x, status)
  {
    WrappedIdentity(x, OrderIdColumn);
  }

  /** `{"order_id": [5], "status": "shipped"}` updates order 5. */
  lemma ListOrderIdUpdates(db: Db, k: nat, st: Status)
    requires OrderKeys(db) && k < |db.orders|
    ensures var s := UpdateOrderStatus(db, true, List([Num(db.orders[k].id)]), Str(StatusName(st)));
      s.outcome.Done? && s.db.orders[k].status == st
  {
    AnyStatusFollowsAny(db, k, st);
    WrappedOrderId(db, Num(db.orders[k].id), Str(StatusName(st)));
  }

  /** A list of two ids does not fit the one-column key: `Query.get` raises, answered 500. */
  lemma TwoOrderIdsRefused(db: Db, x: Value, y: Value, status: Value)
    requires !Falsy(status)
    ensures UpdateOrderStatus(db, true, List([x, y]), status) == Step(Rejected(500, ServerError), db)
  {
  }

  /** A status write keeps the database consistent. */
  lemma UpdateOrderStatusKeepsValid(db: Db, orderId: Value, status: Value)
    requires Valid(db)
    ensures Valid(UpdateOrderStatus(db, true, orderId, status).db)
  {
    var s := UpdateOrderStatus(db, true, orderId, status);
    if s.outcome.Done? {
      var k := FindOrder(db.orders, IdentityKey(orderId, OrderIdColumn).n).value;
      RestatusKeepsValid(db, k, StatusOf(status).value);
      assert s.db.orders == db.orders[k := db.orders[k].(status := StatusOf(status).value)];
    }
  }

  /** Changing one order's status keeps the database consistent. */
  lemma RestatusKeepsValid(db: Db, k: nat, st: Status)
    requires Valid(db) && k < |db.orders|
    ensures Valid(db.(orders := db.orders[k := db.orders[k].(status := st)]))
  {
    var d := db.(orders := db.orders[k := db.orders[k].(status := st)]);
    assert forall j :: 0 <= j < |db.orders| ==>
      d.orders[j].id == db.orders[j].id && d.orders[j].lines == db.orders[j].lines
      && d.orders[j].total == db.orders[j].total;
  }

  // ----- add_category -----------------------------------------------------------------------

  predicate NameTaken(cs: seq<Category>, name: string)
  {
    exists j :: 0 <= j < |cs| && cs[j].name == name
  }

  /** `add_category`: the stripped name must be non-empty and unused. */
  function AddCategory(db: Db, signedIn: bool, name: Value, description: Value): (s: Step<AdminResponse>)
    ensures !signedIn ==> s == Step(Denied, db)
    ensures !s.outcome.Done? ==> s.db == db
    ensures signedIn && TextField(name) == Some([]) && TextField(description).Some? ==>
      s.outcome == Rejected(400, EmptyName)
    ensures signedIn && TextField(name).Some? && TextField(description).Some? && NameTaken(db.categories, TextField(name).value)
      ==> s.outcome.Rejected? && s.outcome.status == 400
    ensures s.outcome.Done? <==>
      signedIn && TextField(name).Some? && TextField(description).Some?
      && TextField(name).value != [] && !NameTaken(db.categories, TextField(name).value)
    // exactly one category, with the stripped name, is added
    ensures s.outcome.Done? ==>
      && s.db.categories == db.categories + [Category(db.nextCategoryId, TextField(name).value, TextField(description).value)]
      && s.db == db.(categories := s.db.categories, nextCategoryId := db.nextCategoryId + 1)
  {
    if !signedIn then Step(Denied, db)
    else
      match (TextField(name), TextField(description))
      case (Some(n), Some(d)) =>
        if n == [] then Step(Rejected(400, EmptyName), db)
        else if NameTaken(db.categories, n) then Step(Rejected(400, DuplicateName), db)
        else Step(Done, db.(categories := db.categories + [Category(db.nextCategoryId, n, d)],
                            nextCategoryId := db.nextCategoryId + 1))
      case _ =>
        // `.strip()` on a value that is not a string raises
        Step(Rejected(500, ServerError), db)
  }

  /** Category names added through this endpoint stay distinct: adding keeps distinct names
      distinct, and adding the same name again is refused. */
  lemma AddCategoryKeepsNamesDistinct(db: Db, name: Value, description: Value)
    requires forall i, j :: 0 <= i < j < |db.categories| ==> db.categories[i].name != db.categories[j].name
    ensures var s := AddCategory(db, true, name, description);
      forall i, j :: 0 <= i < j < |s.db.categories| ==> s.db.categories[i].name != s.db.categories[j].name
  {
    var s := AddCategory(db, true, name, description);
    if s.outcome.Done? {
      var n := |db.categories|;
      forall i, j | 0 <= i < j < |s.db.categories|
        ensures s.db.categories[i].name != s.db.categories[j].name
      {
        if j == n {
          assert s.db.categories[i] == db.categories[i];
        } else {
          assert s.db.categories[i] == db.categories[i] && s.db.categories[j] == db.categories[j];
        }
      }
    }
  }

  /** Appending a category under the next free id keeps the database consistent. */
  lemma AppendCategoryKeepsValid(db: Db, c: Category)
    requires Valid(db) && c.id == db.nextCategoryId
    ensures Valid(db.(categories := db.categories + [c], nextCategoryId := db.nextCategoryId + 1))
  {
    var d := db.(categories := db.categories + [c], nextCategoryId := db.nextCategoryId + 1);
    assert forall i :: 0 <= i < |db.categories| ==> d.categories[i] == db.categories[i];
  }

  lemma AddCategoryTwiceRefused(db: Db, name: Value, description: Value)
    ensures var s := AddCategory(db, true, name, description);
      s.outcome.Done? ==> AddCategory(s.db, true, name, description) == Step(Rejected(400, DuplicateName), s.db)
  {
    var s := AddCategory(db, true, name, description);
    if s.outcome.Done? {
      assert s.db.categories[|db.categories|].name == TextField(name).value;
    }
  }

  lemma AddCategoryKeepsValid(db: Db, name: Value, description: Value)
    requires Valid(db)
    ensures Valid(AddCategory(db, true, name, description).db)
  {
    var s := AddCategory(db, true, name, description);
    if s.outcome.Done? {
      AppendCategoryKeepsValid(db, Category(db.nextCategoryId, TextField(name).value, TextField(description).value));
    }
  }
}

=== FILE: admin_reports.dfy ===
/** `AdminReports`: the dashboard's counts, revenue series and lists.

    Each query is a fold over the product or order table. Revenue counts only orders whose
    status is shipped or delivered, and sums their stored totals over a time window. The
    windows are built from the wall clock, which is a parameter.

    Several windows are built as written in the source and also as evidently intended. The
    series the rest of the model uses are the intended ones; each as-written window comes with a
    lemma showing an order it misplaces.
 */
module AdminReports {
  import opened Outcomes
  import opened Text
  import opened Calendar
  import opened Models

  // ----- stock buckets ----------------------------------------------------------------------

  /** Highest quantity that still counts as low stock. */
  const LowStockLimit: int := 10

  datatype StockBucket = Plenty | Low | Empty | Unbucketed

  /** The bucket the three stock queries put a quantity in: more than 10, between 1 and 10, or
      exactly 0; a negative quantity matches none of them. */
  function BucketOf(stock: int): StockBucket
  {
    if stock > LowStockLimit then Plenty
    else if 1 <= stock then Low
    else if stock == 0 then Empty
    else Unbucketed
  }

  /** How many active products fall in bucket `b`. */
  function CountBucket(ps: seq<Product>, b: StockBucket): nat
  {
    if |ps| == 0 then 0
    else (if IsActive(ps[0]) && BucketOf(ps[0].stock) == b then 1 else 0) + CountBucket(ps[1..], b)
  }

  function CountActive(ps: seq<Product>): nat
  {
    if |ps| == 0 then 0 else (if IsActive(ps[0]) then 1 else 0) + CountActive(ps[1..])
  }

  datatype StockStats = StockStats(total: nat, inStock: nat, lowStock: nat, outOfStock: nat)

  /** The product part of `admin_statistics` and `admin_quick_stats`. */
  function ProductStats(ps: seq<Product>): (r: StockStats)
    ensures r.total == CountActive(ps)
    ensures r.inStock == CountBucket(ps, Plenty) && r.lowStock == CountBucket(ps, Low)
    ensures r.outOfStock == CountBucket(ps, Empty)
    // the buckets never count more than the active products, and exactly those when no stock is negative
    ensures r.inStock + r.lowStock + r.outOfStock <= r.total
    ensures r.inStock + r.lowStock + r.outOfStock == r.total <==> NoNegativeStock(ps)
  {
    BucketsCover(ps);
    StockStats(CountActive(ps), CountBucket(ps, Plenty), CountBucket(ps, Low), CountBucket(ps, Empty))
  }

  predicate NoNegativeStock(ps: seq<Product>)
  {
    forall i :: 0 <= i < |ps| && IsActive(ps[i]) ==> ps[i].stock >= 0
  }

  lemma {:induction false} BucketsCover(ps: seq<Product>)
    ensures CountBucket(ps, Plenty) + CountBucket(ps, Low) + CountBucket(ps, Empty)
            + CountBucket(ps, Unbucketed) == CountActive(ps)
    ensures CountBucket(ps, Unbucketed) == 0 <==> NoNegativeStock(ps)
  {
    if |ps| > 0 {
      BucketsCover(ps[1..]);
      assert forall i :: 1 <= i < |ps| ==> ps[i] == ps[1..][i - 1];
      if !NoNegativeStock(ps[1..]) {
        var i :| 0 <= i < |ps[1..]| && IsActive(ps[1..][i]) && ps[1..][i].stock < 0;
        assert ps[i + 1] == ps[1..][i];
      }
    }
  }

  /** The three buckets partition the active products exactly when no active product has a
      negative quantity (which the admin form does not prevent); otherwise they count fewer. */
  lemma StockBucketsPartition(ps: seq<Product>)
    ensures var s := ProductStats(ps);
      (s.inStock + s.lowStock + s.outOfStock == s.total <==> NoNegativeStock(ps))
      && s.inStock + s.lowStock + s.outOfStock <= s.total
  {
    BucketsCover(ps);
  }

  // ----- order counts -----------------------------------------------------------------------

  function CountStatus(os: seq<Order>, st: Status): nat
  {
    if |os| == 0 then 0 else (if os[0].status == st then 1 else 0) + CountStatus(os[1..], st)
  }

  /** Every order has exactly one of the four statuses. */
  lemma {:induction false} StatusCountsSum(os: seq<Order>)
    ensures CountStatus(os, Pending) + CountStatus(os, Shipped) + CountStatus(os, Delivered)
            + CountStatus(os, Canceled) == |os|
  {
    if |os| > 0 {
      StatusCountsSum(os[1..]);
    }
  }

  // ----- revenue ----------------------------------------------------------------------------

  /** The statuses whose orders count as revenue. */
  predicate Counted(o: Order)
  {
    o.status == Delivered || o.status == Shipped
  }

  /** A filter on the order timestamp. */
  datatype Window =
    | Since(from: Instant)                  // from <= placed
    | Between(from: Instant, to: Instant)   // from <= placed <= to
    | DaySince(day: int, from: Instant)     // date(placed) == day and from <= placed
    | OnDay(day: int)                       // date(placed) == day
    | HalfOpen(from: Instant, to: Instant)  // from <= placed < to

  predicate InWindow(t: Instant, w: Window)
  {
    match w
    case Since(f) => AtOrAfter(t, f)
    case Between(f, u) => AtOrAfter(t, f) && AtOrAfter(u, t)
    case DaySince(d, f) => t.day == d && AtOrAfter(t, f)
    case OnDay(d) => t.day == d
    case HalfOpen(f, u) => AtOrAfter(t, f) && !AtOrAfter(t, u)
  }

  function Contribution(o: Order, w: Window): int
  {
    if Counted(o) && InWindow(o.placedAt, w) then o.total else 0
  }

  /** `func.sum(TongTien)` over the counted orders in the window, `or 0` when there are none. */
  function Revenue(os: seq<Order>, w: Window): int
  {
    if |os| == 0 then 0 else Contribution(os[0], w) + Revenue(os[1..], w)
  }

  /** A window with no counted order in it sums to 0: the series are zero-filled. */
  lemma {:induction false} RevenueWithoutSales(os: seq<Order>, w: Window)
    requires forall i :: 0 <= i < |os| ==> !(Counted(os[i]) && InWindow(os[i].placedAt, w))
    ensures Revenue(os, w) == 0
  {
    if |os| > 0 {
      assert forall i :: 1 <= i < |os| ==> os[i] == os[1..][i - 1];
      RevenueWithoutSales(os[1..], w);
    }
  }

  /** Changing one order changes the revenue by exactly the change in its contribution; in
      particular moving an order to pending or canceled takes its total out. */
  lemma {:induction false} RevenueUpdate(os: seq<Order>, k: nat, o: Order, w: Window)
    requires k < |os|
    ensures Revenue(os[k := o], w) == Revenue(os, w) - Contribution(os[k], w) + Contribution(o, w)
  {
    if k == 0 {
      assert os[k := o][1..] == os[1..];
    } else {
      assert os[k := o][1..] == os[1..][k - 1 := o];
      RevenueUpdate(os[1..], k - 1, o, w);
    }
  }

  /** Two windows that split a third without overlapping split its revenue. */
  lemma {:induction false} RevenueSplits(os: seq<Order>, w: Window, a: Window, b: Window)
    requires forall t :: InWindow(t, w) <==> (InWindow(t, a) || InWindow(t, b))
    requires forall t :: !(InWindow(t, a) && InWindow(t, b))
    ensures Revenue(os, w) == Revenue(os, a) + Revenue(os, b)
  {
    if |os| > 0 {
      RevenueSplits(os[1..], w, a, b);
      assert InWindow(os[0].placedAt, w) <==> InWindow(os[0].placedAt, a) || InWindow(os[0].placedAt, b);
      assert !(InWindow(os[0].placedAt, a) && InWindow(os[0].placedAt, b));
    }
  }

  /** Consecutive half-open windows join into one. */
  lemma HalfOpenJoin(os: seq<Order>, f: Instant, m: Instant, u: Instant)
    requires AtOrAfter(m, f) && AtOrAfter(u, m)
    ensures Revenue(os, HalfOpen(f, u)) == Revenue(os, HalfOpen(f, m)) + Revenue(os, HalfOpen(m, u))
  {
    RevenueSplits(os, HalfOpen(f, u), HalfOpen(f, m), HalfOpen(m, u));
  }

  // ----- the chart labels -------------------------------------------------------------------

  /** A chart label: a day (`%d/%m` of that day number), a week number or a month number. */
  datatype Label = DayLabel(day: int) | WeekLabel(week: int) | MonthLabel(month: int)

  // ----- the 7-day series -------------------------------------------------------------------

  const ChartDays: nat := 7

  /** `datetime.now() - timedelta(days=6)`: six days back at the current time of day. */
  function SevenDayStart(now: Instant): Instant
  {
    AddDays(now, -6)
  }

  function DailyLabels(now: Instant): (r: seq<Label>)
    ensures |r| == ChartDays
    ensures forall i :: 0 <= i < ChartDays ==> r[i] == DayLabel(now.day - 6 + i)
  {
    seq(ChartDays, i => DayLabel(now.day - 6 + i))
  }

  /** As written: the query keeps orders at or after the start instant, then groups them by
      date, so the first day only counts orders placed after the current time of day. */
  function DailyValuesAsWritten(os: seq<Order>, now: Instant): (r: seq<int>)
    ensures |r| == ChartDays
    ensures forall i :: 0 <= i < ChartDays ==> r[i] == Revenue(os, DaySince(now.day - 6 + i, SevenDayStart(now)))
  {
    seq(ChartDays, i => Revenue(os, DaySince(now.day - 6 + i, SevenDayStart(now))))
  }

  /** Each day of the chart sums the counted orders of that whole day, 0 when there are none. */
  function DailyValues(os: seq<Order>, now: Instant): (r: seq<int>)
    ensures |r| == ChartDays
    ensures forall i :: 0 <= i < ChartDays ==> r[i] == Revenue(os, OnDay(now.day - 6 + i))
  {
    seq(ChartDays, i => Revenue(os, OnDay(now.day - 6 + i)))
  }

  /** Label `i` and value `i` are about the same day; a day without counted orders shows 0. */
  lemma DailySeriesAligned(os: seq<Order>, now: Instant, i: nat)
    requires i < ChartDays
    requires forall j :: 0 <= j < |os| ==> !(Counted(os[j]) && os[j].placedAt.day == DailyLabels(now)[i].day)
    ensures DailyValues(os, now)[i] == 0
  {
    RevenueWithoutSales(os, OnDay(now.day - 6 + i));
  }

  /** The two readings agree on every day but the first. */
  lemma {:induction false} DailyAgreeAfterFirstDay(os: seq<Order>, now: Instant, i: nat)
    requires 1 <= i < ChartDays
    ensures DailyValuesAsWritten(os, now)[i] == DailyValues(os, now)[i]
  {
    if |os| > 0 {
      DailyAgreeAfterFirstDay(os[1..], now, i);
    }
  }

  /** An order delivered at midnight six days ago is missing from the as-written first day. */
  lemma DailyFirstDayCut()
    ensures var now := Instant(1000, 3600);
      var os := [Order(1, 1, 1, Instant(994, 0), Delivered, 100, [])];
      DailyValuesAsWritten(os, now)[0] == 0 && DailyValues(os, now)[0] == 100
  {
    var now := Instant(1000, 3600);
    var os := [Order(1, 1, 1, Instant(994, 0), Delivered, 100, [])];
    assert Revenue(os[1..], OnDay(994)) == 0;
    assert Revenue(os[1..], DaySince(994, SevenDayStart(now))) == 0;
  }

  // ----- the 30-day series ------------------------------------------------------------------

  const ChartWeeks: nat := 4

  /** `datetime.now() - timedelta(days=27)`. */
  function WeeksStart(now: Instant): Instant
  {
    AddDays(now, -27)
  }

  function WeekLabels(): (r: seq<Label>)
    ensures |r| == ChartWeeks && forall k :: 0 <= k < ChartWeeks ==> r[k] == WeekLabel(k + 1)
  {
    [WeekLabel(1), WeekLabel(2), WeekLabel(3), WeekLabel(4)]
  }

  /** As written: week `k` runs from `start + 7k` to `start + 7k + 6`, both ends included, at
      the current time of day. */
  function WeekWindowAsWritten(now: Instant, k: int): (w: Window)
    ensures w.Between?
    ensures w.from.day == WeeksStart(now).day + 7 * k && w.to.day == w.from.day + 6
    ensures w.from.second == now.second && w.to.second == now.second
  {
    Between(AddDays(WeeksStart(now), 7 * k), AddDays(WeeksStart(now), 7 * k + 6))
  }

  function WeeklyValuesAsWritten(os: seq<Order>, now: Instant): (r: seq<int>)
    ensures |r| == ChartWeeks
    ensures forall k :: 0 <= k < ChartWeeks ==> r[k] == Revenue(os, WeekWindowAsWritten(now, k))
  {
    seq(ChartWeeks, k => Revenue(os, WeekWindowAsWritten(now, k)))
  }

  /** The as-written weeks leave a gap of almost a day after each week's end: an order placed
      there, inside the 28 days, is in no week. */
  lemma WeeklyGap()
    ensures var now := Instant(1000, 3600);
      var os := [Order(1, 1, 1, Instant(979, 7200), Delivered, 100, [])];
      && Revenue(os, Between(WeeksStart(now), now)) == 100
      && (forall k :: 0 <= k < ChartWeeks ==> WeeklyValuesAsWritten(os, now)[k] == 0)
  {
    var now := Instant(1000, 3600);
    var os := [Order(1, 1, 1, Instant(979, 7200), Delivered, 100, [])];
    assert Revenue(os[1..], Between(WeeksStart(now), now)) == 0;
    forall k | 0 <= k < ChartWeeks
      ensures WeeklyValuesAsWritten(os, now)[k] == 0
    {
      assert Revenue(os[1..], WeekWindowAsWritten(now, k)) == 0;
    }
  }

  /** Week `k` as intended: from `start + 7k` up to, but not including, `start + 7(k + 1)`. */
  function WeekWindow(now: Instant, k: int): (w: Window)
    ensures w == HalfOpen(AddDays(WeeksStart(now), 7 * k), AddDays(WeeksStart(now), 7 * (k + 1)))
  {
    HalfOpen(AddDays(WeeksStart(now), 7 * k), AddDays(WeeksStart(now), 7 * (k + 1)))
  }

  function WeeklyValues(os: seq<Order>, now: Instant): (r: seq<int>)
    ensures |r| == ChartWeeks
    ensures forall k :: 0 <= k < ChartWeeks ==> r[k] == Revenue(os, WeekWindow(now, k))
  {
    seq(ChartWeeks, k => Revenue(os, WeekWindow(now, k)))
  }

  /** The four intended weeks cover the 28 days from the start without gap or overlap, so their
      values add up to the revenue of the whole period. */
  lemma WeeksPartition(os: seq<Order>, now: Instant)
    ensures var v := WeeklyValues(os, now);
      v[0] + v[1] + v[2] + v[3] == Revenue(os, HalfOpen(WeeksStart(now), AddDays(WeeksStart(now), 28)))
  {
    var s := WeeksStart(now);
    HalfOpenJoin(os, s, AddDays(s, 7), AddDays(s, 28));
    HalfOpenJoin(os, AddDays(s, 7), AddDays(s, 14), AddDays(s, 28));
    HalfOpenJoin(os, AddDays(s, 14), AddDays(s, 21), AddDays(s, 28));
  }

  // ----- the 90-day series ------------------------------------------------------------------

  const ChartMonths: nat := 3

  function CurrentMonth(c: Clock): YearMonth
  {
    YearMonth(c.today.year, c.today.month)
  }

  /** The months the chart covers exist: two months back is still in year 1 or later. */
  predicate MonthsInRange(c: Clock)
  {
    ValidClock(c) && MonthsBack(CurrentMonth(c), 2).year >= MinYear
  }

  /** Midnight of the first day of month `m`. */
  function MonthStart(m: YearMonth): Instant
    requires m.year >= 1 && 1 <= m.month <= 12
  {
    Instant(DayOfDate(FirstDay(m)), 0)
  }

  /** As written: a past month runs from its first day at midnight to its last day at midnight
      (both included); the current month runs from its first day at the current time of day
      (`replace(day=1)` keeps the time) to now. */
  function MonthWindowAsWritten(c: Clock, back: int): (w: Window)
    requires MonthsInRange(c) && 0 <= back <= 2
    ensures back == 0 ==> w == Between(Instant(MonthStart(CurrentMonth(c)).day, c.second), Now(c))
    ensures back > 0 ==> w == Between(MonthStart(MonthsBack(CurrentMonth(c), back)),
                                     MonthEnd(MonthsBack(CurrentMonth(c), back)))
  {
    var m := MonthsBack(CurrentMonth(c), back);
    if back == 0 then Between(Instant(DayOfDate(FirstDay(m)), c.second), Now(c))
    else Between(MonthStart(m), MonthEnd(m))
  }

  /** Value `i` is the month `2 - i` months back. */
  function MonthlyValuesAsWritten(os: seq<Order>, c: Clock): (r: seq<int>)
    requires MonthsInRange(c)
    ensures |r| == ChartMonths
    ensures r[0] == Revenue(os, MonthWindowAsWritten(c, 2)) && r[1] == Revenue(os, MonthWindowAsWritten(c, 1))
    ensures r[2] == Revenue(os, MonthWindowAsWritten(c, 0))
  {
    [Revenue(os, MonthWindowAsWritten(c, 2)), Revenue(os, MonthWindowAsWritten(c, 1)),
     Revenue(os, MonthWindowAsWritten(c, 0))]
  }

  /** A month as intended: its whole days, up to the first day of the next month; the current
      month from its first day at midnight up to now. */
  function MonthWindow(c: Clock, back: int): (w: Window)
    requires MonthsInRange(c) && 0 <= back <= 2
    ensures back == 0 ==> w == Between(MonthStart(CurrentMonth(c)), Now(c))
    ensures back > 0 ==> w == HalfOpen(MonthStart(MonthsBack(CurrentMonth(c), back)),
                                      MonthStart(MonthsBack(CurrentMonth(c), back - 1)))
  {
    var m := MonthsBack(CurrentMonth(c), back);
    if back == 0 then Between(MonthStart(m), Now(c))
    else
      assert NextMonth(m) == MonthsBack(CurrentMonth(c), back - 1);
      HalfOpen(MonthStart(m), MonthStart(NextMonth(m)))
  }

  function MonthlyValues(os: seq<Order>, c: Clock): (r: seq<int>)
    requires MonthsInRange(c)
    ensures |r| == ChartMonths
    ensures r[0] == Revenue(os, MonthWindow(c, 2)) && r[1] == Revenue(os, MonthWindow(c, 1))
    ensures r[2] == Revenue(os, MonthWindow(c, 0))
  {
    [Revenue(os, MonthWindow(c, 2)), Revenue(os, MonthWindow(c, 1)), Revenue(os, MonthWindow(c, 0))]
  }

  /** The intended months follow one another without gap or overlap from the first day of the
      earliest month up to now, so the three values add up to the revenue of that period. */
  lemma MonthsPartition(os: seq<Order>, c: Clock)
    requires MonthsInRange(c)
    ensures var v := MonthlyValues(os, c);
      v[0] + v[1] + v[2] == Revenue(os, Between(MonthStart(MonthsBack(CurrentMonth(c), 2)), Now(c)))
  {
    var cur := CurrentMonth(c);
    var m2 := MonthsBack(cur, 2);
    var m1 := MonthsBack(cur, 1);
    assert NextMonth(m2) == m1 && NextMonth(m1) == cur;
    NextMonthStart(m2);
    NextMonthStart(m1);
    DateWithinMonth(c.today);
    var a := MonthStart(m2);
    var b := MonthStart(m1);
    var d := MonthStart(cur);
    var n := Now(c);
    RevenueSplits(os, Between(a, n), HalfOpen(a, b), Between(b, n));
    RevenueSplits(os, Between(b, n), HalfOpen(b, d), Between(d, n));
  }

  lemma RevenueOfOne(o: Order, w: Window)
    ensures Revenue([o], w) == Contribution(o, w)
  {
    assert [o][1..] == [];
  }

  /** As written, the last day of a past month is counted only at exactly midnight: an order
      later that day is in no month of the chart. */
  lemma MonthEndCutsLastDay()
    ensures var c := Clock(Date(2024, 3, 15), 0);
      var o := Order(1, 1, 1, Instant(DayOfDate(Date(2024, 2, 29)), 3600), Delivered, 100, []);
      MonthsInRange(c)
      && MonthlyValuesAsWritten([o], c)[1] == 0 && MonthlyValues([o], c)[1] == 100
  {
    var c := Clock(Date(2024, 3, 15), 0);
    var o := Order(1, 1, 1, Instant(DayOfDate(Date(2024, 2, 29)), 3600), Delivered, 100, []);
    var feb := YearMonth(2024, 2);
    assert MonthsBack(CurrentMonth(c), 1) == feb;
    NextMonthStart(feb);
    assert Revenue([o][1..], MonthWindow(c, 1)) == 0;
    assert Revenue([o][1..], MonthWindowAsWritten(c, 1)) == 0;
  }

  /** As written, the current month starts at the current time of day on its first day: an
      order placed earlier on the first day is not counted. */
  lemma MonthStartKeepsTime()
    ensures var c := Clock(Date(2024, 3, 15), 3600);
      var o := Order(1, 1, 1, Instant(DayOfDate(Date(2024, 3, 1)), 0), Delivered, 100, []);
      MonthsInRange(c)
      && MonthlyValuesAsWritten([o], c)[2] == 0 && MonthlyValues([o], c)[2] == 100
  {
    var c := Clock(Date(2024, 3, 15), 3600);
    var first := DayOfDate(Date(2024, 3, 1));
    var o := Order(1, 1, 1, Instant(first, 0), Delivered, 100, []);
    assert CurrentMonth(c) == YearMonth(2024, 3) == MonthsBack(YearMonth(2024, 3), 0);
    assert MonthsBack(YearMonth(2024, 3), 2) == YearMonth(2024, 1);
    assert Now(c) == Instant(first + 14, 3600);
    RevenueOfOne(o, MonthWindow(c, 0));
    RevenueOfOne(o, MonthWindowAsWritten(c, 0));
  }

  /** As written: the labels are the months of the dates 60 and 30 days before today, then
      today's month. */
  function MonthLabelsAsWritten(c: Clock): (r: seq<Label>)
    requires ValidClock(c) && DayOfDate(c.today) >= 60
    ensures |r| == ChartMonths
    ensures r[0] == MonthLabel(SubDays(c.today, 60).value.month)
    ensures r[1] == MonthLabel(SubDays(c.today, 30).value.month)
    ensures r[2] == MonthLabel(c.today.month)
  {
    [MonthLabel(SubDays(c.today, 60).value.month), MonthLabel(SubDays(c.today, 30).value.month),
     MonthLabel(c.today.month)]
  }

  /** Label `i` names the month whose revenue is value `i`. */
  function MonthLabels(c: Clock): (r: seq<Label>)
    requires MonthsInRange(c)
    ensures |r| == ChartMonths
    ensures forall i :: 0 <= i < ChartMonths ==> r[i] == MonthLabel(MonthsBack(CurrentMonth(c), 2 - i).month)
  {
    var cur := CurrentMonth(c);
    [MonthLabel(MonthsBack(cur, 2).month), MonthLabel(MonthsBack(cur, 1).month), MonthLabel(cur.month)]
  }

  /** Each intended label is the month whose first day opens the window of the value beside it. */
  lemma MonthLabelsMatchValues(c: Clock, i: nat)
    requires MonthsInRange(c) && i < ChartMonths
    ensures var m := MonthsBack(CurrentMonth(c), 2 - i);
      MonthLabels(c)[i] == MonthLabel(m.month) && MonthWindow(c, 2 - i).from == MonthStart(m)
  {
  }

  /** On the 31st of March the as-written labels read January, March, March, while the values
      are January, February and March. */
  lemma MonthLabelsDrift()
    ensures var c := Clock(Date(2024, 3, 31), 0);
      MonthsInRange(c) && DayOfDate(c.today) >= 60
      && MonthLabelsAsWritten(c) == [MonthLabel(1), MonthLabel(3), MonthLabel(3)]
      && MonthLabels(c) == [MonthLabel(1), MonthLabel(2), MonthLabel(3)]
  {
    var c := Clock(Date(2024, 3, 31), 0);
    assert SubDays(c.today, 30) == Some(Date(2024, 3, 1));
    assert SubDays(Date(2024, 1, 31), 0) == Some(Date(2024, 1, 31));
    assert SubDays(Date(2024, 2, 29), 29) == Some(Date(2024, 1, 31));
    assert SubDays(c.today, 60) == Some(Date(2024, 1, 31));
  }

  // ----- admin_sales_chart ------------------------------------------------------------------

  datatype ChartData = ChartData(labels: seq<Label>, values: seq<int>)

  /** `admin_sales_chart` with its intended windows: period "7" is the daily series, "30" the
      weekly one, anything else the monthly one; `None` is the 500 answer when a date would fall
      before year 1. */
  function SalesChart(os: seq<Order>, period: string, c: Clock): (r: Option<ChartData>)
    requires ValidClock(c)
    ensures r.Some? ==> |r.value.labels| == |r.value.values|
    ensures period == "7" ==>
      (r.Some? <==> DayOfDate(c.today) >= 6)
      && (r.Some? ==> r.value == ChartData(DailyLabels(Now(c)), DailyValues(os, Now(c))))
    ensures period == "30" ==>
      (r.Some? <==> DayOfDate(c.today) >= 27)
      && (r.Some? ==> r.value == ChartData(WeekLabels(), WeeklyValues(os, Now(c))))
    ensures period != "7" && period != "30" ==>
      (r.Some? <==> MonthsInRange(c) && DayOfDate(c.today) >= 60)
      && (r.Some? ==> r.value == ChartData(MonthLabels(c), MonthlyValues(os, c)))
  {
    var now := Now(c);
    if period == "7" then
      if DayOfDate(c.today) < 6 then None else Some(ChartData(DailyLabels(now), DailyValues(os, now)))
    else if period == "30" then
      if DayOfDate(c.today) < 27 then None else Some(ChartData(WeekLabels(), WeeklyValues(os, now)))
    else if !MonthsInRange(c) || DayOfDate(c.today) < 60 then None
    else Some(ChartData(MonthLabels(c), MonthlyValues(os, c)))
  }

  /** The chart `admin_sales_chart` returns as written: the same periods and the same dates
      answered 500 as `SalesChart`, with the as-written day, week and month windows and month
      labels. */
  function SalesChartAsWritten(os: seq<Order>, period: string, c: Clock): (r: Option<ChartData>)
    requires ValidClock(c)
    ensures r.Some? ==> |r.value.labels| == |r.value.values|
    ensures r.Some? <==> SalesChart(os, period, c).Some?
    ensures r.Some? && period == "7" ==>
      r.value == ChartData(SalesChart(os, period, c).value.labels, DailyValuesAsWritten(os, Now(c)))
    ensures r.Some? && period == "30" ==>
      r.value == ChartData(SalesChart(os, period, c).value.labels, WeeklyValuesAsWritten(os, Now(c)))
    ensures r.Some? && period != "7" && period != "30" ==>
      r.value == ChartData(MonthLabelsAsWritten(c), MonthlyValuesAsWritten(os, c))
  {
    var now := Now(c);
    if period == "7" then
      if DayOfDate(c.today) < 6 then None else Some(ChartData(DailyLabels(now), DailyValuesAsWritten(os, now)))
    else if period == "30" then
      if DayOfDate(c.today) < 27 then None else Some(ChartData(WeekLabels(), WeeklyValuesAsWritten(os, now)))
    else if !MonthsInRange(c) || DayOfDate(c.today) < 60 then None
    else Some(ChartData(MonthLabelsAsWritten(c), MonthlyValuesAsWritten(os, c)))
  }

  // ----- admin_statistics and admin_quick_stats ---------------------------------------------

  datatype Statistics = Statistics(products: StockStats, totalOrders: nat, pendingOrders: nat, totalUsers: nat)

  function AdminStatistics(db: Db): (r: Statistics)
    ensures r.products == ProductStats(db.products)
    ensures r.totalOrders == |db.orders| && r.pendingOrders == CountStatus(db.orders, Pending)
    ensures r.totalUsers == |db.accounts|
    ensures r.pendingOrders <= r.totalOrders
  {
    StatusCountsSum(db.orders);
    Statistics(ProductStats(db.products), |db.orders|, CountStatus(db.orders, Pending), |db.accounts|)
  }

  datatype QuickStats = QuickStats(
    products: StockStats,
    totalOrders: nat, pending: nat, shipped: nat, delivered: nat,
    todayRevenue: int, monthRevenue: int,
    totalUsers: nat, newUsersThisMonth: nat)

  /** As written: the month's revenue counts orders from the first day of the month at the
      current time of day. */
  function MonthToDateAsWritten(c: Clock): Window
    requires ValidClock(c)
  {
    Since(Instant(DayOfDate(FirstDay(CurrentMonth(c))), c.second))
  }

  /** The month so far as intended: from midnight of its first day. */
  function MonthToDate(c: Clock): Window
    requires ValidClock(c)
  {
    Since(MonthStart(CurrentMonth(c)))
  }

  /** An order placed at midnight on the first of the month is left out as written. */
  lemma MonthToDateCut()
    ensures var c := Clock(Date(2024, 3, 15), 3600);
      var os := [Order(1, 1, 1, Instant(DayOfDate(Date(2024, 3, 1)), 0), Shipped, 100, [])];
      ValidClock(c)
      && Revenue(os, MonthToDateAsWritten(c)) == 0 && Revenue(os, MonthToDate(c)) == 100
  {
    var c := Clock(Date(2024, 3, 15), 3600);
    var os := [Order(1, 1, 1, Instant(DayOfDate(Date(2024, 3, 1)), 0), Shipped, 100, [])];
    assert Revenue(os[1..], MonthToDate(c)) == 0;
    assert Revenue(os[1..], MonthToDateAsWritten(c)) == 0;
  }

  /** The intended month-to-date window holds every order placed since the month began, at any
      time of its days, and includes today. */
  lemma MonthToDateWholeDays(c: Clock, t: Instant)
    requires ValidClock(c) && ValidInstant(t)
    ensures InWindow(t, MonthToDate(c)) <==> t.day >= DayOfDate(FirstDay(CurrentMonth(c)))
    ensures InWindow(Now(c), MonthToDate(c))
  {
    DateWithinMonth(c.today);
  }

  function AdminQuickStats(db: Db, c: Clock): (r: QuickStats)
    requires ValidClock(c)
    ensures r.products == ProductStats(db.products) && r.totalOrders == |db.orders|
    ensures r.pending == CountStatus(db.orders, Pending) && r.shipped == CountStatus(db.orders, Shipped)
    ensures r.delivered == CountStatus(db.orders, Delivered)
    ensures r.todayRevenue == Revenue(db.orders, OnDay(DayOfDate(c.today)))
    ensures r.monthRevenue == Revenue(db.orders, MonthToDate(c))
    ensures r.totalUsers == |db.accounts| && r.newUsersThisMonth == 0
    // the status breakdown leaves out only the canceled orders
    ensures r.pending + r.shipped + r.delivered + CountStatus(db.orders, Canceled) == r.totalOrders
  {
    StatusCountsSum(db.orders);
    QuickStats(ProductStats(db.products), |db.orders|,
      CountStatus(db.orders, Pending), CountStatus(db.orders, Shipped), CountStatus(db.orders, Delivered),
      Revenue(db.orders, OnDay(DayOfDate(c.today))), Revenue(db.orders, MonthToDate(c)),
      |db.accounts|, 0)
  }

  /** Pending and canceled orders are the orders the quick stats leave out of the status
      breakdown: the three shown counts and the canceled ones make up all orders. */
  lemma QuickStatsOrdersAccounted(db: Db, c: Clock)
    requires ValidClock(c)
    ensures var q := AdminQuickStats(db, c);
      q.pending + q.shipped + q.delivered + CountStatus(db.orders, Canceled) == q.totalOrders
  {
    StatusCountsSum(db.orders);
  }

  // ----- admin_recent_orders ----------------------------------------------------------------

  const GuestPrefix: string := "Khách hàng #"

  /** `f"{Ho or ''} {Ten or ''}".strip()`. */
  function FullName(a: Account): string
  {
    var family := match a.familyName case Some(n) => n case None => "";
    var given := match a.givenName case Some(n) => n case None => "";
    Trim(family + " " + given)
  }

  /** The customer name of a recent order: the full name, or "Khách hàng #<id>" when that is
      empty. */
  function CustomerName(a: Account): (r: string)
    ensures FullName(a) != [] ==> r == FullName(a)
    ensures FullName(a) == [] ==> r == GuestPrefix + IntToString(a.id)
  {
    var n := FullName(a);
    if n != [] then n else GuestPrefix + IntToString(a.id)
  }

  /** The name is never empty, and the fallback names the account so that its id reads back. */
  lemma CustomerNameFallback(a: Account)
    ensures CustomerName(a) != []
    ensures FullName(a) == [] ==>
      CustomerName(a)[..|GuestPrefix|] == GuestPrefix
      && ParseInt(CustomerName(a)[|GuestPrefix|..]) == Some(a.id)
  {
    if FullName(a) == [] {
      var r := CustomerName(a);
      assert r[|GuestPrefix|..] == IntToString(a.id);
      ParseIntRoundTrip(a.id);
    }
  }

  /** Most orders the recent-orders list shows. */
  const RecentListSize: nat := 10

  /** An order joined with the account that placed it. */
  datatype Placed = Placed(order: Order, account: Account)

  function FindAccount(accounts: seq<Account>, id: int): (r: Option<Account>)
    ensures r.Some? ==> r.value in accounts && r.value.id == id
    ensures r.None? ==> forall k :: 0 <= k < |accounts| ==> accounts[k].id != id
  {
    if |accounts| == 0 then None
    else if accounts[0].id == id then Some(accounts[0])
    else FindAccount(accounts[1..], id)
  }

  /** The inner join of orders with accounts: an order whose account is gone is not listed. */
  function JoinAccounts(os: seq<Order>, accounts: seq<Account>): (r: seq<Placed>)
    ensures forall x :: x in r <==>
      exists k :: 0 <= k < |os| && FindAccount(accounts, os[k].accountId) == Some(x.account) && x.order == os[k]
  {
    if |os| == 0 then []
    else
      var rest := JoinAccounts(os[1..], accounts);
      assert forall k :: 1 <= k < |os| ==> os[k] == os[1..][k - 1];
      match FindAccount(accounts, os[0].accountId)
      case Some(a) => [Placed(os[0], a)] + rest
      case None => rest
  }

  predicate NewestFirst(ps: seq<Placed>)
  {
    forall i, j :: 0 <= i < j < |ps| ==> AtOrAfter(ps[i].order.placedAt, ps[j].order.placedAt)
  }

  function InsertPlaced(x: Placed, s: seq<Placed>): (r: seq<Placed>)
    requires NewestFirst(s)
    ensures multiset(r) == multiset(s) + multiset{x}
    ensures NewestFirst(r)
    ensures |r| == |s| + 1 && (r[0] == x || (|s| > 0 && r[0] == s[0]))
  {
    if |s| == 0 then [x]
    else if AtOrAfter(x.order.placedAt, s[0].order.placedAt) then
      ConsNewest(x, s);
      [x] + s
    else
      var rest := InsertPlaced(x, s[1..]);
      assert s == [s[0]] + s[1..];
      ConsNewest(s[0], rest);
      [s[0]] + rest
  }

  /** An order at least as recent as the head of a newest-first sequence may go in front. */
  lemma ConsNewest(x: Placed, s: seq<Placed>)
    requires NewestFirst(s) && (|s| > 0 ==> AtOrAfter(x.order.placedAt, s[0].order.placedAt))
    ensures NewestFirst([x] + s)
  {
    var r := [x] + s;
    forall i, j | 0 <= i < j < |r| ensures AtOrAfter(r[i].order.placedAt, r[j].order.placedAt) {
      assert r[j] == s[j - 1];
      if i > 0 {
        assert r[i] == s[i - 1];
      }
    }
  }

  /** `order_by(NgayDat.desc())`. */
  function SortNewestFirst(ps: seq<Placed>): (r: seq<Placed>)
    ensures multiset(r) == multiset(ps) && |r| == |ps|
    ensures NewestFirst(r)
  {
    if |ps| == 0 then []
    else
      assert ps == [ps[0]] + ps[1..];
      InsertPlaced(ps[0], SortNewestFirst(ps[1..]))
  }

  datatype RecentOrder = RecentOrder(id: int, customer: string, total: int, placedAt: Instant, status: Status)

  function RecentRow(x: Placed): RecentOrder
  {
    RecentOrder(x.order.id, CustomerName(x.account), x.order.total, x.order.placedAt, x.order.status)
  }

  /** The orders `admin_recent_orders` shows, newest first, at most 10. */
  function RecentPlaced(db: Db): (r: seq<Placed>)
    ensures |r| <= RecentListSize
    ensures NewestFirst(r)
  {
    Prefix(SortNewestFirst(JoinAccounts(db.orders, db.accounts)), RecentListSize)
  }

  /** `admin_recent_orders`: one row per listed order, with the customer's display name. */
  function RecentOrders(db: Db): (r: seq<RecentOrder>)
    ensures |r| == |RecentPlaced(db)| && |r| <= RecentListSize
    ensures forall i :: 0 <= i < |r| ==> r[i] == RecentRow(RecentPlaced(db)[i])
    ensures forall i :: 0 <= i < |r| ==>
      r[i].id == RecentPlaced(db)[i].order.id && r[i].customer == CustomerName(RecentPlaced(db)[i].account)
      && r[i].total == RecentPlaced(db)[i].order.total && r[i].placedAt == RecentPlaced(db)[i].order.placedAt
      && r[i].status == RecentPlaced(db)[i].order.status && r[i].customer != []
    ensures forall i, j :: 0 <= i < j < |r| ==> AtOrAfter(r[i].placedAt, r[j].placedAt)
  {
    var ps := RecentPlaced(db);
    assert forall i :: 0 <= i < |ps| ==> CustomerName(ps[i].account) != [] by {
      forall i | 0 <= i < |ps| ensures CustomerName(ps[i].account) != [] {
        CustomerNameFallback(ps[i].account);
      }
    }
    RecentRows(ps)
  }

  function RecentRows(ps: seq<Placed>): (r: seq<RecentOrder>)
    ensures |r| == |ps|
    ensures forall i :: 0 <= i < |r| ==> r[i] == RecentRow(ps[i])
  {
    if |ps| == 0 then [] else [RecentRow(ps[0])] + RecentRows(ps[1..])
  }

  /** An order of the newest-first sequence is kept by the prefix, or the prefix is full and
      every order shown is at least as recent. */
  lemma PrefixKeepsNewest(ps: seq<Placed>, n: nat, y: Placed)
    requires NewestFirst(ps) && y in ps
    ensures var r := Prefix(ps, n);
      y in r || (|r| == n && forall x :: x in r ==> AtOrAfter(x.order.placedAt, y.order.placedAt))
  {
    var r := Prefix(ps, n);
    var m :| 0 <= m < |ps| && ps[m] == y;
    if m < |r| {
      assert r[m] == y;
    } else {
      forall x | x in r ensures AtOrAfter(x.order.placedAt, y.order.placedAt) {
        var i :| 0 <= i < |r| && r[i] == x;
      }
    }
  }

  /** Every order with an account is listed, or ten orders at least as recent are. */
  lemma RecentOrdersAreNewest(db: Db, k: nat)
    requires k < |db.orders| && FindAccount(db.accounts, db.orders[k].accountId).Some?
    ensures var r := RecentPlaced(db);
      var y := Placed(db.orders[k], FindAccount(db.accounts, db.orders[k].accountId).value);
      y in r || (|r| == RecentListSize && forall x :: x in r ==> AtOrAfter(x.order.placedAt, y.order.placedAt))
  {
    var js := JoinAccounts(db.orders, db.accounts);
    var y := Placed(db.orders[k], FindAccount(db.accounts, db.orders[k].accountId).value);
    assert y in js;
    var sorted := SortNewestFirst(js);
    assert y in multiset(sorted);
    PrefixKeepsNewest(sorted, RecentListSize, y);
  }

  // ----- admin_low_stock_products -----------------------------------------------------------

  /** Most entries the low-stock list shows. */
  const LowStockListSize: nat := 15

  datatype LowStockRow = LowStockRow(id: int, name: string, category: string, quantity: int, price: int)

  predicate LowStockCandidate(db: Db, p: Product)
  {
    IsActive(p) && p.stock <= LowStockLimit && CategoryName(db.categories, p.categoryId).Some?
  }

  function RowOf(db: Db, p: Product): LowStockRow
    requires CategoryName(db.categories, p.categoryId).Some?
  {
    LowStockRow(p.id, p.name, CategoryName(db.categories, p.categoryId).value, p.stock, PriceOrZero(p))
  }

  /** The active products with at most 10 in stock, joined with their category, in table order. */
  function Candidates(db: Db, ps: seq<Product>): (r: seq<LowStockRow>)
    ensures forall x :: x in r <==> exists j :: 0 <= j < |ps| && LowStockCandidate(db, ps[j]) && x == RowOf(db, ps[j])
  {
    if |ps| == 0 then []
    else
      var rest := Candidates(db, ps[1..]);
      assert forall j :: 1 <= j < |ps| ==> ps[j] == ps[1..][j - 1];
      if LowStockCandidate(db, ps[0]) then [RowOf(db, ps[0])] + rest else rest
  }

  predicate Ascending(rows: seq<LowStockRow>)
  {
    forall i, j :: 0 <= i < j < |rows| ==> rows[i].quantity <= rows[j].quantity
  }

  function InsertRow(x: LowStockRow, s: seq<LowStockRow>): (r: seq<LowStockRow>)
    requires Ascending(s)
    ensures multiset(r) == multiset(s) + multiset{x}
    ensures Ascending(r)
    ensures |r| == |s| + 1 && (r[0] == x || (|s| > 0 && r[0] == s[0]))
  {
    if |s| == 0 then [x]
    else if x.quantity <= s[0].quantity then
      ConsAscending(x, s);
      [x] + s
    else
      var rest := InsertRow(x, s[1..]);
      assert s == [s[0]] + s[1..];
      ConsAscending(s[0], rest);
      [s[0]] + rest
  }

  /** A row with no more stock than the head of an ascending sequence may go in front. */
  lemma ConsAscending(x: LowStockRow, s: seq<LowStockRow>)
    requires Ascending(s) && (|s| > 0 ==> x.quantity <= s[0].quantity)
    ensures Ascending([x] + s)
  {
    var r := [x] + s;
    forall i, j | 0 <= i < j < |r| ensures r[i].quantity <= r[j].quantity {
      assert r[j] == s[j - 1];
      if i > 0 {
        assert r[i] == s[i - 1];
      }
    }
  }

  /** `order_by(SoLuong.asc())`: rows with equal quantities keep table order. */
  function SortByQuantity(rows: seq<LowStockRow>): (r: seq<LowStockRow>)
    ensures multiset(r) == multiset(rows) && |r| == |rows|
    ensures Ascending(r)
  {
    if |rows| == 0 then []
    else
      assert rows == [rows[0]] + rows[1..];
      InsertRow(rows[0], SortByQuantity(rows[1..]))
  }

  /** The first `n` rows, or all of them when there are fewer (`limit(n)`). */
  function Prefix<T>(rows: seq<T>, n: nat): (r: seq<T>)
    ensures |r| <= n && |r| <= |rows|
    ensures |r| == n || r == rows
    ensures forall i :: 0 <= i < |r| ==> r[i] == rows[i]
  {
    if |rows| <= n then rows else rows[..n]
  }

  /** A row of an ascending sequence is kept by the prefix, or the prefix is full and shows
      nothing with more in stock. */
  lemma PrefixKeepsSmallest(rows: seq<LowStockRow>, n: nat, y: LowStockRow)
    requires Ascending(rows) && y in rows
    ensures var r := Prefix(rows, n);
      y in r || (|r| == n && forall x :: x in r ==> x.quantity <= y.quantity)
  {
    var r := Prefix(rows, n);
    var m :| 0 <= m < |rows| && rows[m] == y;
    if m < |r| {
      assert r[m] == y;
    } else {
      forall x | x in r ensures x.quantity <= y.quantity {
        var i :| 0 <= i < |r| && r[i] == x;
      }
    }
  }

  /** `admin_low_stock_products`: at most 15 low-stock rows, fewest in stock first. */
  function LowStockProducts(db: Db): (r: seq<LowStockRow>)
    ensures |r| <= LowStockListSize
    ensures Ascending(r)
  {
    Prefix(SortByQuantity(Candidates(db, db.products)), LowStockListSize)
  }

  /** Every row shown is a low-stock product with its category, and no candidate is left out
      that has fewer in stock than a row shown. */
  lemma LowStockListIsTop(db: Db)
    ensures var r := LowStockProducts(db);
      (forall x :: x in r ==>
        exists j :: 0 <= j < |db.products| && LowStockCandidate(db, db.products[j]) && x == RowOf(db, db.products[j]))
      && (forall j :: 0 <= j < |db.products| && LowStockCandidate(db, db.products[j]) ==>
        RowOf(db, db.products[j]) in r
        || (|r| == LowStockListSize && forall x :: x in r ==> x.quantity <= db.products[j].stock))
  {
    var cs := Candidates(db, db.products);
    var sorted := SortByQuantity(cs);
    var r := LowStockProducts(db);
    forall x | x in r
      ensures exists j :: 0 <= j < |db.products| && LowStockCandidate(db, db.products[j]) && x == RowOf(db, db.products[j])
    {
      var i :| 0 <= i < |r| && r[i] == x;
      assert sorted[i] in multiset(sorted);
      assert x in cs;
    }
    forall j | 0 <= j < |db.products| && LowStockCandidate(db, db.products[j])
      ensures RowOf(db, db.products[j]) in r
        || (|r| == LowStockListSize && forall x :: x in r ==> x.quantity <= db.products[j].stock)
    {
      var y := RowOf(db, db.products[j]);
      assert y in cs;
      assert y in multiset(sorted);
      PrefixKeepsSmallest(sorted, LowStockListSize, y);
    }
  }
}

=== FILE: auth_controller.dfy ===
/** `AuthController`: the login and registration forms.

    Every form field is read with a default of the empty string and stripped before any check.
    Registration runs its checks in a fixed order and stops at the first one that fails; only a
    form that passes them all reaches the service. The password hash is a parameter.
 */
module AuthController {
  import opened Outcomes
  import opened Text
  import opened Models
  import opened AuthService

  /** Shortest accepted password, in characters. */
  const MinPasswordLength: nat := 6
  /** Shortest accepted phone number, in digits. */
  const MinPhoneLength: nat := 10

  // ----- login ------------------------------------------------------------------------------

  datatype LoginResult =
    | AlreadySignedIn          // a session exists: back to the home page
    | MissingCredentials       // an empty username or password
    | SignedIn(account: int)
    | LoginRefused(failure: Failure)

  /** `login` on a POST: `signedIn` says whether the session already holds an account. */
  function Login(db: Db, signedIn: bool, username: string, password: string,
                 matches: (string, string) -> bool): (r: LoginResult)
    ensures signedIn ==> r == AlreadySignedIn
    ensures !signedIn && (Trim(username) == [] || Trim(password) == []) ==> r == MissingCredentials
    ensures r.SignedIn? || r.LoginRefused? <==> !signedIn && Trim(username) != [] && Trim(password) != []
    ensures r.SignedIn? <==>
      !signedIn && Trim(username) != [] && Trim(password) != []
      && LoginUser(db, Trim(username), Trim(password), matches).Ok?
    ensures r.SignedIn? ==> r.account == db.credentials[Trim(username)].accountId
  {
    if signedIn then AlreadySignedIn
    else
      var u := Trim(username);
      var pw := Trim(password);
      if u == [] || pw == [] then MissingCredentials
      else
        match LoginUser(db, u, pw, matches)
        case Ok(acct) => SignedIn(acct)
        case Refused(f) => LoginRefused(f)
  }

  // ----- registration -----------------------------------------------------------------------

  /** The registration form as submitted; a missing field is the empty string. */
  datatype RegisterForm = RegisterForm(
    familyName: string, givenName: string, birthDate: string, gender: string,
    nationalId: string, address: string, phone: string,
    username: string, password: string, confirm: string, email: string)

  function Trimmed(f: RegisterForm): (t: RegisterForm)
    ensures t.password == Trim(f.password) && t.phone == Trim(f.phone) && t.username == Trim(f.username)
  {
    RegisterForm(Trim(f.familyName), Trim(f.givenName), Trim(f.birthDate), Trim(f.gender),
      Trim(f.nationalId), Trim(f.address), Trim(f.phone),
      Trim(f.username), Trim(f.password), Trim(f.confirm), Trim(f.email))
  }

  /** The nine fields that must not be empty, in the order the form lists them. */
  function Required(f: RegisterForm): (r: seq<string>)
    ensures |r| == 9
  {
    [f.familyName, f.givenName, f.birthDate, f.gender, f.nationalId, f.address, f.phone,
     f.username, f.password]
  }

  predicate AllFilled(f: RegisterForm)
  {
    forall k :: 0 <= k < |Required(f)| ==> Required(f)[k] != []
  }

  /** The registration checks, in the order they run. */
  datatype RegisterCheck = MissingRequired | ConfirmMismatch | PasswordTooShort | BadPhone

  function CheckMessage(c: RegisterCheck): string
  {
    match c
    case MissingRequired => "Vui lòng điền đầy đủ thông tin bắt buộc!"
    case ConfirmMismatch => "Mật khẩu xác nhận không khớp!"
    case PasswordTooShort => "Mật khẩu phải có ít nhất 6 ký tự!"
    case BadPhone => "Số điện thoại không hợp lệ!"
  }

  /** The first check a (trimmed) form fails, if any. */
  function FirstFailedCheck(f: RegisterForm): (r: Option<RegisterCheck>)
    ensures r == Some(MissingRequired) <==> !AllFilled(f)
    ensures r == Some(ConfirmMismatch) <==> AllFilled(f) && f.confirm != [] && f.password != f.confirm
    ensures r == Some(PasswordTooShort) <==>
      AllFilled(f) && (f.confirm == [] || f.password == f.confirm) && |f.password| < MinPasswordLength
    ensures r == Some(BadPhone) <==>
      AllFilled(f) && (f.confirm == [] || f.password == f.confirm) && |f.password| >= MinPasswordLength
      && (!IsDigits(f.phone) || |f.phone| < MinPhoneLength)
    ensures r.None? <==>
      AllFilled(f) && (f.confirm == [] || f.password == f.confirm) && |f.password| >= MinPasswordLength
      && IsDigits(f.phone) && |f.phone| >= MinPhoneLength
  {
    if !AllFilled(f) then Some(MissingRequired)
    else if f.confirm != [] && f.password != f.confirm then Some(ConfirmMismatch)
    else if |f.password| < MinPasswordLength then Some(PasswordTooShort)
    else if !IsDigits(f.phone) || |f.phone| < MinPhoneLength then Some(BadPhone)
    else None
  }

  datatype RegisterResult =
    | AlreadyRegistered        // a session exists: back to the home page
    | Invalid(check: RegisterCheck)
    | Registered(account: int)
    | RegisterRefused(failure: Failure)

  function ProfileOf(t: RegisterForm): Profile
  {
    Profile(t.familyName, t.givenName, t.birthDate, t.gender, t.nationalId, t.address, t.phone)
  }

  /** `register` on a POST; `hash` is the password hashing function. */
  function Register(db: Db, signedIn: bool, f: RegisterForm, hash: string -> string): (s: Step<RegisterResult>)
    ensures signedIn ==> s == Step(AlreadyRegistered, db)
    // a form that fails a check never reaches the service
    ensures !signedIn && FirstFailedCheck(Trimmed(f)).Some? ==>
      s == Step(Invalid(FirstFailedCheck(Trimmed(f)).value), db)
    ensures !signedIn && FirstFailedCheck(Trimmed(f)).None? ==>
      var t := Trimmed(f);
      var r := RegisterUser(db, ProfileOf(t), t.username, hash(t.password), t.email);
      s.db == r.db
      && (r.outcome.Ok? ==> s.outcome == Registered(r.outcome.value))
      && (r.outcome.Refused? ==> s.outcome == RegisterRefused(r.outcome.failure))
    ensures s.db != db ==> !signedIn && FirstFailedCheck(Trimmed(f)).None?
  {
    if signedIn then Step(AlreadyRegistered, db)
    else
      var t := Trimmed(f);
      match FirstFailedCheck(t)
      case Some(c) => Step(Invalid(c), db)
      case None =>
        var r := RegisterUser(db, ProfileOf(t), t.username, hash(t.password), t.email);
        match r.outcome
        case Ok(id) => Step(Registered(id), r.db)
        case Refused(e) => Step(RegisterRefused(e), r.db)
  }

  /** An accepted registration leaves a password the registrant can log in with: the login form
      strips the username and password exactly as the registration form did. */
  lemma RegisterThenLoginForms(db: Db, f: RegisterForm, hash: string -> string, matches: (string, string) -> bool)
    requires forall pw :: matches(hash(pw), pw)
    ensures var s := Register(db, false, f, hash);
      s.outcome.Registered? ==>
        Login(s.db, false, f.username, f.password, matches) == SignedIn(s.outcome.account)
  {
    var s := Register(db, false, f, hash);
    if s.outcome.Registered? {
      var t := Trimmed(f);
      assert Required(t)[7] != [] && Required(t)[8] != [];
      RegisterThenLogin(db, ProfileOf(t), t.username, hash(t.password), t.email, t.password, matches);
    }
  }

  /** A phone number shorter than ten characters once stripped never creates an account. */
  lemma ShortPhoneRefused(db: Db, f: RegisterForm, hash: string -> string)
    requires |Trim(f.phone)| < MinPhoneLength
    ensures Register(db, false, f, hash).db == db
    ensures !Register(db, false, f, hash).outcome.Registered?
  {
  }
}

=== FILE: auth_service.dfy ===
/** `AuthService`: accounts, logins and shipping addresses.

    Password hashing is outside the model: registration receives the hash already computed, and
    login receives the hash check as a function.
 */
module AuthService {
  import opened Outcomes
  import opened Calendar
  import opened Models

  // ----- registration and login -------------------------------------------------------------

  /** The profile fields a registration supplies. */
  datatype Profile = Profile(
    familyName: string, givenName: string, birthDate: string, gender: string,
    nationalId: string, address: string, phone: string)

  /** The birth date column's value: `None` for an empty field, otherwise what `strptime`
      reads. */
  function StoredBirthDate(t: string): Option<Date>
  {
    if t == [] then None else ParseIsoDate(t)
  }

  /** A non-empty birth date `strptime` cannot read raises `ValueError`. */
  predicate DateRefused(t: string)
  {
    t != [] && ParseIsoDate(t).None?
  }

  /** `register_user`: creates the account row and its login, answering the new account id.
      The birth date is read after the username check, inside the try block, so a date
      `strptime` refuses rolls back and answers the error. */
  function RegisterUser(db: Db, p: Profile, username: string, passwordHash: string, email: string)
    : (s: Step<Reply<int>>)
    ensures s.outcome.Refused? <==> username in db.credentials || DateRefused(p.birthDate)
    ensures username in db.credentials ==> s == Step(Refused(DuplicateUsername), db)
    ensures username !in db.credentials && DateRefused(p.birthDate) ==> s == Step(Refused(InvalidDate), db)
    ensures s.outcome.Ok? ==>
      && s.outcome.value == db.nextAccountId
      && s.db.accounts == db.accounts + [Account(s.outcome.value, Some(p.familyName), Some(p.givenName),
           StoredBirthDate(p.birthDate), p.gender, p.nationalId, p.address, p.phone)]
      && (p.birthDate != [] ==> s.db.accounts[|db.accounts|].birthDate.Some?)
      && s.db.credentials.Keys == db.credentials.Keys + {username}
      && s.db.credentials[username] == Credential(username, passwordHash, Some(email), ActiveFlag, s.outcome.value)
      && (forall u :: u in db.credentials ==> s.db.credentials[u] == db.credentials[u])
      && s.db == db.(accounts := s.db.accounts, credentials := s.db.credentials,
                     nextAccountId := db.nextAccountId + 1)
  {
    if username in db.credentials then Step(Refused(DuplicateUsername), db)
    else if DateRefused(p.birthDate) then Step(Refused(InvalidDate), db)
    else
      var id := db.nextAccountId;
      var a := Account(id, Some(p.familyName), Some(p.givenName), StoredBirthDate(p.birthDate), p.gender,
                       p.nationalId, p.address, p.phone);
      Step(Ok(id), db.(accounts := db.accounts + [a],
                       credentials := db.credentials[username := Credential(username, passwordHash, Some(email), ActiveFlag, id)],
                       nextAccountId := id + 1))
  }

  /** A birth date written `15/03/2000`, or the date `2023-02-30` that does not exist, creates no
      account and changes nothing, even for a free username. */
  lemma UnreadableBirthDateRefused(db: Db, p: Profile, username: string, passwordHash: string, email: string)
    requires username !in db.credentials
    requires p.birthDate == "15/03/2000" || p.birthDate == "2023-02-30"
    ensures RegisterUser(db, p, username, passwordHash, email) == Step(Refused(InvalidDate), db)
  {
    SlashDateRefused();
    MissingDayRefused();
  }

  /** Registration keeps account ids fresh and every login filed under its own username. */
  lemma RegisterUserKeepsValid(db: Db, p: Profile, username: string, passwordHash: string, email: string)
    requires Valid(db)
    ensures Valid(RegisterUser(db, p, username, passwordHash, email).db)
  {
    var s := RegisterUser(db, p, username, passwordHash, email);
    if s.outcome.Ok? {
      assert forall i :: 0 <= i < |db.accounts| ==> s.db.accounts[i] == db.accounts[i];
    }
  }

  /** `login_user`: an enabled login whose stored hash matches the password; answers the
      account id. */
  function LoginUser(db: Db, username: string, password: string, matches: (string, string) -> bool)
    : (r: Reply<int>)
    ensures r.Ok? <==>
      username in db.credentials && db.credentials[username].activeFlag == ActiveFlag
      && matches(db.credentials[username].passwordHash, password)
    ensures r.Ok? ==> r.value == db.credentials[username].accountId
    ensures r.Refused? ==> r.failure == InvalidCredentials
  {
    if username in db.credentials && db.credentials[username].activeFlag == ActiveFlag
       && matches(db.credentials[username].passwordHash, password)
    then Ok(db.credentials[username].accountId)
    else Refused(InvalidCredentials)
  }

  /** A freshly registered login is enabled: logging in with a password its hash accepts
      answers the new account. */
  lemma RegisterThenLogin(db: Db, p: Profile, username: string, passwordHash: string, email: string,
                          password: string, matches: (string, string) -> bool)
    requires username !in db.credentials && !DateRefused(p.birthDate) && matches(passwordHash, password)
    ensures var s := RegisterUser(db, p, username, passwordHash, email);
      s.outcome.Ok? && LoginUser(s.db, username, password, matches) == Ok(s.outcome.value)
  {
  }

  // ----- address algebra --------------------------------------------------------------------

  /** The most addresses one account may hold. */
  const MaxAddresses: nat := 5

  lemma {:induction false} CountsSplit(xs: seq<Address>, ys: seq<Address>, b: int)
    ensures Owned(xs + ys, b) == Owned(xs, b) + Owned(ys, b)
    ensures Defaults(xs + ys, b) == Defaults(xs, b) + Defaults(ys, b)
  {
    if |xs| > 0 {
      assert (xs + ys)[1..] == xs[1..] + ys;
      CountsSplit(xs[1..], ys, b);
    } else {
      assert xs + ys == ys;
    }
  }

  /** Counts after overwriting row `k`. */
  lemma CountsUpdate(xs: seq<Address>, k: nat, a: Address, b: int)
    requires k < |xs|
    ensures Owned(xs, b) >= (if Mine(xs[k], b) then 1 else 0)
    ensures Defaults(xs, b) >= (if MyDefault(xs[k], b) then 1 else 0)
    ensures Owned(xs[k := a], b) == Owned(xs, b) - (if Mine(xs[k], b) then 1 else 0) + (if Mine(a, b) then 1 else 0)
    ensures Defaults(xs[k := a], b)
         == Defaults(xs, b) - (if MyDefault(xs[k], b) then 1 else 0) + (if MyDefault(a, b) then 1 else 0)
  {
    assert xs == xs[..k] + [xs[k]] + xs[k + 1..];
    assert xs[k := a] == xs[..k] + [a] + xs[k + 1..];
    CountsSplit(xs[..k] + [xs[k]], xs[k + 1..], b);
    CountsSplit(xs[..k], [xs[k]], b);
    CountsSplit(xs[..k] + [a], xs[k + 1..], b);
    CountsSplit(xs[..k], [a], b);
  }

  /** The rows without row `k`. */
  function RemoveAt(xs: seq<Address>, k: nat): (r: seq<Address>)
    requires k < |xs|
    ensures |r| == |xs| - 1
    ensures forall i :: 0 <= i < |r| ==> r[i] == (if i < k then xs[i] else xs[i + 1])
  {
    xs[..k] + xs[k + 1..]
  }

  lemma CountsRemove(xs: seq<Address>, k: nat, b: int)
    requires k < |xs|
    ensures Owned(RemoveAt(xs, k), b) == Owned(xs, b) - (if Mine(xs[k], b) then 1 else 0)
    ensures Defaults(RemoveAt(xs, k), b) == Defaults(xs, b) - (if MyDefault(xs[k], b) then 1 else 0)
  {
    assert xs == xs[..k] + [xs[k]] + xs[k + 1..];
    CountsSplit(xs[..k] + [xs[k]], xs[k + 1..], b);
    CountsSplit(xs[..k], [xs[k]], b);
    CountsSplit(xs[..k], xs[k + 1..], b);
  }

  /** Two row sequences that agree, row by row, on what belongs to `b` and what is its default
      count the same. */
  lemma {:induction false} CountsAgree(xs: seq<Address>, ys: seq<Address>, b: int)
    requires |xs| == |ys|
    requires forall i :: 0 <= i < |xs| ==> (Mine(xs[i], b) <==> Mine(ys[i], b))
    ensures Owned(xs, b) == Owned(ys, b)
  {
    if |xs| > 0 {
      CountsAgree(xs[1..], ys[1..], b);
    }
  }

  lemma {:induction false} DefaultsNone(xs: seq<Address>, b: int)
    requires forall i :: 0 <= i < |xs| ==> !MyDefault(xs[i], b)
    ensures Defaults(xs, b) == 0
  {
    if |xs| > 0 {
      DefaultsNone(xs[1..], b);
    }
  }

  lemma {:induction false} DefaultsAtMostOwned(xs: seq<Address>, b: int)
    ensures Defaults(xs, b) <= Owned(xs, b)
  {
    if |xs| > 0 {
      DefaultsAtMostOwned(xs[1..], b);
    }
  }

  /** `filter_by(MaTaiKhoan=acct).update({'DiaChiMacDinh': 0})`. */
  function ClearDefaults(addrs: seq<Address>, acct: int): (r: seq<Address>)
    ensures |r| == |addrs|
    ensures forall i :: 0 <= i < |r| ==>
      r[i] == if Mine(addrs[i], acct) then addrs[i].(isDefault := false) else addrs[i]
  {
    seq(|addrs|, i requires 0 <= i < |addrs| =>
      if Mine(addrs[i], acct) then addrs[i].(isDefault := false) else addrs[i])
  }

  /** The position of the address with id `id` owned by `acct`. */
  function FindOwned(addrs: seq<Address>, id: int, acct: int): (r: Option<nat>)
    ensures r.Some? ==> r.value < |addrs| && addrs[r.value].id == id && Mine(addrs[r.value], acct)
    ensures r.None? ==> forall j :: 0 <= j < |addrs| ==> !(addrs[j].id == id && Mine(addrs[j], acct))
  {
    if |addrs| == 0 then None
    else if addrs[0].id == id && Mine(addrs[0], acct) then Some(0)
    else match FindOwned(addrs[1..], id, acct)
      case Some(k) => Some(k + 1)
      case None => None
  }

  /** The position of the first address of `acct`, as `filter_by(MaTaiKhoan=acct).first()`. */
  function FirstOwned(addrs: seq<Address>, acct: int): (r: Option<nat>)
    ensures r.Some? ==> r.value < |addrs| && Mine(addrs[r.value], acct)
    ensures r.Some? ==> forall j :: 0 <= j < r.value ==> !Mine(addrs[j], acct)
    ensures r.None? <==> Owned(addrs, acct) == 0
  {
    if |addrs| == 0 then None
    else if Mine(addrs[0], acct) then Some(0)
    else match FirstOwned(addrs[1..], acct)
      case Some(k) => Some(k + 1)
      case None => None
  }

  // ----- address operations -----------------------------------------------------------------

  /** `add_address`: appends a new address for `acct`; with `makeDefault` it becomes the
      account's only default. */
  function AddAddress(db: Db, acct: int, f: AddressFields, makeDefault: bool): (s: Step<Outcome>)
    ensures s.outcome.Fail? <==> Owned(db.addresses, acct) >= MaxAddresses
    ensures s.outcome.Fail? ==> s == Step(Fail(AddressLimit), db)
    ensures s.db == db.(addresses := s.db.addresses, nextAddressId := s.db.nextAddressId)
    ensures s.outcome.Pass? ==>
      && s.db.nextAddressId == db.nextAddressId + 1
      && |s.db.addresses| == |db.addresses| + 1
      && s.db.addresses[|db.addresses|] == Address(db.nextAddressId, acct, f, makeDefault)
      && Owned(s.db.addresses, acct) == Owned(db.addresses, acct) + 1 <= MaxAddresses
      // rows of other accounts stay as they were
      && (forall i :: 0 <= i < |db.addresses| && !Mine(db.addresses[i], acct) ==>
            s.db.addresses[i] == db.addresses[i])
    ensures s.outcome.Pass? && makeDefault ==> Defaults(s.db.addresses, acct) == 1
    // with the flag, the account's older rows lose their default flag and nothing else
    ensures s.outcome.Pass? && makeDefault ==>
      forall i :: 0 <= i < |db.addresses| && Mine(db.addresses[i], acct) ==>
        s.db.addresses[i] == db.addresses[i].(isDefault := false)
    ensures s.outcome.Pass? && !makeDefault ==> s.db.addresses[..|db.addresses|] == db.addresses
  {
    if Owned(db.addresses, acct) >= MaxAddresses then Step(Fail(AddressLimit), db)
    else
      var base := if makeDefault then ClearDefaults(db.addresses, acct) else db.addresses;
      var a := Address(db.nextAddressId, acct, f, makeDefault);
      CountsAgree(db.addresses, base, acct);
      CountsSplit(base, [a], acct);
      if makeDefault then DefaultsNone(base, acct); Step(Pass, db.(addresses := base + [a], nextAddressId := db.nextAddressId + 1))
      else Step(Pass, db.(addresses := base + [a], nextAddressId := db.nextAddressId + 1))
  }

  /** `update_address`: overwrites an address the caller owns; with `makeDefault` it becomes
      the account's only default, otherwise its flag is cleared and no other row changes. */
  function UpdateAddress(db: Db, acct: int, id: int, f: AddressFields, makeDefault: bool): (s: Step<Outcome>)
    ensures s.outcome.Fail? <==> FindOwned(db.addresses, id, acct).None?
    ensures s.outcome.Fail? ==> s == Step(Fail(AddressNotFound), db)
    ensures s.db == db.(addresses := s.db.addresses)
    ensures s.outcome.Pass? ==>
      var k := FindOwned(db.addresses, id, acct).value;
      && |s.db.addresses| == |db.addresses|
      && s.db.addresses[k] == Address(id, acct, f, makeDefault)
      && Owned(s.db.addresses, acct) == Owned(db.addresses, acct)
      && (forall i :: 0 <= i < |db.addresses| && !Mine(db.addresses[i], acct) ==>
            s.db.addresses[i] == db.addresses[i])
    ensures s.outcome.Pass? && makeDefault ==> Defaults(s.db.addresses, acct) == 1
    // with the flag, the account's other rows lose their default flag and nothing else
    ensures s.outcome.Pass? && makeDefault ==>
      forall i :: 0 <= i < |db.addresses| && Mine(db.addresses[i], acct)
                  && i != FindOwned(db.addresses, id, acct).value ==>
        s.db.addresses[i] == db.addresses[i].(isDefault := false)
    ensures s.outcome.Pass? && !makeDefault ==>
      forall i :: 0 <= i < |db.addresses| && i != FindOwned(db.addresses, id, acct).value ==>
        s.db.addresses[i] == db.addresses[i]
  {
    match FindOwned(db.addresses, id, acct)
    case None => Step(Fail(AddressNotFound), db)
    case Some(k) =>
      var base := if makeDefault then ClearDefaults(db.addresses, acct) else db.addresses;
      var a := Address(id, acct, f, makeDefault);
      CountsAgree(db.addresses, base, acct);
      CountsUpdate(base, k, a, acct);
      if makeDefault then DefaultsNone(base, acct); Step(Pass, db.(addresses := base[k := a]))
      else Step(Pass, db.(addresses := base[k := a]))
  }

  /** Whether an order still refers to address `id`: the order's address column is a non-null
      foreign key, so such an address cannot be deleted. */
  predicate AddressInUse(os: seq<Order>, id: int)
  {
    exists i :: 0 <= i < |os| && os[i].addressId == id
  }

  /** `delete_address`: deletes an address the caller owns, unless it is the account's last;
      when it was the default, the account's first remaining address becomes the default. An
      address an order refers to makes the commit fail and the transaction roll back. */
  function DeleteAddress(db: Db, acct: int, id: int): (s: Step<Outcome>)
    ensures FindOwned(db.addresses, id, acct).None? ==> s == Step(Fail(AddressNotRemovable), db)
    ensures FindOwned(db.addresses, id, acct).Some? && Owned(db.addresses, acct) <= 1 ==>
      s == Step(Fail(LastAddress), db)
    ensures FindOwned(db.addresses, id, acct).Some? && Owned(db.addresses, acct) > 1 && AddressInUse(db.orders, id)
      ==> s == Step(Fail(StorageFailure), db)
    ensures s.outcome.Pass? <==>
      FindOwned(db.addresses, id, acct).Some? && Owned(db.addresses, acct) > 1
      && !AddressInUse(db.orders, id)
    ensures s.db == db.(addresses := s.db.addresses)
    ensures !s.outcome.Pass? ==> s.db == db
    ensures s.outcome.Pass? ==>
      var k := FindOwned(db.addresses, id, acct).value;
      var rest := RemoveAt(db.addresses, k);
      && |s.db.addresses| == |db.addresses| - 1
      && Owned(s.db.addresses, acct) == Owned(db.addresses, acct) - 1 >= 1
      // a deleted default passes the flag to the account's first remaining row, and only that
      // row changes
      && (db.addresses[k].isDefault ==>
            var j := FirstOwned(rest, acct);
            && j.Some? && FirstOwned(s.db.addresses, acct) == j
            && s.db.addresses == rest[j.value := rest[j.value].(isDefault := true)]
            && Defaults(s.db.addresses, acct) >= 1)
      && (!db.addresses[k].isDefault ==> s.db.addresses == rest)
  {
    match FindOwned(db.addresses, id, acct)
    case None => Step(Fail(AddressNotRemovable), db)
    case Some(k) =>
      if Owned(db.addresses, acct) <= 1 then Step(Fail(LastAddress), db)
      else if AddressInUse(db.orders, id) then Step(Fail(StorageFailure), db)
      else
        var rest := RemoveAt(db.addresses, k);
        CountsRemove(db.addresses, k, acct);
        if db.addresses[k].isDefault then
          var j := FirstOwned(rest, acct).value;
          var promoted := rest[j := rest[j].(isDefault := true)];
          CountsUpdate(rest, j, rest[j].(isDefault := true), acct);
          assert FirstOwned(promoted, acct) == Some(j) by {
            assert forall i :: 0 <= i < j ==> promoted[i] == rest[i];
            FirstOwnedAt(promoted, acct, j);
          }
          Step(Pass, db.(addresses := promoted))
        else Step(Pass, db.(addresses := rest))
  }

  lemma {:induction false} FirstOwnedAt(xs: seq<Address>, acct: int, j: nat)
    requires j < |xs| && Mine(xs[j], acct) && forall i :: 0 <= i < j ==> !Mine(xs[i], acct)
    ensures FirstOwned(xs, acct) == Some(j)
  {
    if j > 0 {
      FirstOwnedAt(xs[1..], acct, j - 1);
    }
  }

  // ----- what the address operations keep --------------------------------------------------

  /** The cap: no operation takes an account past five addresses. */
  lemma AddressCapKept(db: Db, acct: int, id: int, f: AddressFields, makeDefault: bool)
    requires Owned(db.addresses, acct) <= MaxAddresses
    ensures Owned(AddAddress(db, acct, f, makeDefault).db.addresses, acct) <= MaxAddresses
    ensures Owned(UpdateAddress(db, acct, id, f, makeDefault).db.addresses, acct) <= MaxAddresses
    ensures Owned(DeleteAddress(db, acct, id).db.addresses, acct) <= MaxAddresses
  {
  }

  /** An account with at most one default keeps at most one through every address operation,
      and a deleted default is replaced, so deleting never leaves fewer defaults than before. */
  lemma AtMostOneDefaultKept(db: Db, acct: int, id: int, f: AddressFields, makeDefault: bool)
    requires Defaults(db.addresses, acct) <= 1
    ensures Defaults(AddAddress(db, acct, f, makeDefault).db.addresses, acct) <= 1
    ensures Defaults(UpdateAddress(db, acct, id, f, makeDefault).db.addresses, acct) <= 1
    ensures Defaults(DeleteAddress(db, acct, id).db.addresses, acct) == Defaults(db.addresses, acct)
  {
    var s := AddAddress(db, acct, f, makeDefault);
    if s.outcome.Pass? && !makeDefault {
      assert s.db.addresses == db.addresses + [Address(db.nextAddressId, acct, f, false)];
      CountsSplit(db.addresses, [Address(db.nextAddressId, acct, f, false)], acct);
    }
    var u := UpdateAddress(db, acct, id, f, makeDefault);
    if u.outcome.Pass? && !makeDefault {
      var k := FindOwned(db.addresses, id, acct).value;
      assert u.db.addresses == db.addresses[k := Address(id, acct, f, false)];
      CountsUpdate(db.addresses, k, Address(id, acct, f, false), acct);
    }
    var d := DeleteAddress(db, acct, id);
    if d.outcome.Pass? {
      var k := FindOwned(db.addresses, id, acct).value;
      var rest := RemoveAt(db.addresses, k);
      CountsRemove(db.addresses, k, acct);
      if db.addresses[k].isDefault {
        var j := FirstOwned(rest, acct).value;
        CountsUpdate(rest, j, rest[j].(isDefault := true), acct);
      }
    }
  }

  /** With the flag unset, adding an account's first address leaves it with no default. */
  lemma FirstAddressMayHaveNoDefault(db: Db, acct: int, f: AddressFields)
    requires Owned(db.addresses, acct) == 0
    ensures AddAddress(db, acct, f, false).outcome.Pass?
    ensures Defaults(AddAddress(db, acct, f, false).db.addresses, acct) == 0
  {
    DefaultsAtMostOwned(db.addresses, acct);
    CountsSplit(db.addresses, [Address(db.nextAddressId, acct, f, false)], acct);
  }

  /** The address operations keep address ids distinct and below the next id. */
  lemma AddAddressKeepsValid(db: Db, acct: int, f: AddressFields, makeDefault: bool)
    requires Valid(db)
    ensures Valid(AddAddress(db, acct, f, makeDefault).db)
  {
    var s := AddAddress(db, acct, f, makeDefault);
    if s.outcome.Pass? {
      assert forall i :: 0 <= i < |db.addresses| ==> s.db.addresses[i].id == db.addresses[i].id;
    }
  }

  lemma UpdateAddressKeepsValid(db: Db, acct: int, id: int, f: AddressFields, makeDefault: bool)
    requires Valid(db)
    ensures Valid(UpdateAddress(db, acct, id, f, makeDefault).db)
  {
    var s := UpdateAddress(db, acct, id, f, makeDefault);
    if s.outcome.Pass? {
      assert forall i :: 0 <= i < |db.addresses| ==> s.db.addresses[i].id == db.addresses[i].id;
    }
  }

  /** Row ids drawn, in order, from distinct positions of the old rows keep the keys. */
  lemma IdsReindexed(db: Db, xs: seq<Address>, k: nat)
    requires AddressKeys(db) && k < |db.addresses| && |xs| == |db.addresses| - 1
    requires forall i :: 0 <= i < |xs| ==> xs[i].id == db.addresses[if i < k then i else i + 1].id
    ensures AddressKeys(db.(addresses := xs))
  {
    forall i, j | 0 <= i < j < |xs|
      ensures xs[i].id != xs[j].id
    {
      var i' := if i < k then i else i + 1;
      var j' := if j < k then j else j + 1;
      assert i' < j';
    }
  }

  /** The rows a successful deletion leaves: row `k` dropped and, when it was the default,
      the first remaining row of the account promoted. */
  lemma DeleteAddressRows(db: Db, acct: int, id: int)
    requires DeleteAddress(db, acct, id).outcome.Pass?
    ensures var k := FindOwned(db.addresses, id, acct).value;
      var xs := DeleteAddress(db, acct, id).db.addresses;
      |xs| == |db.addresses| - 1
      && forall i :: 0 <= i < |xs| ==> xs[i].id == db.addresses[if i < k then i else i + 1].id
  {
    var k := FindOwned(db.addresses, id, acct).value;
    var rest := RemoveAt(db.addresses, k);
    var xs := DeleteAddress(db, acct, id).db.addresses;
    if db.addresses[k].isDefault && FirstOwned(rest, acct).Some? {
      var j := FirstOwned(rest, acct).value;
      assert xs == rest[j := rest[j].(isDefault := true)];
    } else {
      assert xs == rest;
    }
  }

  lemma WithAddresses(db: Db, xs: seq<Address>)
    requires Valid(db) && AddressKeys(db.(addresses := xs))
    ensures Valid(db.(addresses := xs))
  {
  }

  lemma DeleteAddressKeepsValid(db: Db, acct: int, id: int)
    requires Valid(db)
    ensures Valid(DeleteAddress(db, acct, id).db)
  {
    var s := DeleteAddress(db, acct, id);
    if s.outcome.Pass? {
      var k := FindOwned(db.addresses, id, acct).value;
      DeleteAddressRows(db, acct, id);
      IdsReindexed(db, s.db.addresses, k);
      WithAddresses(db, s.db.addresses);
    }
  }

  /** After a deletion in a consistent state no address with that id remains. */
  lemma DeleteAddressRemovesRow(db: Db, acct: int, id: int)
    requires Valid(db)
    ensures var s := DeleteAddress(db, acct, id);
      s.outcome.Pass? ==> forall i :: 0 <= i < |s.db.addresses| ==> s.db.addresses[i].id != id
  {
    var s := DeleteAddress(db, acct, id);
    if s.outcome.Pass? {
      var k := FindOwned(db.addresses, id, acct).value;
      var rest := RemoveAt(db.addresses, k);
      assert forall i :: 0 <= i < |rest| ==> rest[i].id != id;
    }
  }

  /** Every order keeps the address it was placed with: deleting never removes an address an
      order refers to. */
  lemma DeleteKeepsOrderAddresses(db: Db, acct: int, id: int)
    requires forall i :: 0 <= i < |db.orders| ==> HasAddress(db.addresses, db.orders[i].addressId)
    ensures var s := DeleteAddress(db, acct, id);
      forall i :: 0 <= i < |s.db.orders| ==> HasAddress(s.db.addresses, s.db.orders[i].addressId)
  {
    var s := DeleteAddress(db, acct, id);
    if s.outcome.Pass? {
      var k := FindOwned(db.addresses, id, acct).value;
      DeleteAddressRows(db, acct, id);
      var xs := s.db.addresses;
      forall i | 0 <= i < |s.db.orders|
        ensures HasAddress(xs, s.db.orders[i].addressId)
      {
        var a := db.orders[i].addressId;
        assert a != id;
        var m :| 0 <= m < |db.addresses| && db.addresses[m].id == a;
        assert m != k;
        var m' := if m < k then m else m - 1;
        assert xs[m'].id == a;
      }
    }
  }
}

=== FILE: calendar.dfy ===
/** Dates and instants for the admin reports.

    The reports compare order timestamps (`datetime`) with boundaries built from the wall
    clock. An `Instant` is a day number (days since 0001-01-01 in the proleptic Gregorian
    calendar, as Python's `date.toordinal() - 1`) and a second of that day; `timedelta(days=n)`
    moves the day number and keeps the second. A `Clock` is the value of `datetime.now()`,
    passed in as a parameter. Registration reads a birth date with `strptime`.
 */
module Calendar {
  import opened Outcomes
  import opened Text

  /** Python's `datetime.MINYEAR` and `datetime.MAXYEAR`. */
  const MinYear: int := 1
  const MaxYear: int := 9999
  const SecondsPerDay: int := 86400

  datatype Date = Date(year: int, month: int, day: int)

  datatype YearMonth = YearMonth(year: int, month: int)

  datatype Instant = Instant(day: int, second: int)

  /** The reading of `datetime.now()`: today's date and the second of the day. */
  datatype Clock = Clock(today: Date, second: int)

  predicate IsLeap(y: int)
  {
    y % 4 == 0 && (y % 100 != 0 || y % 400 == 0)
  }

  function YearLength(y: int): int
  {
    if IsLeap(y) then 366 else 365
  }

  function DaysInMonth(y: int, m: int): (n: int)
    requires 1 <= m <= 12
    ensures 28 <= n <= 31
  {
    if m == 2 then (if IsLeap(y) then 29 else 28)
    else if m == 4 || m == 6 || m == 9 || m == 11 then 30
    else 31
  }

  predicate ValidMonth(ym: YearMonth)
  {
    MinYear <= ym.year <= MaxYear && 1 <= ym.month <= 12
  }

  predicate ValidDate(d: Date)
  {
    MinYear <= d.year <= MaxYear && 1 <= d.month <= 12 && 1 <= d.day <= DaysInMonth(d.year, d.month)
  }

  predicate ValidInstant(t: Instant)
  {
    0 <= t.second < SecondsPerDay
  }

  predicate ValidClock(c: Clock)
  {
    ValidDate(c.today) && 0 <= c.second < SecondsPerDay
  }

  // ----- day numbers ------------------------------------------------------------------------

  function DaysBeforeYear(y: int): int
    requires y >= 1
  {
    var p := y - 1;
    365 * p + p / 4 - p / 100 + p / 400
  }

  /** Days in the months of year `y` that come before month `m`. */
  function DaysBeforeMonth(y: int, m: int): int
    requires 1 <= m <= 12
  {
    var common :=
      if m <= 6 then
        (if m == 1 then 0 else if m == 2 then 31 else if m == 3 then 59
         else if m == 4 then 90 else if m == 5 then 120 else 151)
      else
        (if m == 7 then 181 else if m == 8 then 212 else if m == 9 then 243
         else if m == 10 then 273 else if m == 11 then 304 else 334);
    common + (if m > 2 && IsLeap(y) then 1 else 0)
  }

  /** The day number of a date. */
  function DayOfDate(d: Date): int
    requires d.year >= 1 && 1 <= d.month <= 12
  {
    DaysBeforeYear(d.year) + DaysBeforeMonth(d.year, d.month) + d.day - 1
  }

  function FirstDay(ym: YearMonth): Date
  {
    Date(ym.year, ym.month, 1)
  }

  function NextMonth(ym: YearMonth): (r: YearMonth)
    requires 1 <= ym.month <= 12
    ensures 1 <= r.month <= 12
    ensures r.year * 12 + r.month == ym.year * 12 + ym.month + 1
  {
    if ym.month == 12 then YearMonth(ym.year + 1, 1) else YearMonth(ym.year, ym.month + 1)
  }

  // Going from `y - 1` to `y`, the quotient by 4, 100 or 400 grows by one exactly when the
  // divisor divides `y`.
  lemma QuotientStep4(y: int)
    ensures y / 4 - (y - 1) / 4 == (if y % 4 == 0 then 1 else 0)
  {
  }

  lemma QuotientStep100(y: int)
    ensures y / 100 - (y - 1) / 100 == (if y % 100 == 0 then 1 else 0)
  {
  }

  lemma QuotientStep400(y: int)
    ensures y / 400 - (y - 1) / 400 == (if y % 400 == 0 then 1 else 0)
  {
  }

  lemma DaysBeforeNextYear(y: int)
    requires y >= 1
    ensures DaysBeforeYear(y + 1) == DaysBeforeYear(y) + YearLength(y)
  {
    QuotientStep4(y);
    QuotientStep100(y);
    QuotientStep400(y);
  }

  /** The first day of the next month comes `DaysInMonth` days after the first day of this one,
      December rolling over to January of the next year. */
  lemma NextMonthStart(ym: YearMonth)
    requires ym.year >= 1 && 1 <= ym.month <= 12
    ensures DayOfDate(FirstDay(NextMonth(ym))) == DayOfDate(FirstDay(ym)) + DaysInMonth(ym.year, ym.month)
  {
    if ym.month == 12 {
      DaysBeforeNextYear(ym.year);
    }
  }

  /** A date lies on or after the first day of its month and before the first day of the next. */
  lemma DateWithinMonth(d: Date)
    requires ValidDate(d)
    ensures DayOfDate(FirstDay(YearMonth(d.year, d.month))) <= DayOfDate(d)
    ensures DayOfDate(d) < DayOfDate(FirstDay(NextMonth(YearMonth(d.year, d.month))))
  {
    NextMonthStart(YearMonth(d.year, d.month));
  }

  // ----- month arithmetic of the 90-day chart -----------------------------------------------

  /** The month `k` months before `ym`, computed as the chart does: subtract from the month
      number and, when that reaches zero or below, add twelve and go back one year. */
  function MonthsBack(ym: YearMonth, k: int): (r: YearMonth)
    requires 1 <= ym.month <= 12 && 0 <= k < 12
    ensures 1 <= r.month <= 12
    ensures r.year * 12 + r.month == ym.year * 12 + ym.month - k
    ensures r.year == ym.year || r.year == ym.year - 1
  {
    var m := ym.month - k;
    if m <= 0 then YearMonth(ym.year - 1, m + 12) else YearMonth(ym.year, m)
  }

  /** The chart's month end: the first day of the following month (December rolling to
      January of the next year) minus one day, at midnight. */
  function MonthEnd(ym: YearMonth): (t: Instant)
    requires ym.year >= 1 && 1 <= ym.month <= 12
    ensures t.second == 0
    ensures t.day == DayOfDate(Date(ym.year, ym.month, DaysInMonth(ym.year, ym.month)))
  {
    NextMonthStart(ym);
    Instant(DayOfDate(FirstDay(NextMonth(ym))) - 1, 0)
  }

  /** `date - timedelta(days=n)` on calendar dates; `None` when Python would raise because the
      result falls before year 1. */
  function SubDays(d: Date, n: nat): (r: Option<Date>)
    requires ValidDate(d)
    ensures r.Some? ==> ValidDate(r.value) && DayOfDate(r.value) == DayOfDate(d) - n
    ensures r.None? ==> DayOfDate(d) < n
    decreases n
  {
    if n < d.day then Some(Date(d.year, d.month, d.day - n))
    else
      var p := MonthsBack(YearMonth(d.year, d.month), 1);
      if p.year < MinYear then None
      else
        NextMonthStart(p);
        assert NextMonth(p) == YearMonth(d.year, d.month);
        SubDays(Date(p.year, p.month, DaysInMonth(p.year, p.month)), n - d.day)
  }

  // ----- instants ---------------------------------------------------------------------------

  /** `a >= b` on timestamps. */
  predicate AtOrAfter(a: Instant, b: Instant)
  {
    a.day > b.day || (a.day == b.day && a.second >= b.second)
  }

  /** `t + timedelta(days=n)`. */
  function AddDays(t: Instant, n: int): Instant
  {
    Instant(t.day + n, t.second)
  }

  function Now(c: Clock): Instant
    requires ValidClock(c)
  {
    Instant(DayOfDate(c.today), c.second)
  }

  // ----- reading a date ---------------------------------------------------------------------

  /** The text `%m` accepts: `10` to `12`, `01` to `09`, or one digit `1` to `9`. */
  predicate MonthText(s: string)
  {
    || (|s| == 1 && '1' <= s[0] <= '9')
    || (|s| == 2 && s[0] == '1' && '0' <= s[1] <= '2')
    || (|s| == 2 && s[0] == '0' && '1' <= s[1] <= '9')
  }

  /** The text `%d` accepts: `30` or `31`, `10` to `29`, `01` to `09`, one digit `1` to `9`, or
      a space followed by a digit `1` to `9`. */
  predicate DayText(s: string)
  {
    || (|s| == 1 && '1' <= s[0] <= '9')
    || (|s| == 2 && s[0] == '3' && (s[1] == '0' || s[1] == '1'))
    || (|s| == 2 && (s[0] == '1' || s[0] == '2') && IsDigit(s[1]))
    || (|s| == 2 && (s[0] == '0' || s[0] == ' ') && '1' <= s[1] <= '9')
  }

  /** The day a `%d` text names; `int(" 5")` is 5. */
  function DayValue(s: string): (n: int)
    requires DayText(s)
    ensures 1 <= n <= 31
  {
    var digits := if s[0] == ' ' then s[1..] else s;
    ShortDigits(digits);
    DigitsValue(digits)
  }

  /** `datetime.strptime(t, '%Y-%m-%d').date()`: four digits, `-`, a `%m` text, `-` and a `%d`
      text with nothing after it, naming a date that exists. `None` stands for the `ValueError`
      Python raises otherwise: a text of another shape, year 0, or a day past the month's end. */
  function ParseIsoDate(t: string): (r: Option<Date>)
    ensures r.Some? ==> ValidDate(r.value)
    ensures r.Some? ==> |t| >= 8 && t[4] == '-' && IsDigits(t[..4]) && DigitsValue(t[..4]) == r.value.year
    ensures r.Some? ==> IsDigit(t[5]) && IsDigit(t[|t| - 1])
  {
    if |t| < 7 || !IsDigits(t[..4]) || t[4] != '-' then None
    else MonthAndDay(DigitsValue(t[..4]), t[5..])
  }

  /** The part after the year: a `%m` text, `-`, and a `%d` text ending the input. A month has
      no `-` in it, so the first `-` ends it. */
  function MonthAndDay(year: int, rest: string): (r: Option<Date>)
    requires |rest| >= 2
    ensures r.Some? ==> ValidDate(r.value) && r.value.year == year
    ensures r.Some? ==> |rest| >= 3 && IsDigit(rest[0]) && IsDigit(rest[|rest| - 1])
  {
    var k := if rest[1] == '-' then 1 else if |rest| > 2 && rest[2] == '-' then 2 else 0;
    if k == 0 || !MonthText(rest[..k]) || !DayText(rest[k + 1..]) then None
    else FieldsDate(year, rest[..k], rest[k + 1..])
  }

  /** The date the three fields name, if it exists. */
  function FieldsDate(year: int, m: string, n: string): (r: Option<Date>)
    requires MonthText(m) && DayText(n)
    ensures r.Some? ==> ValidDate(r.value) && r.value.year == year
  {
    var date := Date(year, DigitsValue(m), DayValue(n));
    if ValidDate(date) then Some(date) else None
  }

  /** `"%02d" % n`. */
  function TwoDigits(n: nat): (r: string)
    requires n < 100
    ensures |r| == 2 && IsDigits(r) && DigitsValue(r) == n
  {
    var r := [DigitChar(n / 10), DigitChar(n % 10)];
    ShortDigits(r);
    r
  }

  /** `date.isoformat()`: `YYYY-MM-DD` with zero padding. */
  function IsoFormat(d: Date): (r: string)
    requires ValidDate(d)
    ensures |r| == 10
  {
    var y := TwoDigits(d.year / 100) + TwoDigits(d.year % 100);
    y + "-" + TwoDigits(d.month) + "-" + TwoDigits(d.day)
  }

  /** Four digits read as the century's two digits followed by the year's two. */
  lemma FourDigitsValue(a: string, b: string)
    requires |a| == 2 && |b| == 2 && IsDigits(a) && IsDigits(b)
    ensures IsDigits(a + b) && DigitsValue(a + b) == DigitsValue(a) * 100 + DigitsValue(b)
  {
    DigitsSnoc(a, b[0]);
    DigitsSnoc(a + [b[0]], b[1]);
    assert a + [b[0]] + [b[1]] == a + b;
    ShortDigits(b);
  }

  /** A text of the shape `strptime` expects reads as the date its fields name, if that date
      exists. */
  lemma IsoFields(y: string, m: string, n: string)
    requires |y| == 4 && IsDigits(y) && MonthText(m) && DayText(n)
    ensures ParseIsoDate(y + "-" + m + "-" + n) == FieldsDate(DigitsValue(y), m, n)
  {
    var t := y + "-" + m + "-" + n;
    assert t[..4] == y && t[4] == '-';
    var rest := m + "-" + n;
    assert t[5..] == rest;
    assert rest[|m|] == '-' && rest[..|m|] == m && rest[|m| + 1..] == n;
  }

  /** A zero-padded month is a `%m` text. */
  lemma PaddedMonth(m: int)
    requires 1 <= m <= 12
    ensures MonthText(TwoDigits(m))
  {
  }

  /** A zero-padded day is a `%d` text naming that day. */
  lemma PaddedDay(n: int)
    requires 1 <= n <= 31
    ensures DayText(TwoDigits(n)) && DayValue(TwoDigits(n)) == n
  {
  }

  /** `strptime` reads back what `isoformat` writes. */
  lemma IsoDateRoundTrip(d: Date)
    requires ValidDate(d)
    ensures ParseIsoDate(IsoFormat(d)) == Some(d)
  {
    var a, b := TwoDigits(d.year / 100), TwoDigits(d.year % 100);
    var m, n := TwoDigits(d.month), TwoDigits(d.day);
    FourDigitsValue(a, b);
    assert DigitsValue(a + b) == d.year;
    PaddedMonth(d.month);
    PaddedDay(d.day);
    IsoFields(a + b, m, n);
    assert IsoFormat(d) == (a + b) + "-" + m + "-" + n;
  }

  /** A date written with `/` is refused. */
  lemma SlashDateRefused()
    ensures ParseIsoDate("15/03/2000") == None
  {
    assert "15/03/2000"[4] == '3';
  }

  /** February 30th has the right shape but does not exist. */
  lemma MissingDayRefused()
    ensures ParseIsoDate("2023-02-30") == None
  {
    var y, m, n := "2023", "02", "30";
    ShortDigits(m);
    ShortDigits(n);
    assert DigitsValue(y) == 2023 by {
      FourDigitsValue("20", "23");
      ShortDigits("20");
      ShortDigits("23");
      assert "20" + "23" == y;
    }
    assert DayValue(n) == 30;
    assert !ValidDate(Date(2023, 2, 30)) by { assert !IsLeap(2023); }
    IsoFields(y, m, n);
    assert y + "-" + m + "-" + n == "2023-02-30";
  }

  /** Month and day need no leading zero. */
  lemma UnpaddedDateRead()
    ensures ParseIsoDate("2000-1-5") == Some(Date(2000, 1, 5))
  {
    var y, m, n := "2000", "1", "5";
    ShortDigits(m);
    ShortDigits(n);
    assert DigitsValue(y) == 2000 by {
      FourDigitsValue("20", "00");
      ShortDigits("20");
      ShortDigits("00");
      assert "20" + "00" == y;
    }
    assert DayValue(n) == 5;
    IsoFields(y, m, n);
    assert y + "-" + m + "-" + n == "2000-1-5";
  }
}

=== FILE: cart_controller.dfy ===
/** `CartController`: the cart endpoints, from raw request values to the JSON answer.

    The update and remove endpoints hand the product id to the service unconverted, so the
    database compares the raw value with the integer key (see `Requests.KeyOf`).
 */
module CartController {
  import opened Outcomes
  import opened Text
  import opened Requests
  import opened Calendar
  import opened Models
  import opened CartService
  import opened OrderService
  import opened ProductService

  // ----- raw identifiers -------------------------------------------------------------------

  /** A string the database reads as 0, which no autoincrement key equals, or as a number with
      a fraction, matches no product in a consistent state. */
  lemma UnmatchedKeyFindsNothing(db: Db, s: string)
    requires Valid(db) && (KeyOf(Str(s)) == Equals(0) || KeyOf(Str(s)).NoInteger?)
    ensures forall j :: 0 <= j < |db.products| ==> KeyOf(Str(s)) != Equals(db.products[j].id)
    ensures KeyOf(Str(s)).Equals? ==> FindProduct(db.products, KeyOf(Str(s)).n).None?
  {
  }

  // ----- service calls with a raw identifier -------------------------------------------------

  /** `remove_from_cart` with the identifier as the request gave it: a query the database
      rejects fails inside the service and rolls back. */
  function RemoveByKey(db: Db, acct: int, key: Key): (s: Step<Outcome>)
    ensures key.Equals? ==> s == RemoveFromCart(db, acct, key.n)
    // a number with a fraction selects no line
    ensures key.NoInteger? ==> s == Step(Fail(if acct in db.carts then NotInCart else CartNotFound), db)
    ensures key.Unusable? ==> s.db == db && s.outcome.Fail?
  {
    match key
    case Equals(pid) => RemoveFromCart(db, acct, pid)
    case NoInteger => if acct !in db.carts then Step(Fail(CartNotFound), db) else Step(Fail(NotInCart), db)
    case Unusable => if acct !in db.carts then Step(Fail(CartNotFound), db) else Step(Fail(StorageFailure), db)
  }

  function UpdateByKey(db: Db, acct: int, key: Key, qty: int): (s: Step<Outcome>)
    ensures key.Equals? ==> s == UpdateCartItem(db, acct, key.n, qty)
    ensures key.NoInteger? ==> s == Step(Fail(if acct in db.carts then NotInCart else CartNotFound), db)
    ensures key.Unusable? ==> s.db == db && s.outcome.Fail?
  {
    match key
    case Equals(pid) => UpdateCartItem(db, acct, pid, qty)
    case NoInteger => if acct !in db.carts then Step(Fail(CartNotFound), db) else Step(Fail(NotInCart), db)
    case Unusable => if acct !in db.carts then Step(Fail(CartNotFound), db) else Step(Fail(StorageFailure), db)
  }

  /** A key that selects no product behaves as a product id the cart has no line for. */
  lemma NoIntegerIsMissingLine(db: Db, acct: int, pid: int, qty: int)
    requires acct in db.carts ==> LineQty(db.carts[acct].lines, pid).None?
    ensures RemoveByKey(db, acct, NoInteger) == RemoveFromCart(db, acct, pid)
    ensures UpdateByKey(db, acct, NoInteger, qty) == UpdateCartItem(db, acct, pid, qty)
  {
  }

  // ----- answers ----------------------------------------------------------------------------

  /** Why a request was turned down. */
  datatype Rejection =
    | LoginRequired         // no account in the session
    | MissingProduct        // `product_id` is missing or falsy
    | InvalidData           // `int()` refused the product id or quantity
    | QuantityNotPositive   // add with quantity 0 or below
    | QuantityNegative      // update with a negative quantity
    | QuantityNotNumber     // update with a quantity `int()` refuses
    | Refusal(failure: Failure)  // the service said no
    | Crash                 // an exception reached the handler

  datatype Response =
    | Added(cartCount: int)
    | Updated(total: int, cartCount: int, itemSubtotal: int)
    | Changed(total: int, cartCount: int)
    | Placed(orderId: int)
    | Rejected(status: int, why: Rejection)

  /** The body of `/api/cart-count`; `totalQuantity` is absent when nobody is logged in. */
  datatype CountReply = CountReply(count: int, totalQuantity: Option<int>)

  /** What the cart page shows. */
  datatype CartPage = CartPage(items: seq<CartItem>, total: int, cartCount: int)

  // ----- handlers ---------------------------------------------------------------------------

  /** The fields of an add-to-cart request, from a JSON body or from a form (whose values are
      strings when present). */
  datatype AddRequest = AddRequest(isJson: bool, productId: Value, quantity: Value)

  /** `add_to_cart` (the endpoint). */
  function AddToCartRequest(db: Db, user: Option<int>, req: AddRequest): (s: Step<Response>)
    ensures user.None? ==> s == Step(Rejected(401, LoginRequired), db)
    // checks that come before the service leave the database alone
    ensures user.Some? && !req.isJson && !ToInt(OrOne(req.quantity)).IntOk?
      ==> s == Step(Rejected(500, Crash), db)
    ensures user.Some? && (req.isJson || ToInt(OrOne(req.quantity)).IntOk?) && Falsy(req.productId)
      ==> s == Step(Rejected(400, MissingProduct), db)
    // the product id is converted before the quantity
    ensures user.Some? && (req.isJson || ToInt(OrOne(req.quantity)).IntOk?) && !Falsy(req.productId)
      && !ToInt(req.productId).IntOk?
      ==> s == Step(Rejected(if ToInt(req.productId).IntTypeError? then 500 else 400,
                             if ToInt(req.productId).IntTypeError? then Crash else InvalidData), db)
    ensures s.db != db ==>
      (user.Some? && !Falsy(req.productId)
       && ToInt(req.productId).IntOk? && ToInt(OrOne(req.quantity)).IntOk? && ToInt(OrOne(req.quantity)).n > 0)
    // the service decides the rest
    ensures s.outcome.Added? <==>
      && user.Some? && !Falsy(req.productId)
      && ToInt(req.productId).IntOk? && ToInt(OrOne(req.quantity)).IntOk? && ToInt(OrOne(req.quantity)).n > 0
      && AddToCart(db, user.value, ToInt(req.productId).n, ToInt(OrOne(req.quantity)).n).outcome.Pass?
    ensures s.outcome.Added? ==>
      s.db == AddToCart(db, user.value, ToInt(req.productId).n, ToInt(OrOne(req.quantity)).n).db
      && s.outcome.cartCount == |GetCartItems(s.db, user.value)|
  {
    if user.None? then Step(Rejected(401, LoginRequired), db)
    else
      var acct := user.value;
      var qty := ToInt(OrOne(req.quantity));
      if !req.isJson && !qty.IntOk? then
        // the form branch converts the quantity outside the inner try
        Step(Rejected(500, Crash), db)
      else if Falsy(req.productId) then Step(Rejected(400, MissingProduct), db)
      else
        // `int(product_id)` runs before `int(quantity)`: the first conversion that raises decides
        var pid := ToInt(req.productId);
        if pid.IntTypeError? then Step(Rejected(500, Crash), db)
        else if pid.IntValueError? then Step(Rejected(400, InvalidData), db)
        else if qty.IntTypeError? then Step(Rejected(500, Crash), db)
        else if qty.IntValueError? then Step(Rejected(400, InvalidData), db)
        else if qty.n <= 0 then Step(Rejected(400, QuantityNotPositive), db)
        else
          var r := AddToCart(db, acct, pid.n, qty.n);
          match r.outcome
          case Pass => Step(Added(|GetCartItems(r.db, acct)|), r.db)
          case Fail(f) => Step(Rejected(400, Refusal(f)), r.db)
  }

  /** The part of `update_cart` after the quantity is known to be a non-negative integer:
      0 removes the line, a positive quantity overwrites it, and the line's subtotal is the
      listed price times the quantity (0 when the product is not listed). */
  function ApplyQuantity(db: Db, acct: int, key: Key, q: int): (s: Step<Response>)
    requires q >= 0
    ensures q == 0 ==>
      s.db == RemoveByKey(db, acct, key).db
      && (s.outcome.Updated? <==> RemoveByKey(db, acct, key).outcome.Pass?)
      && (s.outcome.Updated? ==> s.outcome.itemSubtotal == 0)
    ensures q > 0 ==>
      s.db == UpdateByKey(db, acct, key, q).db
      && (s.outcome.Updated? <==> UpdateByKey(db, acct, key, q).outcome.Pass?)
      && (s.outcome.Updated? ==>
            key.Equals? &&
            var p := GetProductById(db, key.n);
            s.outcome.itemSubtotal == (if p.Some? then p.value.price * q else 0))
    ensures s.outcome.Updated? || s.outcome.Rejected?
    ensures s.outcome.Rejected? ==> s.outcome.status == 400 && s.outcome.why.Refusal?
    // the answer reports the cart as it is after the change
    ensures s.outcome.Updated? ==>
      s.outcome.total == ItemsTotal(GetCartItems(s.db, acct))
      && s.outcome.cartCount == |GetCartItems(s.db, acct)|
  {
    var r := if q == 0 then RemoveByKey(db, acct, key) else UpdateByKey(db, acct, key, q);
    if r.outcome.Pass? then
      // a passing update had a usable key, and the product table is untouched
      var subtotal :=
        if q == 0 then 0
        else match key
          case Equals(pid) => (match GetProductById(db, pid) case Some(p) => p.price * q case None => 0)
          case _ => 0;
      var items := GetCartItems(r.db, acct);
      Step(Updated(ItemsTotal(items), |items|, subtotal), r.db)
    else Step(Rejected(400, Refusal(r.outcome.failure)), r.db)
  }

  /** `update_cart` (the endpoint). */
  function UpdateCartRequest(db: Db, user: Option<int>, productId: Value, quantity: Value): (s: Step<Response>)
    ensures user.None? ==> s == Step(Rejected(401, LoginRequired), db)
    ensures user.Some? && Falsy(productId) ==> s == Step(Rejected(400, MissingProduct), db)
    ensures user.Some? && !Falsy(productId) && ToInt(OrOne(quantity)).IntTypeError?
      ==> s == Step(Rejected(500, Crash), db)
    ensures user.Some? && !Falsy(productId) && ToInt(OrOne(quantity)).IntValueError?
      ==> s == Step(Rejected(400, QuantityNotNumber), db)
    ensures user.Some? && !Falsy(productId) && ToInt(OrOne(quantity)).IntOk? && ToInt(OrOne(quantity)).n < 0
      ==> s == Step(Rejected(400, QuantityNegative), db)
    ensures user.Some? && !Falsy(productId) && ToInt(OrOne(quantity)).IntOk? && ToInt(OrOne(quantity)).n >= 0
      ==> s == ApplyQuantity(db, user.value, KeyOf(productId), ToInt(OrOne(quantity)).n)
  {
    if user.None? then Step(Rejected(401, LoginRequired), db)
    else if Falsy(productId) then Step(Rejected(400, MissingProduct), db)
    else
      match ToInt(OrOne(quantity))
      case IntTypeError => Step(Rejected(500, Crash), db)
      case IntValueError => Step(Rejected(400, QuantityNotNumber), db)
      case IntOk(q) =>
        if q < 0 then Step(Rejected(400, QuantityNegative), db)
        else ApplyQuantity(db, user.value, KeyOf(productId), q)
  }

  /** `remove_from_cart` (the endpoint). */
  function RemoveCartRequest(db: Db, user: Option<int>, productId: Value): (s: Step<Response>)
    ensures user.None? ==> s == Step(Rejected(401, LoginRequired), db)
    ensures user.Some? && Falsy(productId) ==> s == Step(Rejected(400, MissingProduct), db)
    ensures user.Some? && !Falsy(productId) ==>
      s.db == RemoveByKey(db, user.value, KeyOf(productId)).db
      && (s.outcome.Changed? <==> RemoveByKey(db, user.value, KeyOf(productId)).outcome.Pass?)
    ensures s.outcome.Changed? ==>
      s.outcome.total == ItemsTotal(GetCartItems(s.db, user.value))
      && s.outcome.cartCount == |GetCartItems(s.db, user.value)|
  {
    if user.None? then Step(Rejected(401, LoginRequired), db)
    else if Falsy(productId) then Step(Rejected(400, MissingProduct), db)
    else
      var r := RemoveByKey(db, user.value, KeyOf(productId));
      if r.outcome.Pass? then
        var items := GetCartItems(r.db, user.value);
        Step(Changed(ItemsTotal(items), |items|), r.db)
      else Step(Rejected(400, Refusal(r.outcome.failure)), r.db)
  }

  /** `clear_cart` (the endpoint): a cleared cart is reported as total 0 and count 0. */
  function ClearCartRequest(db: Db, user: Option<int>): (s: Step<Response>)
    ensures user.None? ==> s == Step(Rejected(401, LoginRequired), db)
    ensures user.Some? ==> s.db == ClearCart(db, user.value).db
    ensures s.outcome.Changed? <==> user.Some? && user.value in db.carts
    ensures s.outcome.Changed? ==> s.outcome == Changed(0, 0)
    ensures s.outcome.Changed? ==>
      ItemsTotal(GetCartItems(s.db, user.value)) == 0 && |GetCartItems(s.db, user.value)| == 0
  {
    if user.None? then Step(Rejected(401, LoginRequired), db)
    else
      var r := ClearCart(db, user.value);
      if r.outcome.Pass? then Step(Changed(0, 0), r.db)
      else Step(Rejected(400, Refusal(r.outcome.failure)), r.db)
  }

  /** `view_cart`: the listing and its total; `None` sends the visitor to the login page. */
  function ViewCart(db: Db, user: Option<int>): (r: Option<CartPage>)
    ensures r.Some? <==> user.Some?
    ensures r.Some? ==>
      r.value.items == GetCartItems(db, user.value)
      && r.value.total == ItemsTotal(r.value.items) && r.value.cartCount == |r.value.items|
  {
    match user
    case None => None
    case Some(acct) =>
      var items := GetCartItems(db, acct);
      Some(CartPage(items, ItemsTotal(items), |items|))
  }

  /** `request.form.get('address_id') or 1`, as the key the order row stores. The integer
      column refuses a string `int()` does not accept; that is modelled as address 0, which no
      address has, so the order fails as the refused insert does. */
  function AddressKey(field: Option<string>): (r: int)
    ensures field.None? || field == Some([]) ==> r == 1
    ensures field.Some? && field.value != [] && ParseInt(field.value).Some? ==> r == ParseInt(field.value).value
    ensures field.Some? && field.value != [] && ParseInt(field.value).None? ==> r == 0
  {
    match field
    case None => 1
    case Some(t) => if t == [] then 1 else match ParseInt(t) case Some(n) => n case None => 0
  }

  /** An address field that is not an integer never places an order in a consistent state. */
  lemma JunkAddressRefused(db: Db, acct: int, t: string, now: Instant)
    requires Valid(db) && t != [] && ParseInt(t).None?
    ensures !CreateOrder(db, acct, AddressKey(Some(t)), now).outcome.Ok?
  {
    assert !HasAddress(db.addresses, 0);
  }

  /** `place_order`: only the address goes to the service; the whole cart is ordered. */
  function PlaceOrderRequest(db: Db, user: Option<int>, addressField: Option<string>, now: Instant)
    : (s: Step<Response>)
    ensures user.None? ==> s == Step(Rejected(401, LoginRequired), db)
    ensures user.Some? ==>
      var r := CreateOrder(db, user.value, AddressKey(addressField), now);
      s.db == r.db
      && (r.outcome.Ok? ==> s.outcome == Placed(r.outcome.value))
      && (r.outcome.Refused? ==> s.outcome == Rejected(302, Refusal(r.outcome.failure)))
  {
    match user
    case None => Step(Rejected(401, LoginRequired), db)
    case Some(acct) =>
      var r := CreateOrder(db, acct, AddressKey(addressField), now);
      match r.outcome
      case Ok(id) => Step(Placed(id), r.db)
      case Refused(f) => Step(Rejected(302, Refusal(f)), r.db)
  }

  /** `api_cart_count`. */
  function ApiCartCount(db: Db, user: Option<int>): (r: CountReply)
    ensures user.None? ==> r == CountReply(0, None)
    ensures user.Some? ==>
      r.count == |GetCartItems(db, user.value)|
      && r.totalQuantity == Some(ItemsQuantity(GetCartItems(db, user.value)))
  {
    match user
    case None => CountReply(0, None)
    case Some(acct) =>
      var items := GetCartItems(db, acct);
      CountReply(|items|, Some(ItemsQuantity(items)))
  }

  // ----- what the answers mean --------------------------------------------------------------

  /** In a consistent state, `count` is the number of distinct lines and `total_quantity` is
      the cart's stored counter, the sum of the quantities. */
  lemma CartCountMeaning(db: Db, acct: int)
    requires Valid(db) && acct in db.carts
    ensures ApiCartCount(db, Some(acct)) == CountReply(|db.carts[acct].lines|, Some(db.carts[acct].counter))
  {
    ItemsQuantityIsCounter(db, acct);
  }

  /** A quantity string `int()` accepts is added as that number. */
  lemma FormQuantityIsParsed(db: Db, acct: int, pid: int, q: int)
    requires q > 0
    ensures var req := AddRequest(false, Str(IntToString(pid)), Str(IntToString(q)));
      AddToCartRequest(db, Some(acct), req).db == AddToCart(db, acct, pid, q).db
  {
    ParseIntRoundTrip(pid);
    ParseIntRoundTrip(q);
    var req := AddRequest(false, Str(IntToString(pid)), Str(IntToString(q)));
    assert ToInt(req.productId) == IntOk(pid) && ToInt(OrOne(req.quantity)) == IntOk(q);
    assert !Falsy(req.productId);
  }

  /** A non-empty product id string that `int()` rejects is answered 400 whatever the quantity
      holds, a null or list quantity included: the product id is converted first. */
  lemma NonNumericProductIdRefused(db: Db, acct: int, id: string, quantity: Value)
    requires id != [] && ParseInt(id).None?
    ensures AddToCartRequest(db, Some(acct), AddRequest(true, Str(id), quantity))
         == Step(Rejected(400, InvalidData), db)
  {
  }
}

=== FILE: cart_service.dfy ===
/** `CartService`: the per-account cart and its operations.

    Each operation is one atomic transition of the database value. `update_cart_total`
    rewrites the cart's counter from its lines after every add, remove and update, so the
    counter always equals the sum of the line quantities.
 */
module CartService {
  import opened Outcomes
  import opened Models

  // ----- line algebra -----------------------------------------------------------------------

  /** The lines with the quantity of product `pid` overwritten by `q`. */
  function SetQty(lines: seq<CartLine>, pid: int, q: int): (r: seq<CartLine>)
    ensures |r| == |lines|
    ensures forall i :: 0 <= i < |r| ==> r[i].productId == lines[i].productId
  {
    if |lines| == 0 then []
    else [if lines[0].productId == pid then CartLine(pid, q) else lines[0]] + SetQty(lines[1..], pid, q)
  }

  /** The lines without the line of product `pid`. */
  function DropProduct(lines: seq<CartLine>, pid: int): (r: seq<CartLine>)
    ensures |r| <= |lines|
    ensures forall i :: 0 <= i < |r| ==> r[i] in lines && r[i].productId != pid
  {
    if |lines| == 0 then []
    else if lines[0].productId == pid then DropProduct(lines[1..], pid)
    else [lines[0]] + DropProduct(lines[1..], pid)
  }

  lemma DistinctTail(lines: seq<CartLine>)
    requires |lines| > 0 && DistinctProducts(lines)
    ensures DistinctProducts(lines[1..])
    ensures LineQty(lines[1..], lines[0].productId).None?
  {
    LineQtyFound(lines[1..], lines[0].productId);
  }

  lemma {:induction false} SetQtyLookup(lines: seq<CartLine>, pid: int, q: int, x: int)
    ensures LineQty(SetQty(lines, pid, q), x)
         == if x == pid && LineQty(lines, pid).Some? then Some(q) else LineQty(lines, x)
  {
    if |lines| > 0 {
      SetQtyLookup(lines[1..], pid, q, x);
    }
  }

  lemma {:induction false} SetQtyAbsent(lines: seq<CartLine>, pid: int, q: int)
    requires LineQty(lines, pid).None?
    ensures SetQty(lines, pid, q) == lines
  {
    if |lines| > 0 {
      SetQtyAbsent(lines[1..], pid, q);
    }
  }

  /** Overwriting one line's quantity changes the sum by the difference. */
  lemma {:induction false} SetQtySum(lines: seq<CartLine>, pid: int, q: int, was: int)
    requires DistinctProducts(lines) && LineQty(lines, pid) == Some(was)
    ensures QtySum(SetQty(lines, pid, q)) == QtySum(lines) - was + q
  {
    DistinctTail(lines);
    if lines[0].productId == pid {
      SetQtyAbsent(lines[1..], pid, q);
    } else {
      SetQtySum(lines[1..], pid, q, was);
    }
  }

  lemma {:induction false} DropLookup(lines: seq<CartLine>, pid: int, x: int)
    ensures LineQty(DropProduct(lines, pid), x) == if x == pid then None else LineQty(lines, x)
  {
    if |lines| > 0 {
      DropLookup(lines[1..], pid, x);
    }
  }

  lemma {:induction false} DropAbsent(lines: seq<CartLine>, pid: int)
    requires LineQty(lines, pid).None?
    ensures DropProduct(lines, pid) == lines
  {
    if |lines| > 0 {
      DropAbsent(lines[1..], pid);
    }
  }

  lemma {:induction false} DropDistinct(lines: seq<CartLine>, pid: int)
    requires DistinctProducts(lines)
    ensures DistinctProducts(DropProduct(lines, pid))
  {
    if |lines| > 0 {
      DistinctTail(lines);
      DropDistinct(lines[1..], pid);
      var rest := DropProduct(lines[1..], pid);
      forall j | 0 <= j < |rest|
        ensures rest[j].productId != lines[0].productId
      {
        assert rest[j] in lines[1..];
      }
    }
  }

  /** Removing one line lowers the sum by its quantity. */
  lemma {:induction false} DropSum(lines: seq<CartLine>, pid: int, was: int)
    requires DistinctProducts(lines) && LineQty(lines, pid) == Some(was)
    ensures QtySum(DropProduct(lines, pid)) == QtySum(lines) - was
  {
    DistinctTail(lines);
    if lines[0].productId == pid {
      DropAbsent(lines[1..], pid);
    } else {
      DropSum(lines[1..], pid, was);
    }
  }

  lemma {:induction false} AppendFacts(lines: seq<CartLine>, l: CartLine, x: int)
    ensures QtySum(lines + [l]) == QtySum(lines) + l.qty
    ensures LineQty(lines + [l], x)
         == if LineQty(lines, x).Some? then LineQty(lines, x)
            else if x == l.productId then Some(l.qty) else None
  {
    if |lines| > 0 {
      assert (lines + [l])[1..] == lines[1..] + [l];
      AppendFacts(lines[1..], l, x);
    }
  }

  /** The lines after adding `qty` of product `pid`: its line grows by `qty`, or a new line
      with `qty` goes last. */
  function AddLine(lines: seq<CartLine>, pid: int, qty: int): seq<CartLine>
  {
    match LineQty(lines, pid)
    case Some(was) => SetQty(lines, pid, was + qty)
    case None => lines + [CartLine(pid, qty)]
  }

  function HeldIn(lines: seq<CartLine>, pid: int): int
  {
    match LineQty(lines, pid)
    case Some(q) => q
    case None => 0
  }

  /** After the add, `pid` holds what it held plus `qty`, and every other product is as it was. */
  lemma AddLineLookup(lines: seq<CartLine>, pid: int, qty: int, x: int)
    ensures LineQty(AddLine(lines, pid, qty), x)
         == if x == pid then Some(HeldIn(lines, pid) + qty) else LineQty(lines, x)
  {
    var held := LineQty(lines, pid);
    if held.Some? {
      SetQtyLookup(lines, pid, held.value + qty, x);
    } else {
      AppendFacts(lines, CartLine(pid, qty), x);
    }
  }

  /** The add keeps the lines keyed by product and raises their sum by `qty`. */
  lemma AddLineKeyed(lines: seq<CartLine>, pid: int, qty: int)
    requires DistinctProducts(lines)
    ensures DistinctProducts(AddLine(lines, pid, qty))
    ensures QtySum(AddLine(lines, pid, qty)) == QtySum(lines) + qty
  {
    var r := AddLine(lines, pid, qty);
    match LineQty(lines, pid)
    case Some(was) =>
      SetQtySum(lines, pid, was + qty, was);
      forall i, j | 0 <= i < j < |r| ensures r[i].productId != r[j].productId {
        assert r[i].productId == lines[i].productId && r[j].productId == lines[j].productId;
      }
    case None =>
      AppendFacts(lines, CartLine(pid, qty), pid);
      LineQtyFound(lines, pid);
      forall i, j | 0 <= i < j < |r| ensures r[i].productId != r[j].productId {
        if j == |lines| {
          assert r[i] == lines[i];
        } else {
          assert r[i] == lines[i] && r[j] == lines[j];
        }
      }
  }

  /** The add introduces no product other than `pid`. */
  lemma AddLineInCatalog(lines: seq<CartLine>, pid: int, qty: int, ps: seq<Product>)
    requires LinesInCatalog(lines, ps) && HasProduct(ps, pid)
    ensures LinesInCatalog(AddLine(lines, pid, qty), ps)
  {
    var r := AddLine(lines, pid, qty);
    match LineQty(lines, pid)
    case Some(was) =>
      forall i | 0 <= i < |r| ensures HasProduct(ps, r[i].productId) {
        assert r[i].productId == lines[i].productId;
      }
    case None =>
      forall i | 0 <= i < |r| ensures HasProduct(ps, r[i].productId) {
        if i < |lines| { assert r[i] == lines[i]; }
      }
  }

  // ----- the service ------------------------------------------------------------------------

  /** The lines of the account's cart (none when it has no cart). */
  function Lines(db: Db, acct: int): seq<CartLine>
  {
    CartOf(db, acct).lines
  }

  /** The quantity of product `pid` already in the account's cart, 0 without a line. */
  function Held(db: Db, acct: int, pid: int): int
  {
    match LineQty(Lines(db, acct), pid)
    case Some(q) => q
    case None => 0
  }

  /** `get_or_create_cart`: the state with a cart for `acct`, created (counter 0, no lines) and
      committed when the account had none. */
  function WithCart(db: Db, acct: int): (r: Db)
    ensures acct in r.carts && r.carts[acct] == CartOf(db, acct)
    ensures r == db.(carts := db.carts[acct := CartOf(db, acct)])
  {
    if acct in db.carts then db else db.(carts := db.carts[acct := NewCart])
  }

  /** `update_cart_total`: the cart's counter becomes the sum of its line quantities (0 for
      no lines); a missing cart is left alone. */
  function UpdateCartTotal(db: Db, acct: int): (r: Db)
    ensures acct in db.carts ==> r.carts == db.carts[acct := Cart(QtySum(db.carts[acct].lines), db.carts[acct].lines)]
    ensures acct !in db.carts ==> r == db
    ensures r == db.(carts := r.carts)
  {
    if acct in db.carts then
      var c := db.carts[acct];
      db.(carts := db.carts[acct := c.(counter := QtySum(c.lines))])
    else db
  }

  /** Replaces the account's lines and recounts, as the services do before committing. */
  function StoreLines(db: Db, acct: int, lines: seq<CartLine>): (r: Db)
    requires acct in db.carts
    ensures r.carts == db.carts[acct := Cart(QtySum(lines), lines)]
    ensures r == db.(carts := r.carts)
  {
    UpdateCartTotal(db.(carts := db.carts[acct := db.carts[acct].(lines := lines)]), acct)
  }

  /** The cart lines joined with their product rows (an inner join: a line whose product row
      is gone drops out), in line order. */
  function Joined(lines: seq<CartLine>, ps: seq<Product>): (r: seq<(CartLine, Product)>)
    ensures |r| <= |lines|
    ensures forall k :: 0 <= k < |r| ==> r[k].0 in lines && r[k].1 in ps && r[k].1.id == r[k].0.productId
    ensures LinesInCatalog(lines, ps) ==> |r| == |lines| && forall k :: 0 <= k < |r| ==> r[k].0 == lines[k]
  {
    if |lines| == 0 then []
    else
      var rest := Joined(lines[1..], ps);
      match FindProduct(ps, lines[0].productId)
      case Some(j) => [(lines[0], ps[j])] + rest
      case None =>
        assert !HasProduct(ps, lines[0].productId);
        rest
  }

  /** One entry of `get_cart_items`. */
  datatype CartItem = CartItem(
    id: int, name: string, brand: string, category: string, price: int, quantity: int)

  function ItemOf(db: Db, line: CartLine, p: Product): CartItem
  {
    CartItem(p.id, p.name,
      match p.brand case Some(b) => b case None => "",
      match CategoryName(db.categories, p.categoryId) case Some(n) => n case None => "",
      PriceOrZero(p), line.qty)
  }

  /** `get_cart_items`: one entry per joined line of the account's cart, none without a cart. */
  function GetCartItems(db: Db, acct: int): (r: seq<CartItem>)
    ensures acct !in db.carts ==> r == []
    ensures |r| == |Joined(Lines(db, acct), db.products)|
    ensures forall k :: 0 <= k < |r| ==>
      var (l, p) := Joined(Lines(db, acct), db.products)[k];
      r[k].id == l.productId && r[k].quantity == l.qty && r[k].price == PriceOrZero(p) && r[k].name == p.name
  {
    var js := Joined(Lines(db, acct), db.products);
    seq(|js|, k requires 0 <= k < |js| => ItemOf(db, js[k].0, js[k].1))
  }

  /** `sum(item['price'] * item['quantity'] for item in cart_items)`. */
  function ItemsTotal(items: seq<CartItem>): int
  {
    if |items| == 0 then 0 else items[0].price * items[0].quantity + ItemsTotal(items[1..])
  }

  /** `sum(item['quantity'] for item in cart_items)`. */
  function ItemsQuantity(items: seq<CartItem>): int
  {
    if |items| == 0 then 0 else items[0].quantity + ItemsQuantity(items[1..])
  }

  /** In a consistent state every line joins, so the listing's quantities add up to the cart's
      stored counter. */
  lemma {:induction false} ItemsQuantityIsCounter(db: Db, acct: int)
    requires Valid(db) && acct in db.carts
    ensures |GetCartItems(db, acct)| == |db.carts[acct].lines|
    ensures ItemsQuantity(GetCartItems(db, acct)) == db.carts[acct].counter
  {
    var lines := db.carts[acct].lines;
    var items := GetCartItems(db, acct);
    QuantitySumAlong(items, lines);
  }

  lemma {:induction false} QuantitySumAlong(items: seq<CartItem>, lines: seq<CartLine>)
    requires |items| == |lines|
    requires forall k :: 0 <= k < |items| ==> items[k].quantity == lines[k].qty
    ensures ItemsQuantity(items) == QtySum(lines)
  {
    if |items| > 0 {
      QuantitySumAlong(items[1..], lines[1..]);
    }
  }

  /** `add_to_cart`: adds `qty` of product `pid` to the account's cart. */
  function AddToCart(db: Db, acct: int, pid: int, qty: int): (s: Step<Outcome>)
    // the cart exists afterwards, even when the add fails
    ensures acct in s.db.carts
    ensures s.db == db.(carts := s.db.carts)
    ensures s.db.carts == db.carts[acct := s.db.carts[acct]]
    ensures s.outcome.Fail? ==> s.db == WithCart(db, acct)
    // the refusals
    ensures FindActive(db.products, pid).None? ==> s.outcome == Fail(ProductNotFound)
    ensures FindActive(db.products, pid).Some? ==>
      (s.outcome.Pass? <==>
        qty <= FindActive(db.products, pid).value.stock
        && Held(db, acct, pid) + qty <= FindActive(db.products, pid).value.stock)
    ensures s.outcome.Fail? ==> s.outcome.failure == ProductNotFound || s.outcome.failure == OutOfStock
    // the effect of a successful add
    ensures s.outcome.Pass? ==> LineQty(Lines(s.db, acct), pid) == Some(Held(db, acct, pid) + qty)
    ensures s.outcome.Pass? ==> Held(s.db, acct, pid) <= FindActive(db.products, pid).value.stock
    ensures s.outcome.Pass? ==> s.db.carts[acct].counter == QtySum(s.db.carts[acct].lines)
  {
    var db1 := WithCart(db, acct);
    var lines := db1.carts[acct].lines;
    match FindActive(db.products, pid)
    case None => Step(Fail(ProductNotFound), db1)
    case Some(p) =>
      if p.stock < qty then Step(Fail(OutOfStock), db1)
      else if p.stock < HeldIn(lines, pid) + qty then Step(Fail(OutOfStock), db1)
      else
        AddLineLookup(lines, pid, qty, pid);
        Step(Pass, StoreLines(db1, acct, AddLine(lines, pid, qty)))
  }

  /** `remove_from_cart`: deletes the line of product `pid`. */
  function RemoveFromCart(db: Db, acct: int, pid: int): (s: Step<Outcome>)
    ensures acct !in db.carts ==> s == Step(Fail(CartNotFound), db)
    ensures acct in db.carts && LineQty(db.carts[acct].lines, pid).None? ==> s == Step(Fail(NotInCart), db)
    ensures s.outcome.Pass? <==> acct in db.carts && LineQty(db.carts[acct].lines, pid).Some?
    ensures s.db == db.(carts := s.db.carts) && s.db.carts.Keys == db.carts.Keys
    ensures s.outcome.Pass? ==> s.db.carts == db.carts[acct := s.db.carts[acct]]
    ensures s.outcome.Pass? ==> LineQty(Lines(s.db, acct), pid).None?
    ensures s.outcome.Pass? ==>
      forall x :: x != pid ==> LineQty(Lines(s.db, acct), x) == LineQty(Lines(db, acct), x)
    ensures s.outcome.Pass? ==> s.db.carts[acct].counter == QtySum(s.db.carts[acct].lines)
  {
    if acct !in db.carts then Step(Fail(CartNotFound), db)
    else
      var lines := db.carts[acct].lines;
      if LineQty(lines, pid).None? then Step(Fail(NotInCart), db)
      else
        assert forall x :: (LineQty(DropProduct(lines, pid), x)
            == if x == pid then None else LineQty(lines, x)) by {
          forall x { DropLookup(lines, pid, x); }
        }
        Step(Pass, StoreLines(db, acct, DropProduct(lines, pid)))
  }

  /** `update_cart_item`: overwrites the quantity of an existing line, with no stock check. */
  function UpdateCartItem(db: Db, acct: int, pid: int, qty: int): (s: Step<Outcome>)
    ensures acct !in db.carts ==> s == Step(Fail(CartNotFound), db)
    ensures acct in db.carts && LineQty(db.carts[acct].lines, pid).None? ==> s == Step(Fail(NotInCart), db)
    // success depends on the cart and the line only, never on the stock
    ensures s.outcome.Pass? <==> acct in db.carts && LineQty(db.carts[acct].lines, pid).Some?
    ensures s.db == db.(carts := s.db.carts) && s.db.carts.Keys == db.carts.Keys
    ensures s.outcome.Pass? ==> s.db.carts == db.carts[acct := s.db.carts[acct]]
    ensures s.outcome.Pass? ==> LineQty(Lines(s.db, acct), pid) == Some(qty)
    ensures s.outcome.Pass? ==>
      forall x :: x != pid ==> LineQty(Lines(s.db, acct), x) == LineQty(Lines(db, acct), x)
    ensures s.outcome.Pass? ==> s.db.carts[acct].counter == QtySum(s.db.carts[acct].lines)
  {
    if acct !in db.carts then Step(Fail(CartNotFound), db)
    else
      var lines := db.carts[acct].lines;
      if LineQty(lines, pid).None? then Step(Fail(NotInCart), db)
      else
        assert forall x :: (LineQty(SetQty(lines, pid, qty), x)
            == if x == pid then Some(qty) else LineQty(lines, x)) by {
          forall x { SetQtyLookup(lines, pid, qty, x); }
        }
        Step(Pass, StoreLines(db, acct, SetQty(lines, pid, qty)))
  }

  /** `clear_cart`: deletes every line of the account's cart and zeroes the counter. */
  function ClearCart(db: Db, acct: int): (s: Step<Outcome>)
    ensures acct !in db.carts ==> s == Step(Fail(CartNotFound), db)
    ensures s.outcome.Pass? <==> acct in db.carts
    ensures s.db == db.(carts := s.db.carts) && s.db.carts.Keys == db.carts.Keys
    ensures s.outcome.Pass? ==> s.db.carts == db.carts[acct := s.db.carts[acct]]
    ensures s.outcome.Pass? ==> Lines(s.db, acct) == [] && s.db.carts[acct].counter == 0
  {
    if acct !in db.carts then Step(Fail(CartNotFound), db)
    else Step(Pass, db.(carts := db.carts[acct := db.carts[acct].(lines := [], counter := 0)]))
  }

  // ----- the schema's key and the counter survive every cart operation ----------------------

  lemma StoreLinesKeepsValid(db: Db, acct: int, lines: seq<CartLine>)
    requires Valid(db) && acct in db.carts
    requires DistinctProducts(lines) && LinesInCatalog(lines, db.products)
    ensures Valid(StoreLines(db, acct, lines))
  {
  }

  lemma WithCartKeepsValid(db: Db, acct: int)
    requires Valid(db)
    ensures Valid(WithCart(db, acct))
  {
  }

  /** Adding keeps every cart keyed by product, its counter equal to the sum of its
      quantities, and its lines pointing at catalog rows. */
  lemma AddToCartKeepsValid(db: Db, acct: int, pid: int, qty: int)
    requires Valid(db)
    ensures Valid(AddToCart(db, acct, pid, qty).db)
  {
    var db1 := WithCart(db, acct);
    WithCartKeepsValid(db, acct);
    var s := AddToCart(db, acct, pid, qty);
    if s.outcome.Pass? {
      var lines := db1.carts[acct].lines;
      assert s.db == StoreLines(db1, acct, AddLine(lines, pid, qty));
      AddLineKeyed(lines, pid, qty);
      AddLineInCatalog(lines, pid, qty, db.products);
      StoreLinesKeepsValid(db1, acct, AddLine(lines, pid, qty));
    }
  }

  /** A successful add leaves every other product's line as it was. */
  lemma AddToCartKeepsOtherLines(db: Db, acct: int, pid: int, qty: int, x: int)
    requires x != pid
    ensures var s := AddToCart(db, acct, pid, qty);
      s.outcome.Pass? ==> LineQty(Lines(s.db, acct), x) == LineQty(Lines(db, acct), x)
  {
    AddLineLookup(Lines(WithCart(db, acct), acct), pid, qty, x);
  }

  lemma RemoveFromCartKeepsValid(db: Db, acct: int, pid: int)
    requires Valid(db)
    ensures Valid(RemoveFromCart(db, acct, pid).db)
  {
    if acct in db.carts && LineQty(db.carts[acct].lines, pid).Some? {
      var ls := db.carts[acct].lines;
      DropDistinct(ls, pid);
      StoreLinesKeepsValid(db, acct, DropProduct(ls, pid));
    }
  }

  lemma UpdateCartItemKeepsValid(db: Db, acct: int, pid: int, qty: int)
    requires Valid(db)
    ensures Valid(UpdateCartItem(db, acct, pid, qty).db)
  {
    if acct in db.carts && LineQty(db.carts[acct].lines, pid).Some? {
      StoreLinesKeepsValid(db, acct, SetQty(db.carts[acct].lines, pid, qty));
    }
  }

  lemma ClearCartKeepsValid(db: Db, acct: int)
    requires Valid(db)
    ensures Valid(ClearCart(db, acct).db)
  {
  }

  lemma UpdateCartTotalKeepsValid(db: Db, acct: int)
    requires Valid(db)
    ensures Valid(UpdateCartTotal(db, acct))
  {
  }

  /** With a consistent cart, the counter moves by exactly the quantity added, removed or
      replaced. */
  lemma CounterMoves(db: Db, acct: int, pid: int, qty: int)
    requires acct in db.carts && CartConsistent(db.carts[acct])
    ensures AddToCart(db, acct, pid, qty).outcome.Pass? ==>
      AddToCart(db, acct, pid, qty).db.carts[acct].counter == db.carts[acct].counter + qty
    ensures RemoveFromCart(db, acct, pid).outcome.Pass? ==>
      RemoveFromCart(db, acct, pid).db.carts[acct].counter == db.carts[acct].counter - Held(db, acct, pid)
    ensures UpdateCartItem(db, acct, pid, qty).outcome.Pass? ==>
      UpdateCartItem(db, acct, pid, qty).db.carts[acct].counter
        == db.carts[acct].counter - Held(db, acct, pid) + qty
  {
    var lines := db.carts[acct].lines;
    AddLineKeyed(lines, pid, qty);
    match LineQty(lines, pid)
    case Some(was) =>
      SetQtySum(lines, pid, qty, was);
      DropSum(lines, pid, was);
    case None =>
  }
}

=== FILE: models.dfy ===
/** The storefront's tables as immutable values.

    Each table is a sequence in table order (the order an unordered query returns rows in),
    except the two tables keyed by something other than an autoincrement id: credentials are a
    map keyed by username, and carts a map keyed by the owning account (one cart per account).
    Prices and totals are integers in minor currency units.
 */
module Models {
  import opened Outcomes
  import opened Calendar

  // ----- order status -----------------------------------------------------------------------

  /** The four values of the order status enumeration. */
  datatype Status = Pending | Shipped | Delivered | Canceled

  /** A new order's status when none is given. */
  const DefaultStatus: Status := Pending

  function StatusName(s: Status): string
  {
    match s
    case Pending => "pending"
    case Shipped => "shipped"
    case Delivered => "delivered"
    case Canceled => "canceled"
  }

  /** Reads a status column value; `None` for a string outside the enumeration. */
  function ParseStatus(t: string): (r: Option<Status>)
    ensures r.Some? ==> StatusName(r.value) == t
  {
    if t == "pending" then Some(Pending)
    else if t == "shipped" then Some(Shipped)
    else if t == "delivered" then Some(Delivered)
    else if t == "canceled" then Some(Canceled)
    else None
  }

  /** Exactly the four status names are accepted, each as its own status. */
  lemma StatusRoundTrip(s: Status, t: string)
    ensures ParseStatus(StatusName(s)) == Some(s)
    ensures ParseStatus(t).Some? <==> t in {"pending", "shipped", "delivered", "canceled"}
  {
  }

  // ----- rows -------------------------------------------------------------------------------

  datatype Category = Category(id: int, name: string, description: string)

  /** A product row. `activeFlag` is 1 for a listed product and 0 after a soft delete. */
  datatype Product = Product(
    id: int,
    name: string,
    cost: Option<int>,
    importPrice: Option<int>,
    salePrice: Option<int>,
    stock: int,
    brand: Option<string>,
    description: Option<string>,
    activeFlag: int,
    categoryId: int)

  const ActiveFlag: int := 1
  const InactiveFlag: int := 0

  predicate IsActive(p: Product)
  {
    p.activeFlag == ActiveFlag
  }

  /** `float(GiaBan) if GiaBan else 0`: a missing price reads as zero. */
  function PriceOrZero(p: Product): int
  {
    match p.salePrice
    case Some(v) => v
    case None => 0
  }

  datatype Account = Account(
    id: int,
    familyName: Option<string>,
    givenName: Option<string>,
    birthDate: Option<Date>,
    gender: string,
    nationalId: string,
    address: string,
    phone: string)

  /** A login, keyed by `username`; `activeFlag` defaults to 1. */
  datatype Credential = Credential(
    username: string,
    passwordHash: string,
    email: Option<string>,
    activeFlag: int,
    accountId: int)

  datatype AddressFields = AddressFields(
    recipient: string,
    phone: string,
    street: string,
    district: string,
    province: string)

  /** A shipping address; `isDefault` is the default flag, 0 (false) unless set. */
  datatype Address = Address(id: int, accountId: int, fields: AddressFields, isDefault: bool)

  /** One cart line: the cart is implied by the map key, so (cart, product) is the key. */
  datatype CartLine = CartLine(productId: int, qty: int)

  /** A cart: the stored running quantity counter and the lines. */
  datatype Cart = Cart(counter: int, lines: seq<CartLine>)

  /** A cart as first created: counter 0 and no lines. */
  const NewCart: Cart := Cart(0, [])

  /** An order line keeps its own unit price, copied when the order is placed. */
  datatype OrderLine = OrderLine(productId: int, qty: int, unitPrice: int)

  datatype Order = Order(
    id: int,
    accountId: int,
    addressId: int,
    placedAt: Instant,
    status: Status,
    total: int,
    lines: seq<OrderLine>)

  datatype Db = Db(
    categories: seq<Category>,
    products: seq<Product>,
    accounts: seq<Account>,
    credentials: map<string, Credential>,
    addresses: seq<Address>,
    carts: map<int, Cart>,
    orders: seq<Order>,
    nextCategoryId: int,
    nextProductId: int,
    nextAccountId: int,
    nextAddressId: int,
    nextOrderId: int)

  /** The new state a service call leaves behind, with its answer. */
  datatype Step<+R> = Step(outcome: R, db: Db)

  // ----- lookups ----------------------------------------------------------------------------

  /** The position of the first product with id `id` (active or not). */
  function FindProduct(ps: seq<Product>, id: int): (r: Option<nat>)
    ensures r.Some? ==> r.value < |ps| && ps[r.value].id == id
    ensures r.Some? ==> forall j :: 0 <= j < r.value ==> ps[j].id != id
    ensures r.None? ==> forall j :: 0 <= j < |ps| ==> ps[j].id != id
  {
    if |ps| == 0 then None
    else if ps[0].id == id then Some(0)
    else match FindProduct(ps[1..], id)
      case Some(k) => Some(k + 1)
      case None => None
  }

  /** The first active product with id `id`, as `filter_by(MaSanPham=id, TrangThai=1).first()`. */
  function FindActive(ps: seq<Product>, id: int): (r: Option<Product>)
    ensures r.Some? ==> r.value in ps && r.value.id == id && IsActive(r.value)
    ensures r.None? ==> forall j :: 0 <= j < |ps| ==> !(ps[j].id == id && IsActive(ps[j]))
  {
    if |ps| == 0 then None
    else if ps[0].id == id && IsActive(ps[0]) then Some(ps[0])
    else FindActive(ps[1..], id)
  }

  predicate HasProduct(ps: seq<Product>, id: int)
  {
    exists j :: 0 <= j < |ps| && ps[j].id == id
  }

  /** The name of the first category with id `id`, the row a product's `loai` relation loads. */
  function CategoryName(cs: seq<Category>, id: int): (r: Option<string>)
    ensures r.Some? <==> exists j :: 0 <= j < |cs| && cs[j].id == id
    ensures r.Some? ==> exists j :: 0 <= j < |cs| && cs[j].id == id && cs[j].name == r.value
  {
    if |cs| == 0 then None
    else if cs[0].id == id then Some(cs[0].name)
    else CategoryName(cs[1..], id)
  }

  predicate HasAddress(addrs: seq<Address>, id: int)
  {
    exists j :: 0 <= j < |addrs| && addrs[j].id == id
  }

  /** The quantity of the line for product `pid`, if the lines hold one. */
  function LineQty(lines: seq<CartLine>, pid: int): (r: Option<int>)
  {
    if |lines| == 0 then None
    else if lines[0].productId == pid then Some(lines[0].qty)
    else LineQty(lines[1..], pid)
  }

  /** The lines hold a quantity for `pid` exactly when one of them is for `pid`. */
  lemma {:induction false} LineQtyFound(lines: seq<CartLine>, pid: int)
    ensures LineQty(lines, pid).Some? <==> exists i :: 0 <= i < |lines| && lines[i].productId == pid
  {
    if |lines| > 0 {
      LineQtyFound(lines[1..], pid);
      assert forall i :: 1 <= i < |lines| ==> lines[i] == lines[1..][i - 1];
    }
  }

  /** The account's cart, or the empty cart it would get on creation. */
  function CartOf(db: Db, acct: int): Cart
  {
    if acct in db.carts then db.carts[acct] else NewCart
  }

  /** Σ of the line quantities: what `update_cart_total` stores as the counter. */
  function QtySum(lines: seq<CartLine>): int
  {
    if |lines| == 0 then 0 else lines[0].qty + QtySum(lines[1..])
  }

  /** Σ quantity × unit price over order lines. */
  function LinesTotal(lines: seq<OrderLine>): int
  {
    if |lines| == 0 then 0 else lines[0].qty * lines[0].unitPrice + LinesTotal(lines[1..])
  }

  /** The address rows that belong to account `acct`. */
  predicate Mine(a: Address, acct: int)
  {
    a.accountId == acct
  }

  predicate MyDefault(a: Address, acct: int)
  {
    a.accountId == acct && a.isDefault
  }

  /** How many addresses account `acct` has: `filter_by(MaTaiKhoan=acct).count()`. */
  function Owned(addrs: seq<Address>, acct: int): nat
  {
    if |addrs| == 0 then 0 else (if Mine(addrs[0], acct) then 1 else 0) + Owned(addrs[1..], acct)
  }

  /** How many of account `acct`'s addresses carry the default flag. */
  function Defaults(addrs: seq<Address>, acct: int): nat
  {
    if |addrs| == 0 then 0 else (if MyDefault(addrs[0], acct) then 1 else 0) + Defaults(addrs[1..], acct)
  }

  // ----- keys and consistency ---------------------------------------------------------------

  /** The composite key (cart, product): no product has two lines in one cart. */
  predicate DistinctProducts(lines: seq<CartLine>)
  {
    forall i, j :: 0 <= i < j < |lines| ==> lines[i].productId != lines[j].productId
  }

  /** A cart whose counter is the quantity sum of its lines and whose lines are keyed. */
  predicate CartConsistent(c: Cart)
  {
    DistinctProducts(c.lines) && c.counter == QtySum(c.lines)
  }

  predicate LinesInCatalog(lines: seq<CartLine>, ps: seq<Product>)
  {
    forall i :: 0 <= i < |lines| ==> HasProduct(ps, lines[i].productId)
  }

  /** Autoincrement keys start at 1, so no row has id 0 or below. */
  predicate ProductKeys(db: Db)
  {
    && (forall i, j :: 0 <= i < j < |db.products| ==> db.products[i].id != db.products[j].id)
    && (forall i :: 0 <= i < |db.products| ==> 1 <= db.products[i].id < db.nextProductId)
    && 1 <= db.nextProductId
  }

  predicate CategoryKeys(db: Db)
  {
    && (forall i, j :: 0 <= i < j < |db.categories| ==> db.categories[i].id != db.categories[j].id)
    && (forall i :: 0 <= i < |db.categories| ==> 1 <= db.categories[i].id < db.nextCategoryId)
    && 1 <= db.nextCategoryId
  }

  predicate AccountKeys(db: Db)
  {
    && (forall i, j :: 0 <= i < j < |db.accounts| ==> db.accounts[i].id != db.accounts[j].id)
    && (forall i :: 0 <= i < |db.accounts| ==> 1 <= db.accounts[i].id < db.nextAccountId)
    && 1 <= db.nextAccountId
    && (forall u :: u in db.credentials ==> db.credentials[u].username == u)
  }

  predicate AddressKeys(db: Db)
  {
    && (forall i, j :: 0 <= i < j < |db.addresses| ==> db.addresses[i].id != db.addresses[j].id)
    && (forall i :: 0 <= i < |db.addresses| ==> 1 <= db.addresses[i].id < db.nextAddressId)
    && 1 <= db.nextAddressId
  }

  predicate OrderKeys(db: Db)
  {
    && (forall i, j :: 0 <= i < j < |db.orders| ==> db.orders[i].id != db.orders[j].id)
    && (forall i :: 0 <= i < |db.orders| ==> 1 <= db.orders[i].id < db.nextOrderId)
    && 1 <= db.nextOrderId
  }

  predicate CartsConsistent(db: Db)
  {
    forall a :: a in db.carts ==>
      CartConsistent(db.carts[a]) && LinesInCatalog(db.carts[a].lines, db.products)
  }

  /** Every order's stored total is the sum of its lines. */
  predicate OrdersConsistent(db: Db)
  {
    forall i :: 0 <= i < |db.orders| ==> db.orders[i].total == LinesTotal(db.orders[i].lines)
  }

  /** The key constraints of the schema plus the bookkeeping the services maintain. */
  predicate Valid(db: Db)
  {
    && ProductKeys(db) && CategoryKeys(db) && AccountKeys(db) && AddressKeys(db) && OrderKeys(db)
    && CartsConsistent(db) && OrdersConsistent(db)
  }
}

=== FILE: order_service.dfy ===
/** `OrderService`: turning the account's cart into an order.

    Placing an order copies every joined cart line into an order line with the product's
    current sale price, stores the total, and empties the cart. It neither checks nor decrements
    the stock, and it accepts any existing address id, whoever owns it.
 */
module OrderService {
  import opened Outcomes
  import opened Calendar
  import opened Models
  import opened CartService

  /** The stored total, `Σ quantity × (GiaBan or 0)` over the joined lines. */
  function JoinedTotal(js: seq<(CartLine, Product)>): int
  {
    if |js| == 0 then 0 else js[0].0.qty * PriceOrZero(js[0].1) + JoinedTotal(js[1..])
  }

  /** Lines that copy the joined lines' quantities and sale prices add up to the stored total. */
  lemma {:induction false} CopiedLinesTotal(js: seq<(CartLine, Product)>, r: seq<OrderLine>)
    requires |r| == |js|
    requires forall k :: 0 <= k < |js| ==>
      js[k].1.salePrice.Some? && r[k].qty == js[k].0.qty && r[k].unitPrice == js[k].1.salePrice.value
    ensures LinesTotal(r) == JoinedTotal(js)
  {
    if |js| > 0 {
      CopiedLinesTotal(js[1..], r[1..]);
    }
  }

  /** The order lines for the joined cart lines, each with its product's sale price. */
  function OrderLinesOf(js: seq<(CartLine, Product)>): (r: seq<OrderLine>)
    requires forall k :: 0 <= k < |js| ==> js[k].1.salePrice.Some?
    ensures |r| == |js|
    ensures forall k :: 0 <= k < |r| ==>
      r[k] == OrderLine(js[k].0.productId, js[k].0.qty, js[k].1.salePrice.value)
    // the lines add up to the total stored with the order
    ensures LinesTotal(r) == JoinedTotal(js)
  {
    var r := seq(|js|, k requires 0 <= k < |js| => OrderLine(js[k].0.productId, js[k].0.qty, js[k].1.salePrice.value));
    CopiedLinesTotal(js, r);
    r
  }

  /** The same total as the cart page shows for the listing. */
  lemma {:induction false} JoinedTotalIsItemsTotal(js: seq<(CartLine, Product)>, items: seq<CartItem>)
    requires |items| == |js|
    requires forall k :: 0 <= k < |js| ==>
      items[k].quantity == js[k].0.qty && items[k].price == PriceOrZero(js[k].1)
    ensures JoinedTotal(js) == ItemsTotal(items)
  {
    if |js| > 0 {
      JoinedTotalIsItemsTotal(js[1..], items[1..]);
    }
  }

  predicate AllPriced(js: seq<(CartLine, Product)>)
  {
    forall k :: 0 <= k < |js| ==> js[k].1.salePrice.Some?
  }

  /** `create_order`: places the account's cart as a new pending order for `addressId` at
      `now`, answering the new order id. */
  function CreateOrder(db: Db, acct: int, addressId: int, now: Instant): (s: Step<Reply<int>>)
    // refusals change nothing
    ensures s.outcome.Refused? ==> s.db == db
    ensures s.outcome.Refused? ==> s.outcome.failure == EmptyCart || s.outcome.failure == StorageFailure
    ensures acct !in db.carts || db.carts[acct].counter == 0 || Joined(Lines(db, acct), db.products) == []
      ==> s.outcome == Refused(EmptyCart)
    ensures s.outcome.Ok? <==>
      && acct in db.carts && db.carts[acct].counter != 0
      && Joined(Lines(db, acct), db.products) != []
      && HasAddress(db.addresses, addressId)
      && AllPriced(Joined(Lines(db, acct), db.products))
    // a placed order
    ensures s.outcome.Ok? ==>
      var js := Joined(Lines(db, acct), db.products);
      && s.outcome.value == db.nextOrderId
      && |s.db.orders| == |db.orders| + 1 && s.db.orders[..|db.orders|] == db.orders
      && var o := s.db.orders[|db.orders|];
         && o.id == s.outcome.value && o.accountId == acct && o.addressId == addressId
         && o.placedAt == now && o.status == DefaultStatus
         && o.total == LinesTotal(o.lines)
         && |o.lines| == |js|
         && (forall k :: 0 <= k < |js| ==>
               o.lines[k].productId == js[k].0.productId && o.lines[k].qty == js[k].0.qty
               && Some(o.lines[k].unitPrice) == js[k].1.salePrice)
    // the cart is emptied; products (stock included) and everything else stay as they were
    ensures s.outcome.Ok? ==>
      && s.db.carts == db.carts[acct := NewCart]
      && s.db == db.(orders := s.db.orders, carts := s.db.carts, nextOrderId := db.nextOrderId + 1)
  {
    if acct !in db.carts || db.carts[acct].counter == 0 then Step(Refused(EmptyCart), db)
    else
      var js := Joined(db.carts[acct].lines, db.products);
      if js == [] then Step(Refused(EmptyCart), db)
      else
        var total := JoinedTotal(js);
        if !HasAddress(db.addresses, addressId) then
          // the order row's address reference has no target: the flush fails and rolls back
          Step(Refused(StorageFailure), db)
        else if !AllPriced(js) then
          // an order line's unit price is not nullable: the insert fails and rolls back
          Step(Refused(StorageFailure), db)
        else
          var lines := OrderLinesOf(js);
          var o := Order(db.nextOrderId, acct, addressId, now, DefaultStatus, total, lines);
          Step(Ok(o.id), db.(orders := db.orders + [o],
                             carts := db.carts[acct := NewCart],
                             nextOrderId := db.nextOrderId + 1))
  }

  /** In a consistent state every cart line joins, so the order holds one line per cart line,
      and the stored total is the total the cart page showed. */
  lemma OrderMatchesCart(db: Db, acct: int, addressId: int, now: Instant)
    requires Valid(db)
    ensures var s := CreateOrder(db, acct, addressId, now);
      s.outcome.Ok? ==>
        var o := s.db.orders[|db.orders|];
        && |o.lines| == |db.carts[acct].lines|
        && (forall k :: 0 <= k < |o.lines| ==>
              o.lines[k].productId == db.carts[acct].lines[k].productId
              && o.lines[k].qty == db.carts[acct].lines[k].qty)
        && o.total == ItemsTotal(GetCartItems(db, acct))
  {
    var s := CreateOrder(db, acct, addressId, now);
    if s.outcome.Ok? {
      var js := Joined(Lines(db, acct), db.products);
      assert LinesTotal(OrderLinesOf(js)) == JoinedTotal(js);
      JoinedTotalIsItemsTotal(js, GetCartItems(db, acct));
    }
  }

  /** Placing an order keeps the database consistent: the new id is fresh, the stored total
      is the sum of the order's lines, and the emptied cart's counter is 0. */
  lemma CreateOrderKeepsValid(db: Db, acct: int, addressId: int, now: Instant)
    requires Valid(db)
    ensures Valid(CreateOrder(db, acct, addressId, now).db)
  {
    var s := CreateOrder(db, acct, addressId, now);
    if s.outcome.Ok? {
      var n := |db.orders|;
      assert forall i :: 0 <= i < n ==> s.db.orders[i] == db.orders[i];
    }
  }
}

=== FILE: outcomes.dfy ===
/** Result shapes shared by the storefront's services and handlers.

    Every service call of the storefront answers a pair (success flag, message); the model
    replaces the free-text message by a `Failure` kind, and keeps the service's own wording
    available through `Failure.Text`.
 */
module Outcomes {

  datatype Option<+T> = None | Some(value: T)

  /** The reasons a service or handler refuses a request. */
  datatype Failure =
    | CartUnavailable      // the cart could not be created
    | ProductNotFound      // no active product with that id
    | OutOfStock           // requested quantity exceeds the stock
    | CartNotFound         // the account has no cart yet
    | NotInCart            // the cart holds no line for that product
    | EmptyCart            // nothing to order
    | AddressLimit         // the account already has five addresses
    | AddressNotFound      // no such address owned by the caller (when editing)
    | AddressNotRemovable  // no such address owned by the caller (when deleting)
    | LastAddress          // refusing to delete the only address
    | DuplicateUsername    // the login name is taken
    | InvalidDate          // `strptime` refused the birth date and the transaction rolled back
    | InvalidCredentials   // unknown name, disabled login or wrong password
    | MissingField         // a required request field is empty
    | MissingInfo          // the order id or the new status is missing
    | EmptyName            // a category name that is empty once stripped
    | InvalidInput         // a request field has the wrong form
    | DuplicateName        // a category of that name exists
    | NotFound             // a row addressed by id does not exist
    | StorageFailure       // the database refused the write and the transaction rolled back
    | ServerError          // an exception reached the handler, which answered 500
  {
    /** The message the source returns with this failure. */
    function Text(): string
    {
      match this
      case CartUnavailable => "Không thể tạo giỏ hàng"
      case ProductNotFound => "Sản phẩm không tồn tại"
      case OutOfStock => "Không đủ hàng trong kho"
      case CartNotFound => "Không tìm thấy giỏ hàng"
      case NotInCart => "Sản phẩm không có trong giỏ hàng"
      case EmptyCart => "Giỏ hàng trống"
      case AddressLimit => "Bạn chỉ có thể thêm tối đa 5 địa chỉ giao hàng"
      case AddressNotFound => "Không tìm thấy địa chỉ hoặc không có quyền chỉnh sửa"
      case AddressNotRemovable => "Không tìm thấy địa chỉ hoặc không có quyền xóa"
      case LastAddress => "Không thể xóa địa chỉ cuối cùng"
      case DuplicateUsername => "Tên tài khoản đã tồn tại"
      case InvalidDate => "Lỗi"
      case InvalidCredentials => "Tên tài khoản hoặc mật khẩu không đúng"
      case MissingField => "Vui lòng điền đầy đủ thông tin bắt buộc!"
      case MissingInfo => "Thiếu thông tin!"
      case EmptyName => "Tên loại không được trống!"
      case InvalidInput => "Dữ liệu không hợp lệ!"
      case DuplicateName => "Tên loại đã tồn tại!"
      case NotFound => "Không tìm thấy"
      case StorageFailure => "Lỗi"
      case ServerError => "Lỗi"
    }
  }

  /** The answer of an operation that has no value to return. */
  datatype Outcome = Pass | Fail(failure: Failure)

  /** The answer of an operation that returns a value on success. */
  datatype Reply<+T> = Ok(value: T) | Refused(failure: Failure)
}

=== FILE: product_controller.dfy ===
/** `ProductController`: filtering, searching, sorting and grouping the catalog listing.

    These are pure functions of the listing `ProductService.GetAllProducts` returns.
 */
module ProductController {
  import opened Outcomes
  import opened Text
  import opened ProductService

  // ----- filters ----------------------------------------------------------------------------

  /** `p['type'].lower() == category.lower()`. */
  predicate InCategory(v: ProductView, category: string)
  {
    Lower(v.kind) == Lower(category)
  }

  /** The search test: the lower-cased term occurs in the lower-cased name or brand, and, when
      `withDescription`, in the lower-cased description. */
  predicate Matches(v: ProductView, term: string, withDescription: bool)
  {
    || IsSubstring(Lower(term), Lower(v.name))
    || IsSubstring(Lower(term), Lower(v.brand))
    || (withDescription && IsSubstring(Lower(term), Lower(v.description)))
  }

  function FilterCategory(ps: seq<ProductView>, category: string): (r: seq<ProductView>)
    ensures |r| <= |ps|
    ensures forall v :: multiset(r)[v] == if InCategory(v, category) then multiset(ps)[v] else 0
  {
    if |ps| == 0 then []
    else
      assert ps == [ps[0]] + ps[1..];
      var rest := FilterCategory(ps[1..], category);
      if InCategory(ps[0], category) then [ps[0]] + rest else rest
  }

  function FilterSearch(ps: seq<ProductView>, term: string, withDescription: bool): (r: seq<ProductView>)
    ensures |r| <= |ps|
    ensures forall v :: multiset(r)[v] == if Matches(v, term, withDescription) then multiset(ps)[v] else 0
  {
    if |ps| == 0 then []
    else
      assert ps == [ps[0]] + ps[1..];
      var rest := FilterSearch(ps[1..], term, withDescription);
      if Occurs(Lower(term), Lower(ps[0].name)) || Occurs(Lower(term), Lower(ps[0].brand))
         || (withDescription && Occurs(Lower(term), Lower(ps[0].description)))
      then [ps[0]] + rest
      else rest
  }

  /** The two optional filters: an empty category or search string skips its filter. */
  function Filtered(ps: seq<ProductView>, category: string, search: string, withDescription: bool)
    : (r: seq<ProductView>)
    ensures category == [] && search == [] ==> r == ps
    ensures forall v :: (multiset(r)[v] ==
      if (category == [] || InCategory(v, category)) && (search == [] || Matches(v, search, withDescription))
      then multiset(ps)[v] else 0)
  {
    var byCategory := if category != [] then FilterCategory(ps, category) else ps;
    if search != [] then FilterSearch(byCategory, search, withDescription) else byCategory
  }

  // ----- sorting ----------------------------------------------------------------------------

  /** The `sort` query parameter: `price_low`, `price_high`, anything else sorts by name. */
  datatype SortKey = PriceLow | PriceHigh | ByName

  function ParseSort(t: string): SortKey
  {
    if t == "price_low" then PriceLow else if t == "price_high" then PriceHigh else ByName
  }

  /** `a` may come before `b` in the order `k` asks for. */
  predicate Before(k: SortKey, a: ProductView, b: ProductView)
  {
    match k
    case PriceLow => a.price <= b.price
    case PriceHigh => a.price >= b.price
    case ByName => LexLe(a.name, b.name)
  }

  lemma BeforeTotal(k: SortKey, a: ProductView, b: ProductView)
    ensures Before(k, a, b) || Before(k, b, a)
  {
    if k == ByName {
      LexLeTotal(a.name, b.name);
    }
  }

  lemma BeforeTransitive(k: SortKey, a: ProductView, b: ProductView, c: ProductView)
    requires Before(k, a, b) && Before(k, b, c)
    ensures Before(k, a, c)
  {
    if k == ByName {
      LexLeTransitive(a.name, b.name, c.name);
    }
  }

  predicate SortedBy(k: SortKey, s: seq<ProductView>)
  {
    forall i, j :: 0 <= i < j < |s| ==> Before(k, s[i], s[j])
  }

  /** Inserts `x` before the first element it may precede, so `x` lands ahead of the elements
      equal to it. */
  function Insert(k: SortKey, x: ProductView, s: seq<ProductView>): (r: seq<ProductView>)
    requires SortedBy(k, s)
    ensures multiset(r) == multiset(s) + multiset{x}
    ensures SortedBy(k, r)
    ensures |r| == |s| + 1 && (r[0] == x || (|s| > 0 && r[0] == s[0]))
  {
    if |s| == 0 then [x]
    else if Before(k, x, s[0]) then
      ConsSorted(k, x, s);
      [x] + s
    else
      BeforeTotal(k, x, s[0]);
      var rest := Insert(k, x, s[1..]);
      assert s == [s[0]] + s[1..];
      ConsSorted(k, s[0], rest);
      [s[0]] + rest
  }

  /** An element that may precede the head of a sorted sequence may be put in front of it. */
  lemma ConsSorted(k: SortKey, x: ProductView, s: seq<ProductView>)
    requires SortedBy(k, s) && (|s| > 0 ==> Before(k, x, s[0]))
    ensures SortedBy(k, [x] + s)
  {
    forall j | 0 < j < |s| ensures Before(k, x, s[j]) {
      BeforeTransitive(k, x, s[0], s[j]);
    }
    var r := [x] + s;
    forall i, j | 0 <= i < j < |r| ensures Before(k, r[i], r[j]) {
      if i > 0 {
        assert r[i] == s[i - 1] && r[j] == s[j - 1];
      }
    }
  }

  /** `list.sort(key=...)`, with `reverse=True` for `price_high`: a stable insertion sort. */
  function SortProducts(k: SortKey, ps: seq<ProductView>): (r: seq<ProductView>)
    ensures multiset(r) == multiset(ps)
    ensures |r| == |ps|
    ensures SortedBy(k, r)
  {
    if |ps| == 0 then []
    else
      assert ps == [ps[0]] + ps[1..];
      var r := Insert(k, ps[0], SortProducts(k, ps[1..]));
      assert |r| == |multiset(r)|;
      r
  }

  /** `list_products`: the two filters, the search including the description, then the sort. */
  function ListProducts(ps: seq<ProductView>, category: string, search: string, sort: string)
    : (r: seq<ProductView>)
    ensures multiset(r) == multiset(Filtered(ps, category, search, true))
    ensures SortedBy(ParseSort(sort), r)
  {
    SortProducts(ParseSort(sort), Filtered(ps, category, search, true))
  }

  /** `api_products`: the same filters with a search over name and brand only, unsorted. */
  function ApiProducts(ps: seq<ProductView>, category: string, search: string): (r: seq<ProductView>)
    ensures forall v :: (multiset(r)[v] ==
      if (category == [] || InCategory(v, category)) && (search == [] || Matches(v, search, false))
      then multiset(ps)[v] else 0)
  {
    Filtered(ps, category, search, false)
  }

  /** What the sort orders promise: `price_low` never puts a dearer product first, `price_high`
      never a cheaper one, and the default is by name; the listing is a permutation of the
      filtered catalog. */
  lemma ListingOrder(ps: seq<ProductView>, category: string, search: string, sort: string, i: int, j: int)
    requires 0 <= i < j < |ListProducts(ps, category, search, sort)|
    ensures var r := ListProducts(ps, category, search, sort);
      && (sort == "price_low" ==> r[i].price <= r[j].price)
      && (sort == "price_high" ==> r[i].price >= r[j].price)
      && (sort != "price_low" && sort != "price_high" ==> LexLe(r[i].name, r[j].name))
  {
  }

  /** The description takes part only in the page's search: a product that matches through
      its description alone is listed by the page and left out by the API. */
  lemma DescriptionOnlyInPage(v: ProductView, term: string)
    requires !IsSubstring(Lower(term), Lower(v.name)) && !IsSubstring(Lower(term), Lower(v.brand))
    requires IsSubstring(Lower(term), Lower(v.description)) && term != []
    ensures multiset(Filtered([v], [], term, true))[v] == 1
    ensures multiset(ApiProducts([v], [], term))[v] == 0
  {
  }

  // ----- related products -------------------------------------------------------------------

  function Take(s: seq<ProductView>, n: nat): (r: seq<ProductView>)
    ensures |r| <= n && r <= s
    ensures |s| >= n ==> |r| == n
  {
    if |s| <= n then s else s[..n]
  }

  /** `r` is `s` with some entries dropped and the rest kept in their order. */
  predicate InOrderWithin(r: seq<ProductView>, s: seq<ProductView>)
    decreases |s|
  {
    if r == [] then true
    else if s == [] then false
    else (r[0] == s[0] && InOrderWithin(r[1..], s[1..])) || InOrderWithin(r, s[1..])
  }

  /** A prefix of an in-order selection is an in-order selection. */
  lemma {:induction false} PrefixInOrder(p: seq<ProductView>, r: seq<ProductView>, s: seq<ProductView>)
    requires p <= r && InOrderWithin(r, s)
    ensures InOrderWithin(p, s)
    decreases |s|
  {
    if p != [] {
      assert r != [] && s != [];
      if r[0] == s[0] && InOrderWithin(r[1..], s[1..]) {
        PrefixInOrder(p[1..], r[1..], s[1..]);
      } else {
        PrefixInOrder(p, r, s[1..]);
      }
    }
  }

  function SameKindOthers(ps: seq<ProductView>, kind: string, id: int): (r: seq<ProductView>)
    ensures |r| <= |ps|
    ensures forall v :: v in r <==> v in ps && v.kind == kind && v.id != id
    ensures InOrderWithin(r, ps)
  {
    if |ps| == 0 then []
    else
      var rest := SameKindOthers(ps[1..], kind, id);
      assert forall v :: v in ps <==> v == ps[0] || v in ps[1..];
      if ps[0].kind == kind && ps[0].id != id then [ps[0]] + rest else rest
  }

  /** The related products of `product_detail`: the first four other products of exactly the
      same type, in listing order. */
  function Related(ps: seq<ProductView>, product: ProductView): (r: seq<ProductView>)
    ensures |r| <= 4
    ensures forall v :: v in r ==> v in ps && v.kind == product.kind && v.id != product.id
    ensures r <= SameKindOthers(ps, product.kind, product.id)
    ensures |r| == 4 || r == SameKindOthers(ps, product.kind, product.id)
    ensures InOrderWithin(r, ps)
  {
    PrefixInOrder(Take(SameKindOthers(ps, product.kind, product.id), 4), SameKindOthers(ps, product.kind, product.id), ps);
    Take(SameKindOthers(ps, product.kind, product.id), 4)
  }

  // ----- grouping by category ---------------------------------------------------------------

  /** One entry of the `categories` page: the title-cased name, the type key, the count and
      the products. */
  datatype Group = Group(name: string, key: string, count: int, products: seq<ProductView>)

  /** The products of type `kind`, in listing order. */
  function OfKind(ps: seq<ProductView>, kind: string): (r: seq<ProductView>)
    ensures forall v :: v in r <==> v in ps && v.kind == kind
  {
    if |ps| == 0 then []
    else
      var init := ps[..|ps| - 1];
      var last := ps[|ps| - 1];
      assert ps == init + [last];
      OfKind(init, kind) + (if last.kind == kind then [last] else [])
  }

  function GroupIndex(gs: seq<Group>, key: string): (r: Option<nat>)
    ensures r.Some? ==> r.value < |gs| && gs[r.value].key == key
    ensures r.None? ==> forall i :: 0 <= i < |gs| ==> gs[i].key != key
  {
    if |gs| == 0 then None
    else if gs[0].key == key then Some(0)
    else match GroupIndex(gs[1..], key)
      case Some(i) => Some(i + 1)
      case None => None
  }

  /** One step of the grouping loop: open the product's group if it is new, then count the
      product and append it. */
  function AddToGroup(gs: seq<Group>, v: ProductView): seq<Group>
  {
    match GroupIndex(gs, v.kind)
    case Some(i) => gs[i := gs[i].(count := gs[i].count + 1, products := gs[i].products + [v])]
    case None => gs + [Group(TitleCase(v.kind), v.kind, 1, [v])]
  }

  function SumCounts(gs: seq<Group>): int
  {
    if |gs| == 0 then 0 else gs[0].count + SumCounts(gs[1..])
  }

  /** `categories`: the groups in the order their type first occurs in the listing. */
  function Categories(ps: seq<ProductView>): (gs: seq<Group>)
    // one group per type, keyed by the type itself and named by its title case
    ensures forall i, j :: 0 <= i < j < |gs| ==> gs[i].key != gs[j].key
    ensures forall i :: 0 <= i < |gs| ==> gs[i].name == TitleCase(gs[i].key)
    // each group holds exactly the products of its type, and counts them
    ensures forall i :: 0 <= i < |gs| ==> gs[i].products == OfKind(ps, gs[i].key)
    ensures forall i :: 0 <= i < |gs| ==> gs[i].count == |gs[i].products| >= 1
    // every product is in a group, and the counts add up to the listing's length
    ensures forall v :: v in ps ==> GroupIndex(gs, v.kind).Some?
    ensures SumCounts(gs) == |ps|
  {
    if |ps| == 0 then []
    else
      var init := ps[..|ps| - 1];
      var v := ps[|ps| - 1];
      assert ps == init + [v];
      var before := Categories(init);
      var gs := AddToGroup(before, v);
      GroupKeysStep(before, v);
      GroupProductsStep(init, before, v);
      GroupCoverStep(init, before, v);
      GroupSumStep(init, before, v);
      gs
  }

  lemma GroupKeysStep(before: seq<Group>, v: ProductView)
    requires forall i, j :: 0 <= i < j < |before| ==> before[i].key != before[j].key
    requires forall i :: 0 <= i < |before| ==> before[i].name == TitleCase(before[i].key)
    ensures var gs := AddToGroup(before, v);
      && |gs| >= |before|
      && (forall i :: 0 <= i < |before| ==> gs[i].key == before[i].key)
      && (forall i, j :: 0 <= i < j < |gs| ==> gs[i].key != gs[j].key)
      && (forall i :: 0 <= i < |gs| ==> gs[i].name == TitleCase(gs[i].key))
  {
  }

  lemma OfKindSnoc(init: seq<ProductView>, v: ProductView, kind: string)
    ensures OfKind(init + [v], kind) == OfKind(init, kind) + (if v.kind == kind then [v] else [])
  {
    assert (init + [v])[..|init + [v]| - 1] == init;
  }

  lemma GroupProductsStep(init: seq<ProductView>, before: seq<Group>, v: ProductView)
    requires forall i, j :: 0 <= i < j < |before| ==> before[i].key != before[j].key
    requires forall i :: 0 <= i < |before| ==> before[i].products == OfKind(init, before[i].key)
    requires forall i :: 0 <= i < |before| ==> before[i].count == |before[i].products| >= 1
    requires forall w :: w in init ==> GroupIndex(before, w.kind).Some?
    ensures var gs := AddToGroup(before, v);
      && (forall i :: 0 <= i < |gs| ==> gs[i].products == OfKind(init + [v], gs[i].key))
      && (forall i :: 0 <= i < |gs| ==> gs[i].count == |gs[i].products| >= 1)
  {
    var gs := AddToGroup(before, v);
    forall i | 0 <= i < |gs|
      ensures gs[i].products == OfKind(init + [v], gs[i].key)
      ensures gs[i].count == |gs[i].products| >= 1
    {
      GroupEntryStep(init, before, v, i);
    }
  }

  lemma GroupEntryStep(init: seq<ProductView>, before: seq<Group>, v: ProductView, i: nat)
    requires forall i, j :: 0 <= i < j < |before| ==> before[i].key != before[j].key
    requires forall i :: 0 <= i < |before| ==> before[i].products == OfKind(init, before[i].key)
    requires forall i :: 0 <= i < |before| ==> before[i].count == |before[i].products| >= 1
    requires forall w :: w in init ==> GroupIndex(before, w.kind).Some?
    requires i < |AddToGroup(before, v)|
    ensures var g := AddToGroup(before, v)[i];
      g.products == OfKind(init + [v], g.key) && g.count == |g.products| >= 1
  {
    var g := AddToGroup(before, v)[i];
    OfKindSnoc(init, v, g.key);
    match GroupIndex(before, v.kind)
    case Some(k) =>
      if i != k {
        assert g == before[i];
        assert before[i].key != before[k].key;
      }
    case None =>
      if i == |before| {
        NewKindHasNoProducts(init, before, v.kind);
      }
  }

  lemma NewKindHasNoProducts(init: seq<ProductView>, before: seq<Group>, kind: string)
    requires forall w :: w in init ==> GroupIndex(before, w.kind).Some?
    requires GroupIndex(before, kind).None?
    ensures OfKind(init, kind) == []
  {
  }

  lemma GroupCoverStep(init: seq<ProductView>, before: seq<Group>, v: ProductView)
    requires forall w :: w in init ==> GroupIndex(before, w.kind).Some?
    ensures forall w :: w in init + [v] ==> GroupIndex(AddToGroup(before, v), w.kind).Some?
  {
    var gs := AddToGroup(before, v);
    GroupKeysLength(before, v);
    forall w | w in init + [v]
      ensures GroupIndex(gs, w.kind).Some?
    {
      if w in init {
        var i := GroupIndex(before, w.kind).value;
        KeyKept(before, gs, i);
      } else if GroupIndex(before, v.kind).Some? {
        var i := GroupIndex(before, v.kind).value;
        KeyKept(before, gs, i);
      } else {
        KeyKept(gs, gs, |before|);
      }
    }
  }

  lemma GroupKeysLength(before: seq<Group>, v: ProductView)
    ensures var gs := AddToGroup(before, v);
      && |gs| >= |before|
      && (forall i :: 0 <= i < |before| ==> gs[i].key == before[i].key)
      && (GroupIndex(before, v.kind).None? ==> |gs| == |before| + 1 && gs[|before|].key == v.kind)
  {
  }

  lemma GroupSumStep(init: seq<ProductView>, before: seq<Group>, v: ProductView)
    requires SumCounts(before) == |init|
    ensures SumCounts(AddToGroup(before, v)) == |init + [v]|
  {
    match GroupIndex(before, v.kind)
    case Some(k) =>
      SumCountsUpdate(before, k, before[k].(count := before[k].count + 1, products := before[k].products + [v]));
    case None =>
      SumCountsAppend(before, Group(TitleCase(v.kind), v.kind, 1, [v]));
  }

  /** A key present at position `i` of `before` is found in `gs` when `gs` keeps it there. */
  lemma KeyKept(before: seq<Group>, gs: seq<Group>, i: nat)
    requires i < |before| && i < |gs| && gs[i].key == before[i].key
    ensures GroupIndex(gs, before[i].key).Some?
  {
  }

  lemma {:induction false} SumCountsUpdate(gs: seq<Group>, k: nat, g: Group)
    requires k < |gs|
    ensures SumCounts(gs[k := g]) == SumCounts(gs) - gs[k].count + g.count
  {
    if k > 0 {
      assert gs[k := g][1..] == gs[1..][k - 1 := g];
      SumCountsUpdate(gs[1..], k - 1, g);
    }
  }

  lemma {:induction false} SumCountsAppend(gs: seq<Group>, g: Group)
    ensures SumCounts(gs + [g]) == SumCounts(gs) + g.count
  {
    if |gs| > 0 {
      assert (gs + [g])[1..] == gs[1..] + [g];
      SumCountsAppend(gs[1..], g);
    }
  }
}

=== FILE: product_service.dfy ===
/** `ProductService`: the catalog as the storefront pages see it.

    A product is listed when it is active and its category row exists (the listing is an inner
    join with the category table). Image URLs are outside the model.
 */
module ProductService {
  import opened Outcomes
  import opened Models

  /** One catalog entry: missing brand and description read as empty, a missing price as 0. */
  datatype ProductView = ProductView(
    id: int, name: string, kind: string, brand: string, price: int, description: string, quantity: int)

  predicate Listed(db: Db, p: Product)
  {
    IsActive(p) && CategoryName(db.categories, p.categoryId).Some?
  }

  function ViewOf(db: Db, p: Product): (v: ProductView)
    requires Listed(db, p)
    ensures v.id == p.id && v.name == p.name && v.price == PriceOrZero(p) && v.quantity == p.stock
    // the kind is the name of the product's category
    ensures Some(v.kind) == CategoryName(db.categories, p.categoryId)
    ensures p.brand.Some? ==> v.brand == p.brand.value
    ensures p.brand.None? ==> v.brand == ""
    ensures p.description.Some? ==> v.description == p.description.value
    ensures p.description.None? ==> v.description == ""
  {
    ProductView(p.id, p.name, CategoryName(db.categories, p.categoryId).value,
      match p.brand case Some(b) => b case None => "",
      PriceOrZero(p),
      match p.description case Some(d) => d case None => "",
      p.stock)
  }

  /** `get_all_products`: the listed products in table order. */
  function ListedFrom(db: Db, ps: seq<Product>): (r: seq<ProductView>)
    ensures |r| <= |ps|
    ensures forall v :: v in r <==> exists j :: 0 <= j < |ps| && Listed(db, ps[j]) && v == ViewOf(db, ps[j])
  {
    if |ps| == 0 then []
    else
      var rest := ListedFrom(db, ps[1..]);
      assert forall j :: 1 <= j < |ps| ==> ps[j] == ps[1..][j - 1];
      if Listed(db, ps[0]) then [ViewOf(db, ps[0])] + rest else rest
  }

  function GetAllProducts(db: Db): (r: seq<ProductView>)
    ensures |r| <= |db.products|
    ensures forall v :: v in r <==>
      exists j :: 0 <= j < |db.products| && Listed(db, db.products[j]) && v == ViewOf(db, db.products[j])
  {
    ListedFrom(db, db.products)
  }

  /** `get_product_by_id`: the listed product with that id, if any. */
  function GetProductById(db: Db, id: int): (r: Option<ProductView>)
    ensures r.Some? ==> r.value.id == id
    ensures r.Some? ==> exists j :: 0 <= j < |db.products| && db.products[j].id == id && Listed(db, db.products[j])
                                 && r.value == ViewOf(db, db.products[j])
    ensures r.None? ==> forall j :: 0 <= j < |db.products| ==> !(db.products[j].id == id && Listed(db, db.products[j]))
  {
    ById(db, db.products, id)
  }

  function ById(db: Db, ps: seq<Product>, id: int): (r: Option<ProductView>)
    ensures r.Some? ==> r.value.id == id
    ensures r.Some? ==> exists j :: 0 <= j < |ps| && ps[j].id == id && Listed(db, ps[j]) && r.value == ViewOf(db, ps[j])
    ensures r.None? ==> forall j :: 0 <= j < |ps| ==> !(ps[j].id == id && Listed(db, ps[j]))
  {
    if |ps| == 0 then None
    else if ps[0].id == id && Listed(db, ps[0]) then Some(ViewOf(db, ps[0]))
    else
      var r := ById(db, ps[1..], id);
      assert forall j :: 1 <= j < |ps| ==> ps[j] == ps[1..][j - 1];
      r
  }

  /** The single-product lookup agrees with the listing: a product it finds is in the listing,
      and a listed product with that id is what it finds when ids are keys. */
  lemma ByIdAgreesWithListing(db: Db, id: int)
    requires ProductKeys(db)
    ensures GetProductById(db, id).Some? ==> GetProductById(db, id).value in GetAllProducts(db)
    ensures forall v :: v in GetAllProducts(db) && v.id == id ==> GetProductById(db, id) == Some(v)
  {
  }
}

=== FILE: requests.dfy ===
/** `Requests`: field values as a handler reads them from a JSON body or a form.

    A field arrives as a `Value`. `int(...)` on it either gives a number, raises `ValueError`
    (a string that is not an integer) or raises `TypeError` (`None`, a list, an object).
 */
module Requests {
  import opened Outcomes
  import opened Text

  /** A request field: missing, JSON `null`, a number, a string, a list or an object. */
  datatype Value =
    | Absent
    | Null
    | Num(n: int)
    | Str(s: string)
    | List(items: seq<Value>)
    | Object(fields: map<string, Value>)

  /** Python's `not v`. */
  predicate Falsy(v: Value)
  {
    match v
    case Absent => true
    case Null => true
    case Num(n) => n == 0
    case Str(s) => s == []
    case List(items) => items == []
    case Object(fields) => fields == map[]
  }

  datatype IntResult = IntOk(n: int) | IntValueError | IntTypeError

  /** Python's `int(v)`. */
  function ToInt(v: Value): (r: IntResult)
    ensures v.Num? ==> r == IntOk(v.n)
    ensures v.Str? ==> (r.IntOk? <==> ParseInt(v.s).Some?) && (r.IntOk? ==> r.n == ParseInt(v.s).value)
    ensures v.Str? ==> !r.IntTypeError?
    ensures !v.Num? && !v.Str? ==> r == IntTypeError
  {
    match v
    case Num(n) => IntOk(n)
    case Str(s) => (match ParseInt(s) case Some(n) => IntOk(n) case None => IntValueError)
    case _ => IntTypeError
  }

  /** `data.get(name, 1)`: a missing field reads as 1. */
  function OrOne(v: Value): (r: Value)
    ensures v.Absent? ==> r == Num(1)
    ensures !v.Absent? ==> r == v
  {
    if v.Absent? then Num(1) else v
  }

  // ----- how the database reads a raw key ---------------------------------------------------

  /** The decimal number `m × 10^e`. */
  datatype Decimal = Decimal(m: int, e: int)

  /** The blanks MySQL skips before it reads a number from a string. */
  predicate IsBlank(c: char) { c == ' ' || c == '\t' }

  /** The length of the run of blanks that starts `s`. */
  function LeadingBlanks(s: string): (n: nat)
    ensures n <= |s|
    ensures forall i :: 0 <= i < n ==> IsBlank(s[i])
    ensures n < |s| ==> !IsBlank(s[n])
  {
    if |s| == 0 || !IsBlank(s[0]) then 0 else 1 + LeadingBlanks(s[1..])
  }

  /** The length of the run of digits that starts `s`. */
  function DigitRun(s: string): (n: nat)
    ensures n <= |s|
    ensures forall i :: 0 <= i < n ==> IsDigit(s[i])
    ensures n < |s| ==> !IsDigit(s[n])
  {
    if |s| == 0 || !IsDigit(s[0]) then 0 else 1 + DigitRun(s[1..])
  }

  function Pow10(k: nat): (r: nat)
    ensures r >= 1
  {
    if k == 0 then 1 else 10 * Pow10(k - 1)
  }

  /** `s` without a leading `+` or `-`, and whether that sign was `-`. */
  function Unsigned(s: string): (r: (bool, string))
    ensures (|s| > 0 && (s[0] == '-' || s[0] == '+')) ==> r == (s[0] == '-', s[1..])
    ensures !(|s| > 0 && (s[0] == '-' || s[0] == '+')) ==> r == (false, s)
  {
    if |s| > 0 && (s[0] == '-' || s[0] == '+') then (s[0] == '-', s[1..]) else (false, s)
  }

  /** The exponent an `e` or `E` suffix gives, with an optional sign and at least one digit;
      anything else is no exponent. */
  function ExponentOf(r: string): int
  {
    if |r| > 0 && (r[0] == 'e' || r[0] == 'E') then
      var (neg, w) := Unsigned(r[1..]);
      var c := DigitRun(w);
      var x: int := DigitsValue(w[..c]);
      if neg then -x else x
    else 0
  }

  /** The number MySQL reads from a string compared with a number: after leading blanks, an
      optional sign, digits with an optional fraction, and an optional exponent. The longest
      such prefix counts and the rest is ignored; a string with no digits there reads as 0. */
  function SqlNumber(s: string): (d: Decimal)
  {
    var (neg, u) := Unsigned(s[LeadingBlanks(s)..]);
    var d := UnsignedNumber(u);
    if neg then Decimal(-d.m, d.e) else d
  }

  /** The number at the start of `u`, which has no sign. */
  function UnsignedNumber(u: string): Decimal
  {
    var a := DigitRun(u);
    if a < |u| && u[a] == '.' then FractionPart(u[..a], u[a + 1..]) else WholePart(u[..a], u[a..])
  }

  /** Digits `w` and no point, then `rest`. */
  function WholePart(w: string, rest: string): Decimal
    requires forall i :: 0 <= i < |w| ==> IsDigit(w[i])
  {
    if w == [] then Decimal(0, 0) else Decimal(DigitsValue(w), ExponentOf(rest))
  }

  /** Digits `w`, a point, then `f`, whose leading digits are the fraction. */
  function FractionPart(w: string, f: string): Decimal
    requires forall i :: 0 <= i < |w| ==> IsDigit(w[i])
  {
    var b := DigitRun(f);
    if |w| + b == 0 then Decimal(0, 0) else Decimal(DigitsValue(w + f[..b]), ExponentOf(f[b..]) - b)
  }

  /** The integer a decimal number equals, when it is one. */
  function IntegerValue(d: Decimal): (r: Option<int>)
    ensures d.e >= 0 ==> r == Some(d.m * Pow10(d.e))
    ensures d.e < 0 ==> (r.Some? <==> d.m % Pow10(-d.e) == 0)
    ensures d.e < 0 && r.Some? ==> r.value * Pow10(-d.e) == d.m
  {
    if d.e >= 0 then Some(d.m * Pow10(d.e))
    else if d.m % Pow10(-d.e) == 0 then Some(d.m / Pow10(-d.e))
    else None
  }

  /** What a raw identifier selects when the database compares it with an integer key: the
      key equal to it, no key at all (a number with a fraction, or `NULL`), or a failed query. */
  datatype Key = Equals(n: int) | NoInteger | Unusable

  /** The key the database compares a raw identifier with. A number is itself. A string is read
      by `SqlNumber`, so `"12abc"` selects 12, `"1e1"` 10, `"abc"` 0, which no autoincrement key
      equals, and `"1.5"` nothing. `None` is compared with `IS NULL`, which no key satisfies. A
      list or object bound as the compared value is taken to fail the query. */
  function KeyOf(v: Value): (r: Key)
    ensures v.Num? ==> r == Equals(v.n)
    ensures v.Str? && r.Equals? ==> IntegerValue(SqlNumber(v.s)) == Some(r.n)
    ensures v.Str? && !r.Equals? ==> r.NoInteger? && IntegerValue(SqlNumber(v.s)).None?
    ensures v.Null? || v.Absent? ==> r == NoInteger
    ensures r.Unusable? <==> v.List? || v.Object?
  {
    match v
    case Num(n) => Equals(n)
    case Str(s) => (match IntegerValue(SqlNumber(s)) case Some(n) => Equals(n) case None => NoInteger)
    case Absent => NoInteger
    case Null => NoInteger
    case _ => Unusable
  }

  /** How `Query.get(ident)` reads its argument for a table whose one primary-key column is
      named `pk`. A list must hold exactly one value, and an object exactly the one key `pk`;
      any other list or object fails with `InvalidRequestError`. The value found is compared as
      `KeyOf` says, and a list or object inside it cannot be hashed for the identity map and
      fails too. Any other argument is the value itself. */
  function IdentityKey(v: Value, pk: string): (r: Key)
    ensures !v.List? && !v.Object? ==> r == KeyOf(v)
    ensures v.List? && |v.items| == 1 ==> r == KeyOf(v.items[0])
    ensures v.Object? && v.fields.Keys == {pk} ==> r == KeyOf(v.fields[pk])
    ensures r.Unusable? <==>
      || (v.List? && (|v.items| != 1 || v.items[0].List? || v.items[0].Object?))
      || (v.Object? && (v.fields.Keys != {pk} || v.fields[pk].List? || v.fields[pk].Object?))
  {
    match v
    case List(items) => if |items| == 1 then KeyOf(items[0]) else Unusable
    case Object(fields) => if fields.Keys == {pk} then KeyOf(fields[pk]) else Unusable
    case _ => KeyOf(v)
  }

  /** A one-element list, or an object holding just the key column, selects what its value
      selects on its own. */
  lemma WrappedIdentity(x: Value, pk: string)
    requires !x.List? && !x.Object?
    ensures IdentityKey(List([x]), pk) == IdentityKey(x, pk)
    ensures IdentityKey(Object(map[pk := x]), pk) == IdentityKey(x, pk)
  {
    assert map[pk := x].Keys == {pk};
  }

  /** Without leading blanks or a sign, a string reads as its unsigned number. */
  lemma PlainNumber(s: string)
    requires s == [] || !(IsBlank(s[0]) || s[0] == '+' || s[0] == '-')
    ensures SqlNumber(s) == UnsignedNumber(s)
  {
    assert LeadingBlanks(s) == 0 && s[0..] == s;
  }

  /** Digits, then something that cannot continue a number. */
  lemma DigitsThenUnsigned(d: string, t: string)
    requires IsDigits(d)
    requires t == [] || (!IsDigit(t[0]) && t[0] != '.' && t[0] != 'e' && t[0] != 'E')
    ensures UnsignedNumber(d + t) == Decimal(DigitsValue(d), 0)
  {
    DigitRunPrefix(d, t);
    assert (d + t)[..|d|] == d && (d + t)[|d|..] == t;
  }

  /** A sign and a run of digits, and nothing else, read as that integer. */
  lemma SignedDigitsNumber(sign: string, d: string)
    requires sign == [] || sign == "-"
    requires IsDigits(d)
    ensures SqlNumber(sign + d) == Decimal(if sign == [] then DigitsValue(d) else -(DigitsValue(d) as int), 0)
  {
    var s := sign + d;
    assert LeadingBlanks(s) == 0 && s[0..] == s;
    assert Unsigned(s).1 == d by {
      if sign == [] { assert s == d; } else { assert s[1..] == d; }
    }
    assert d + [] == d;
    DigitsThenUnsigned(d, []);
  }

  /** A string that reads as a whole number selects that key. */
  lemma KeyOfWhole(s: string, n: int)
    requires SqlNumber(s) == Decimal(n, 0)
    ensures KeyOf(Str(s)) == Equals(n)
  {
    assert Pow10(0) == 1;
  }

  /** A string that reads as a number of tenths selects a key when the tenths are whole. */
  lemma KeyOfTenths(s: string, m: int)
    requires SqlNumber(s) == Decimal(m, -1)
    ensures KeyOf(Str(s)) == if m % 10 == 0 then Equals(m / 10) else NoInteger
  {
    assert Pow10(1) == 10;
  }

  /** The database reads `str(n)` back as the key `n`. */
  lemma KeyOfIntString(n: int)
    ensures KeyOf(Str(IntToString(n))) == Equals(n)
  {
    var sign: string := if n < 0 then "-" else [];
    var digits := NatToString(if n < 0 then -n else n);
    assert IntToString(n) == sign + digits;
    SignedDigitsNumber(sign, digits);
    KeyOfWhole(sign + digits, n);
  }

  lemma {:induction false} DigitRunAll(s: string)
    requires forall i :: 0 <= i < |s| ==> IsDigit(s[i])
    ensures DigitRun(s) == |s|
  {
    if |s| > 0 {
      DigitRunAll(s[1..]);
    }
  }

  /** Digits followed by anything that cannot continue a number select the key the digits
      spell: `"12abc"` matches 12, where `int()` would refuse it. */
  lemma NumericPrefixKey(d: string, t: string)
    requires IsDigits(d)
    requires t == [] || (!IsDigit(t[0]) && t[0] != '.' && t[0] != 'e' && t[0] != 'E')
    ensures KeyOf(Str(d + t)) == Equals(DigitsValue(d))
  {
    PlainNumber(d + t);
    DigitsThenUnsigned(d, t);
    KeyOfWhole(d + t, DigitsValue(d));
  }

  lemma {:induction false} DigitRunPrefix(d: string, t: string)
    requires forall i :: 0 <= i < |d| ==> IsDigit(d[i])
    requires t == [] || !IsDigit(t[0])
    ensures DigitRun(d + t) == |d|
  {
    if |d| > 0 {
      assert (d + t)[1..] == d[1..] + t;
      DigitRunPrefix(d[1..], t);
    }
  }

  /** Digits, a point and digits read as a fraction. */
  lemma FractionNumber(w: string, f: string)
    requires IsDigits(w) && IsDigits(f)
    ensures SqlNumber(w + "." + f) == Decimal(DigitsValue(w + f), -|f|)
  {
    var s := w + "." + f;
    PlainNumber(s);
    DigitRunPrefix(w, "." + f);
    assert s[..|w|] == w && s[|w|] == '.' && s[|w| + 1..] == f;
    DigitRunAll(f);
    assert f[..|f|] == f && f[|f|..] == [];
  }

  /** An `e` and digits give that exponent. */
  lemma DigitsExponent(x: string)
    requires IsDigits(x)
    ensures ExponentOf("e" + x) == DigitsValue(x)
  {
    assert ("e" + x)[1..] == x;
    assert Unsigned(x) == (false, x);
    DigitRunAll(x);
    assert x[..|x|] == x;
  }

  /** Digits, an `e` and digits read with that exponent. */
  lemma ExponentNumber(w: string, x: string)
    requires IsDigits(w) && IsDigits(x)
    ensures SqlNumber(w + "e" + x) == Decimal(DigitsValue(w), DigitsValue(x))
  {
    var s := w + "e" + x;
    PlainNumber(s);
    DigitRunPrefix(w, "e" + x);
    assert DigitRun(s) == |w| && s[|w|] == 'e';
    assert s[..|w|] == w && s[|w|..] == "e" + x;
    assert UnsignedNumber(s) == WholePart(w, "e" + x);
    DigitsExponent(x);
  }

  /** A string that reads as a whole number times a power of ten selects that key. */
  lemma KeyOfScaled(s: string, m: int, e: nat)
    requires SqlNumber(s) == Decimal(m, e)
    ensures KeyOf(Str(s)) == Equals(m * Pow10(e))
  {
  }

  /** A fraction of zeros still selects a key: `"1.0"` matches 1. */
  lemma ZeroFractionKey()
    ensures KeyOf(Str("1.0")) == Equals(1)
  {
    FractionNumber("1", "0");
    assert "1" + "." + "0" == "1.0" && "1" + "0" == "10";
    assert DigitsValue("10") == 10 by { assert "10"[..1] == "1"; }
    KeyOfTenths("1.0", 10);
  }

  /** An exponent counts: `"1e1"` matches 10. */
  lemma ExponentKey()
    ensures KeyOf(Str("1e1")) == Equals(10)
  {
    ExponentNumber("1", "1");
    assert "1" + "e" + "1" == "1e1";
    KeyOfScaled("1e1", 1, 1);
    assert Pow10(1) == 10;
  }

  /** A number with a fraction equals no integer key: `"1.5"` matches nothing. */
  lemma FractionKey()
    ensures KeyOf(Str("1.5")) == NoInteger
  {
    FractionNumber("1", "5");
    assert "1" + "." + "5" == "1.5" && "1" + "5" == "15";
    assert DigitsValue("15") == 15 by { assert "15"[..1] == "1"; }
    KeyOfTenths("1.5", 15);
  }

  /** A string that starts with neither a blank, a sign, a digit nor a point holds no number:
      it selects key 0. */
  lemma NoNumberReadsZero(s: string)
    requires s == [] || !(IsBlank(s[0]) || IsDigit(s[0]) || s[0] == '+' || s[0] == '-' || s[0] == '.')
    ensures KeyOf(Str(s)) == Equals(0)
  {
    assert LeadingBlanks(s) == 0 && s[0..] == s;
  }

  /** `data.get(name, '').strip()`: a missing field is empty, a string is stripped, and any
      other value makes `.strip()` raise (`None`). */
  function TextField(v: Value): (r: Option<string>)
    ensures v.Absent? ==> r == Some([])
    ensures v.Str? ==> r == Some(Trim(v.s))
    ensures r.None? <==> !v.Absent? && !v.Str?
  {
    match v
    case Absent => Some([])
    case Str(s) => Some(Trim(s))
    case _ => None
  }
}

=== FILE: text.dfy ===
/** The string operations the storefront applies to request fields and catalog text:
    Python's `strip`, `lower`, `title`, `isdigit`, `int(str)`, `str(int)`, the `in` substring
    test and the code-point ordering `sorted` uses on names.

    Case mapping covers the ASCII letters; other characters are kept as they are (see README).
 */
module Text {
  import opened Outcomes

  // ----- whitespace and strip -------------------------------------------------------------

  /** The characters Python counts as whitespace, which `str.strip()` and `int()` remove: the
      ASCII controls tab to carriage return and the four separators after them, the space, and
      the Unicode spaces and line separators. */
  predicate IsSpace(c: char)
  {
    ('\t' <= c <= '\r') || ('\U{001C}' <= c <= ' ') || c == '\U{0085}' || c == '\U{00A0}'
    || c == '\U{1680}' || ('\U{2000}' <= c <= '\U{200A}') || c == '\U{2028}' || c == '\U{2029}'
    || c == '\U{202F}' || c == '\U{205F}' || c == '\U{3000}'
  }

  predicate AllSpace(s: string)
  {
    forall i :: 0 <= i < |s| ==> IsSpace(s[i])
  }

  /** True when `s` neither starts nor ends with whitespace. */
  predicate Clean(s: string)
  {
    s == [] || (!IsSpace(s[0]) && !IsSpace(s[|s| - 1]))
  }

  /** The length of the run of whitespace that starts `s`. */
  function LeadingSpace(s: string): (n: nat)
    ensures n <= |s|
    ensures forall i :: 0 <= i < n ==> IsSpace(s[i])
    ensures n < |s| ==> !IsSpace(s[n])
  {
    if |s| == 0 || !IsSpace(s[0]) then 0 else 1 + LeadingSpace(s[1..])
  }

  /** The length of the run of whitespace that ends `s`. */
  function TrailingSpace(s: string): (n: nat)
    ensures n <= |s|
    ensures forall i :: |s| - n <= i < |s| ==> IsSpace(s[i])
    ensures n < |s| ==> !IsSpace(s[|s| - 1 - n])
  {
    if |s| == 0 || !IsSpace(s[|s| - 1]) then 0 else 1 + TrailingSpace(s[..|s| - 1])
  }

  /** `s.strip()`: `s` without its leading and trailing whitespace. */
  function Trim(s: string): (r: string)
    ensures |r| <= |s|
    ensures r == [] <==> AllSpace(s)
    ensures Clean(r)
    ensures AllSpace(s[..LeadingSpace(s)]) && r <= s[LeadingSpace(s)..]
    // what is cut from the end is whitespace too
    ensures AllSpace(s[LeadingSpace(s) + |r|..])
  {
    var a := LeadingSpace(s);
    if a == |s| then []
    else
      s[a..|s| - TrailingSpace(s)]
  }

  /** Stripping a string that has no surrounding whitespace leaves it unchanged. */
  lemma TrimClean(s: string)
    requires Clean(s)
    ensures Trim(s) == s
  {
    if s != [] {
      assert LeadingSpace(s) == 0;
      assert TrailingSpace(s) == 0;
    }
  }

  /** Stripping twice is stripping once. */
  lemma TrimIdempotent(s: string)
    ensures Trim(Trim(s)) == Trim(s)
  {
    TrimClean(Trim(s));
  }

  // ----- case -------------------------------------------------------------------------------

  predicate IsUpper(c: char) { 'A' <= c <= 'Z' }

  predicate IsLower(c: char) { 'a' <= c <= 'z' }

  /** A cased character for `str.title()`: an ASCII letter, or any non-ASCII character. */
  predicate IsLetter(c: char) { IsUpper(c) || IsLower(c) || c as int >= 128 }

  function LowerChar(c: char): (r: char)
    ensures !IsUpper(r)
    ensures IsLetter(r) <==> IsLetter(c)
    ensures !IsUpper(c) ==> r == c
    ensures IsUpper(c) ==> IsLower(r) && r as int == c as int + 32
  {
    if IsUpper(c) then (c as int + 32) as char else c
  }

  function UpperChar(c: char): (r: char)
    ensures !IsLower(r)
    ensures IsLetter(r) <==> IsLetter(c)
    ensures LowerChar(r) == LowerChar(c)
  {
    if IsLower(c) then (c as int - 32) as char else c
  }

  /** `s.lower()` over ASCII letters. */
  function Lower(s: string): (r: string)
    ensures |r| == |s|
    ensures forall i :: 0 <= i < |s| ==> r[i] == LowerChar(s[i])
  {
    seq(|s|, i requires 0 <= i < |s| => LowerChar(s[i]))
  }

  lemma LowerIdempotent(s: string)
    ensures Lower(Lower(s)) == Lower(s)
  {
  }

  /** One character of `title()`: upper case at the start of a word, lower case inside one. */
  function TitleChar(c: char, startsWord: bool): (r: char)
    ensures LowerChar(r) == LowerChar(c)
    ensures IsLetter(r) <==> IsLetter(c)
    ensures startsWord ==> !IsLower(r)
    ensures !startsWord ==> !IsUpper(r)
  {
    if startsWord then UpperChar(c) else LowerChar(c)
  }

  /** A letter starts a word when it is first or follows a non-letter. */
  predicate StartsWord(s: string, i: int)
    requires 0 <= i < |s|
  {
    i == 0 || !IsLetter(s[i - 1])
  }

  /** `s.title()`: a letter that follows a non-letter becomes upper case, every other letter
      lower case. */
  function TitleCase(s: string): (r: string)
    ensures |r| == |s|
    ensures Lower(r) == Lower(s)
    ensures forall i :: 0 <= i < |s| ==> (IsLetter(r[i]) <==> IsLetter(s[i]))
    // a letter that starts a word is not lower case, and a letter inside one is not upper case
    ensures forall i :: 0 <= i < |s| && StartsWord(s, i) ==> !IsLower(r[i])
    ensures forall i :: 0 <= i < |s| && !StartsWord(s, i) ==> !IsUpper(r[i])
  {
    seq(|s|, i requires 0 <= i < |s| => TitleChar(s[i], StartsWord(s, i)))
  }

  /** Title-casing an already title-cased string changes nothing. */
  lemma TitleCaseIdempotent(s: string)
    ensures TitleCase(TitleCase(s)) == TitleCase(s)
  {
    var t := TitleCase(s);
    var tt := TitleCase(t);
    forall i | 0 <= i < |s|
      ensures tt[i] == t[i]
    {
      if i > 0 && IsLetter(s[i - 1]) {
        assert IsLetter(t[i - 1]);
      } else if i > 0 {
        assert !IsLetter(t[i - 1]);
      }
    }
  }

  // ----- digits and integers ----------------------------------------------------------------

  predicate IsDigit(c: char) { '0' <= c <= '9' }

  /** `s.isdigit()` over ASCII digits: non-empty and digits only. */
  predicate IsDigits(s: string)
  {
    |s| > 0 && forall i :: 0 <= i < |s| ==> IsDigit(s[i])
  }

  function DigitChar(d: nat): (c: char)
    requires d < 10
    ensures IsDigit(c) && c as int - '0' as int == d
  {
    ('0' as int + d) as char
  }

  /** The number a run of decimal digits denotes. */
  function DigitsValue(s: string): nat
    requires forall i :: 0 <= i < |s| ==> IsDigit(s[i])
  {
    if |s| == 0 then 0
    else
      var last := s[|s| - 1];
      assert IsDigit(last);
      DigitsValue(s[..|s| - 1]) * 10 + (last as int - '0' as int) as nat
  }

  /** Appending a digit shifts the number one place and adds the digit. */
  lemma DigitsSnoc(a: string, c: char)
    requires (forall i :: 0 <= i < |a| ==> IsDigit(a[i])) && IsDigit(c)
    ensures DigitsValue(a + [c]) == DigitsValue(a) * 10 + (c as int - '0' as int)
  {
    assert (a + [c])[..|a|] == a;
  }

  /** One or two digits, read left to right. */
  lemma ShortDigits(s: string)
    requires 1 <= |s| <= 2 && forall i :: 0 <= i < |s| ==> IsDigit(s[i])
    ensures |s| == 1 ==> DigitsValue(s) == s[0] as int - '0' as int
    ensures |s| == 2 ==> DigitsValue(s) == (s[0] as int - '0' as int) * 10 + (s[1] as int - '0' as int)
  {
    DigitsSnoc([], s[0]);
    assert [] + [s[0]] == [s[0]];
    if |s| == 2 {
      DigitsSnoc([s[0]], s[1]);
      assert [s[0]] + [s[1]] == s;
    } else {
      assert [s[0]] == s;
    }
  }

  /** `str(n)` for a natural number. */
  function NatToString(n: nat): (r: string)
    ensures IsDigits(r)
    ensures DigitsValue(r) == n
    ensures r[0] == '0' ==> n == 0
  {
    if n < 10 then [DigitChar(n)]
    else
      var prefix := NatToString(n / 10);
      var r := prefix + [DigitChar(n % 10)];
      assert r[..|r| - 1] == prefix;
      r
  }

  /** `str(n)` for any integer. */
  function IntToString(n: int): (r: string)
    ensures Clean(r)
  {
    if n < 0 then "-" + NatToString(-n) else NatToString(n)
  }

  /** `int(s)` on a string: surrounding whitespace, an optional sign and decimal digits.
      `None` stands for the `ValueError` Python raises on anything else. */
  function ParseInt(s: string): Option<int>
  {
    var t := Trim(s);
    if |t| > 0 && (t[0] == '-' || t[0] == '+') then
      if IsDigits(t[1..]) then
        var v: int := DigitsValue(t[1..]);
        Some(if t[0] == '-' then -v else v)
      else None
    else if IsDigits(t) then Some(DigitsValue(t))
    else None
  }

  /** `int(str(n)) == n`. */
  lemma ParseIntRoundTrip(n: int)
    ensures ParseInt(IntToString(n)) == Some(n)
  {
    var r := IntToString(n);
    TrimClean(r);
    if n < 0 {
      assert r[1..] == NatToString(-n);
    }
  }

  // ----- substring --------------------------------------------------------------------------

  /** Python's `needle in hay` on strings. */
  predicate IsSubstring(needle: string, hay: string)
  {
    exists i :: 0 <= i <= |hay| - |needle| && needle <= hay[i..]
  }

  /** Decides `needle in hay` by scanning start positions from the left. */
  function Occurs(needle: string, hay: string): (b: bool)
    ensures b <==> IsSubstring(needle, hay)
  {
    if needle <= hay then
      assert hay[0..] == hay;
      true
    else if |hay| <= |needle| then
      assert forall i :: 0 <= i <= |hay| - |needle| ==> i == 0 && hay[i..] == hay;
      false
    else
      var rest := Occurs(needle, hay[1..]);
      assert forall i :: 1 <= i <= |hay| - |needle| ==> hay[i..] == hay[1..][i - 1..];
      if rest then
        var j :| 0 <= j <= |hay[1..]| - |needle| && needle <= hay[1..][j..];
        assert hay[1..][j..] == hay[j + 1..];
        true
      else
        false
  }

  // ----- ordering of names ------------------------------------------------------------------

  /** Python's `a <= b` on strings: code-point lexicographic order, a prefix first. */
  predicate LexLe(a: string, b: string)
  {
    |a| == 0 || (|b| > 0 && (a[0] < b[0] || (a[0] == b[0] && LexLe(a[1..], b[1..]))))
  }

  lemma {:induction false} LexLeTotal(a: string, b: string)
    ensures LexLe(a, b) || LexLe(b, a)
  {
    if |a| > 0 && |b| > 0 && a[0] == b[0] {
      LexLeTotal(a[1..], b[1..]);
    }
  }

  lemma {:induction false} LexLeTransitive(a: string, b: string, c: string)
    requires LexLe(a, b) && LexLe(b, c)
    ensures LexLe(a, c)
  {
    if |a| > 0 && a[0] == b[0] && b[0] == c[0] {
      LexLeTransitive(a[1..], b[1..], c[1..]);
    }
  }
}
